=== FILE: README.md ===
# Shababeek café point-of-sale: authorization and resource pipeline

This project models, in Dafny, the part of the Shababeek café point-of-sale
backend that decides who may do what and how each request changes the
stored records:

- the `auth(allowedUserTypes)` guard every route sits behind. It reads the
  `?userType` selector, the route's allowed list, the `Authorization:
  Bearer …` header and the admin's live token list;
- the `Admin` account: field rules, credential lookup, token issue,
  password hashing on save, and the `/admins` router (create, login,
  logout, logout-all, list, read, PATCH `/me` and `/:id`, DELETE `/me` and
  `/:id`);
- the `/tables`, `/categories`, `/products` and `/orders` routers. Each has
  a role `switch` on `Super Admin | Admin | Cashier`, a whitelist PATCH, a
  fixed order of checks, and `sortBy`/`fields`/`isActive`/`category` query
  parsing. The orders router also scopes a Cashier's list to their own
  orders;
- the Mongoose schemas behind them: casting, `trim`/`lowercase` setters,
  `required`/`enum`/custom validators, defaults and unique indexes;
- the error classifier `reformatAndLog(userId, error)`, which maps an
  error to `{message, statusCode, errors}`;
- the client's `loader` reducer (the list of requests in flight).

The document store is an in-memory map from id to record plus the natural
insertion order. It lives inside a `Collection` class per model, whose
`Valid()` invariant includes the unique indexes. bcrypt, jsonwebtoken and
`validator.isEmail` are function parameters (`Accounts.Crypto`). The
equations the model relies on are a separate predicate, `Accounts.Lawful`:
`compare(p, hash(p))`, a hash is 60 characters long as bcrypt's are, and
`verify(sign(id, iat)) == Verified(id)`.

Each router handler is a method on the collection. Its `ensures` ties the
reply and the new collection contents to a pure function of the old
contents (`CreateReply`, `PatchByIdOutcome`, …). The properties the code
promises are lemmas about those functions:

- the order in which the checks run;
- that nothing is written when a check fails;
- that a PATCH changes exactly the submitted keys;
- that a deleted record is gone;
- that a logged-out token no longer passes the guard;
- that a created admin can sign in.

Some behaviour looks accidental but is modelled as written:

- `userType=guest` passes the guard whatever the route allows;
- a token that `jwt.verify` rejects ends in a 500, not a 401, because the
  library's error names fall through to the classifier's default case;
- creating an admin and creating an order have no role check.

Modules: `Common` (values, ordered objects, filtering), `Text` (string
built-ins), `ErrorHandler`, `Store`, `Validation` (schemas), `Query` (list
parameters), `Resource` (the shared router handlers), `Tables`,
`Categories`, `Products`, `Orders`, `Accounts` (the Admin model), `Auth`,
`AdminRoutes` and `Loader`.

## Model

| member | source | states |
|---|---|---|
| Common.Without | client/src/modules/common/loader.js:17-19 | `filter((y) => y !== x)`: an element is kept iff it was there and differs from `x`; the list never grows |
| Common.WithoutAppend | server/src/routes/v1/admins.js:205 | filtering distributes over concatenation, so the kept elements stay in order |
| Common.WithoutAbsent | client/src/modules/common/loader.js:18 | removing an absent element leaves the list unchanged |
| Common.AppendThenWithout | client/src/modules/common/loader.js:14-19 | appending an element not already present and then removing it restores the original list |
| Common.Put | server/src/errorHandler.js:37-39 | `obj[k] = v` on an insertion-ordered object: an existing key keeps its place, a new key goes last, other keys keep their values |
| Common.PutFresh | server/src/errorHandler.js:37-39 | putting a key not yet present appends exactly that entry |
| Common.PutKeepsDistinct | server/src/errorHandler.js:59-61 | the object's keys stay distinct under assignment |
| Text.Trim | server/src/models/Table.js:38 | the `trim` setter cuts whitespace from both ends and nothing else: the result is a slice of the input, all-whitespace outside it, with no whitespace at either end; whitespace is every character `trim` removes, U+1680, U+2000–U+200A, U+2028, U+2029, U+202F, U+205F and U+3000 included |
| Text.FirstNonSpace | server/src/models/Table.js:38 | where `trim` cuts at the front: every character before the position is whitespace, the one at it is not |
| Text.EndNonSpace | server/src/models/Table.js:38 | where `trim` cuts at the back: every character from the position on is whitespace, the one before it is not |
| Text.TrimNoop | server/src/models/Admin.js:90-104 | trimming text with no whitespace at either end leaves it unchanged |
| Text.ToLower | server/src/models/Admin.js:114 | `lowercase` / `toLowerCase()` keeps the length and lower-cases each ASCII letter |
| Text.IndexFrom | server/src/middleware/auth.js:38 | the first position at or after `i` where the pattern occurs, or none |
| Text.ReplaceFirst | server/src/middleware/auth.js:38 | `replace` with a string pattern: unchanged when the pattern does not occur; otherwise only its first occurrence is swapped for the replacement, the text on both sides kept |
| Text.ReplacePrefix | server/src/middleware/auth.js:38 | removing `"Bearer "` from a header that starts with it leaves exactly the rest of the header |
| Text.CommasToSpaces | server/src/routes/v1/admins.js:364-366 | every comma becomes a space, no comma remains, every other character stays in place |
| Text.Before | server/src/routes/v1/admins.js:371 | `split(':')[0]`: the longest prefix without a colon, followed by a colon when shorter than the input |
| Text.After | server/src/routes/v1/admins.js:371-373 | the text after the first colon, absent iff there is no colon; the input is the part before it, the colon, and this part |
| Text.SecondPiece | server/src/routes/v1/admins.js:371-373 | `split(':')[1]`: present iff the input has a colon, and itself colon-free |
| Text.BeforeAbsent | server/src/routes/v1/admins.js:371 | without a colon, `split(':')[0]` is the whole text |
| Text.BeforeFirst | server/src/routes/v1/admins.js:371 | a colon-free piece followed by a colon is exactly `split(':')[0]` |
| Text.SecondPieceOf | server/src/routes/v1/admins.js:371-373 | `split(':')[1]` of `f:t` followed by nothing or by another `:`-piece is `t`, for colon-free `f` and `t` |
| Text.Join | server/src/errorHandler.js:48 | `join(', ')` of no keys is empty, and of one key is that key |
| Text.JoinAppend | server/src/errorHandler.js:48 | joining one more key appends the separator and that key to the keys already joined |
| Text.LowerCase | server/src/errorHandler.js:60 | `_.lowerCase(key)` for ASCII keys contains no upper-case letter |
| Text.LowerCaseOfLower | server/src/errorHandler.js:60 | a key already in lower case keeps its spelling (`name`, `email`) |
| Text.UpperFirst | server/src/routes/v1/tables.js:338 | `_.upperFirst` changes only the first character, to upper case |
| Text.DigitsOfNat | server/src/models/Product.js:84-93 | reading back the decimal spelling of a number gives that number |
| ErrorHandler.Reformat | server/src/errorHandler.js:20-114 | status 400 iff ClientError, FileError, ValidationError or duplicate key; 401 iff AuthorizationError; 404 iff NotFoundError; 500 iff an unrecognised name or another MongoError, and then the generic message with no `errors`; pass-through kinds get `[userId]` glued to the message; `errors` is present iff ValidationError or duplicate key, and then the message lists its keys |
| ErrorHandler.CopyMessages | server/src/errorHandler.js:37-39 | the copied `errors` object has distinct keys, exactly the source's keys |
| ErrorHandler.CopyDistinct | server/src/errorHandler.js:37-39 | with distinct field keys, the copy is the original field messages in their order |
| ErrorHandler.TakenMessages | server/src/errorHandler.js:59-61 | one entry per `keyPattern` key, each "The <key> you've entered is already taken." |
| ErrorHandler.ValidationResponse | server/src/errorHandler.js:34-53 | a ValidationError gives 400, its field messages as `errors`, and "[userId] The information … field(s): k1, k2." |
| ErrorHandler.DuplicateKeyResponse | server/src/errorHandler.js:55-73 | code 11000 gives 400 and names every `keyPattern` key as taken |
| ErrorHandler.FaultStatus | server/src/errorHandler.js:34-90 | a ValidationError is answered 400, an AuthorizationError 401 and a NotFoundError 404, whatever the user id |
| ErrorHandler.ErrorObject.constructor | server/src/errorHandler.js:20 | the error object holds the thrown error's fields |
| ErrorHandler.CollectMessages | server/src/errorHandler.js:37-39 | the `forEach` loop builds exactly `CopyMessages` of the errors |
| ErrorHandler.CollectTaken | server/src/errorHandler.js:59-61 | the `forEach` loop builds exactly `TakenMessages` of the keys |
| ErrorHandler.ReformatAndLog | server/src/errorHandler.js:20-114 | returns `Reformat` of the error as received; the error's message is overwritten with the response message; its name changes only for a Paymob client error |
| Store.WriteKeepsUnique | server/src/models/Table.js:36 | writing a record that collides with no other record keeps every unique index satisfied |
| Store.ConflictIn | server/src/models/Category.js:45 | the first unique path another record already holds with the same value, or a proof that there is none |
| Store.InsertFault | server/src/models/Product.js:69 | inserting fails iff the id is taken or a unique path collides, and then with a MongoError of code 11000 |
| Store.UpdateFault | server/src/models/Admin.js:107 | re-saving fails iff a unique path collides with another record, with code 11000 |
| Store.FirstWhere | server/src/models/Admin.js:156-158 | `findOne({path: v})` returns the first record in natural order holding `v`, or none when no record holds it |
| Store.MatchesCondition | server/src/routes/v1/orders.js:214-216 | each condition of a `match` object holds of every record it lets through: a defined value is there exactly; an `undefined` or `null` one means the path is missing or `null` |
| Store.Matching | server/src/routes/v1/tables.js:146 | `find(match)` selects exactly the records that satisfy every condition, an `undefined` value being sent as `null` |
| Store.Collection.constructor | server/src/models/Table.js:32-44 | an empty collection satisfies its invariant |
| Store.Collection.Insert | server/src/models/Table.js:32-44 | a new record is stored and appended to the natural order iff the insert raises no fault; otherwise nothing changes; the unique indexes stay satisfied |
| Store.Collection.Update | server/src/routes/v1/tables.js:371 | a loaded record is replaced iff no unique index collides; the order is kept; the invariant is kept |
| Store.Collection.Delete | server/src/routes/v1/products.js:505-509 | reports whether the record existed; afterwards it is gone from the map and from the order |
| Validation.RuleFor | server/src/models/Order.js:79-139 | the schema's rule for a path, or none when the schema has no such path |
| Validation.RuleAt | server/src/models/Order.js:79-139 | each path is governed by the first rule naming it |
| Validation.LastOf | server/src/routes/v1/tables.js:367-369 | the last value a body gives a key, present iff the key was submitted |
| Validation.AssignEffect | server/src/routes/v1/tables.js:367-369 | assigning a body sets each submitted schema path to its cast value and leaves every other path as it was; keys outside the schema are dropped |
| Validation.AssignOneEffect | server/src/routes/v1/tables.js:367-369 | one assignment `doc[k] = v` sets a schema path `k` to the cast of `v` and leaves every other path, present or absent, as it was |
| Validation.Defaults | server/src/models/Category.js:54-58 | the defaults document holds exactly the paths with a default, at that default |
| Validation.DefaultApplies | server/src/models/Product.js:94-98 | a path with a default that the body does not mention holds the default after `new Model(body)` |
| Validation.NumberOfString | server/src/models/Product.js:84-93 | Mongoose's number cast of a string: the empty string becomes `null`, a decimal integer (with an optional minus sign) its value; anything else is kept as the same non-empty string |
| Validation.NumberSpelling | server/src/models/Product.js:84-93 | a number sent as its decimal spelling is stored as that number |
| Validation.PathError | server/src/models/Order.js:96-110 | a required path with no error is non-blank; a blank required path reports its required message; a passing path has the path's type; a passing enum path holds an allowed value; a passing string enum path is missing or holds an allowed value, so `null` is refused by the enum validator |
| Validation.ValidMeetsRules | server/src/models/Order.js:79-139 | a document with no validation errors meets every rule of its schema |
| Validation.AllPathsPass | server/src/models/Order.js:79-139 | a document on which every (non-array) path passes its validators has no validation errors at all |
| Validation.ErrorReported | server/src/models/Order.js:79-139 | each failing path is reported under its own name with its message |
| Validation.ItemErrorsEmpty | server/src/models/Order.js:113-128 | a line item with no errors meets every line-item rule |
| Validation.ItemsErrorsEmpty | server/src/models/Order.js:112-129 | an array with no errors has every item meeting every line-item rule |
| Validation.ValidItems | server/src/models/Order.js:111-134 | in a valid document every item of an array path meets the item rules |
| Query.ParseSort | server/src/routes/v1/admins.js:368-389 | an absent or empty `sortBy` gives `{createdAt: -1}`; otherwise at most one key, the text before the colon, with direction ±1; with no colon, an empty sort |
| Query.SplitAtColon | server/src/routes/v1/admins.js:371 | splitting `f:t` at its first colon gives back `f` and `t` |
| Query.SortByDirection | server/src/routes/v1/admins.js:373-386 | `f:asc` / `f:desc` (case-insensitive) give `{f: 1}` / `{f: -1}`; any other direction gives an empty sort, not the default |
| Query.ParseFields | server/src/routes/v1/admins.js:364-366 | a projection is present iff `fields` is non-empty, with every comma turned into a space |
| Query.IsActiveCondition | server/src/routes/v1/categories.js:159-164 | `"true"` / `"false"` map to the booleans; any other non-empty value that is not an inherited object property gives `undefined`; an absent or empty value gives no condition |
| Query.ListingFor | server/src/routes/v1/products.js:193-226 | a listing carries the given `match`, the parsed sort and projection, and limit/skip unchanged |
| Query.UnfilteredListing | server/src/routes/v1/tables.js:144-190 | GET `/tables` (and GET `/admins`, server/src/routes/v1/admins.js:358-404) lists with an empty `match`, the parsed sort and projection, and the given limit and skip |
| Resource.Disallowed | server/src/routes/v1/tables.js:328-343 | the whitelist error holds exactly the submitted keys outside the whitelist, each with "<Key> cannot be modified." |
| Resource.OneDisallowed | server/src/routes/v1/tables.js:336-340 | a single disallowed key gives exactly one entry |
| Resource.PatchGate | server/src/routes/v1/tables.js:324-365 | PATCH passes iff the id is well formed, the body is whitelisted, the role is permitted and the record exists; the first failing check, in that order, decides the error |
| Resource.DeleteGate | server/src/routes/v1/tables.js:423-447 | DELETE passes iff the id is well formed, the role is permitted and the record exists, checked in that order |
| Resource.SaveFault | server/src/models/Table.js:32-44 | `save()` reports validation errors first and only then unique-index conflicts |
| Resource.CreateReply | server/src/routes/v1/tables.js:62-91 | a refused role gives AuthorizationError; otherwise 201 with the built document iff it saves, else the save's fault |
| Resource.ReadById | server/src/routes/v1/tables.js:234-267 | 200 with the record iff the id is well formed and present, otherwise NotFoundError |
| Resource.PatchReply | server/src/routes/v1/tables.js:317-381 | a gate failure is the reply; a success is 200 with the submitted keys assigned to the loaded record |
| Resource.DeleteReply | server/src/routes/v1/tables.js:416-457 | 200 iff the delete gate passes, otherwise the gate's error |
| Resource.WhitelistFirst | server/src/routes/v1/products.js:390-405 | a body with a key outside the whitelist is refused with a ValidationError naming that key, whatever the role and whether the record exists |
| Resource.RoleBeforeExistence | server/src/routes/v1/products.js:407-427 | a refused role gets 401 for every well-formed id, present or not |
| Resource.PatchSetsOnlySubmitted | server/src/routes/v1/orders.js:474-478 | a successful PATCH sets exactly the submitted keys and leaves every other path unchanged |
| Resource.DeleteTwice | server/src/routes/v1/categories.js:445-471 | deleting the same id again gives NotFoundError |
| Resource.GatesAreClientErrors | server/src/routes/v1/orders.js:432-472 | every refusal of the PATCH and DELETE gates is classified 400, 401 or 404 |
| Resource.HandleCreate | server/src/routes/v1/tables.js:62-91 | the reply is `CreateReply`; the record is stored iff the reply succeeds, and then its id goes last in the natural order, which is otherwise unchanged |
| Resource.ApplyUpdates | server/src/routes/v1/tables.js:367-369 | the `forEach` assignment loop computes `Assign` of the body |
| Resource.HandlePatch | server/src/routes/v1/tables.js:317-381 | the reply is `PatchReply`; the record is replaced iff the reply succeeds; the natural order is kept |
| Resource.HandleDelete | server/src/routes/v1/tables.js:416-457 | the reply is `DeleteReply`; the record is removed iff the reply succeeds, and then its id leaves the natural order, which is otherwise unchanged |
| Tables.ListsEveryTable | server/src/routes/v1/tables.js:146 | listing with no conditions returns every table |
| Tables.NameTrimmed | server/src/models/Table.js:34-39 | a created table stores exactly its trimmed name |
| Tables.NameRequired | server/src/models/Table.js:34-39 | a missing or all-whitespace name is refused with "Name can't be blank." alone |
| Tables.StaffCannotCreate | server/src/routes/v1/tables.js:64-77 | Admins and Cashiers get AuthorizationError (401) and nothing is stored |
| Tables.NamedTableValid | server/src/models/Table.js:34-39 | a table whose name is not only whitespace passes validation |
| Tables.DuplicateName | server/src/models/Table.js:36 | a second table with the same trimmed name fails with code 11000, and the name is reported as taken |
| Categories.CategoryListing | server/src/routes/v1/categories.js:153-206 | `match` holds at most `isActive`, set from the query as `IsActiveCondition` says |
| Categories.ActiveFilter | server/src/routes/v1/categories.js:159-164 | `isActive=true` / `false` lists exactly the categories with that status |
| Categories.UnknownActiveFilter | server/src/routes/v1/categories.js:159-164 | any other `isActive` lists exactly the categories whose `isActive` is missing or `null`, none of the stored ones |
| Categories.ActiveByDefault | server/src/models/Category.js:54-58 | a category created without `isActive` is active |
| Categories.DescriptionRequired | server/src/models/Category.js:49-53 | a category without a description is refused with "Description can't be blank." |
| Categories.NameNotModifiable | server/src/routes/v1/categories.js:350-365 | patching `name` gives a ValidationError "Name cannot be modified." and nothing changes |
| Categories.NameMessage | server/src/routes/v1/categories.js:360 | the message for `name` reads "Name cannot be modified." |
| Categories.StaffLockedOut | server/src/routes/v1/categories.js:73-86 | Admins and Cashiers are refused create, patch and delete with AuthorizationError |
| Products.ProductListing | server/src/routes/v1/products.js:176-233 | `match.category` is set iff `category` is given; `match.isActive` as `IsActiveCondition` says; there are no other conditions |
| Products.CategoryFilter | server/src/routes/v1/products.js:182-184 | a category filter lists only products of that category |
| Products.ActiveByDefault | server/src/models/Product.js:94-98 | a product created without `isActive` is active |
| Products.IsActiveRule | server/src/models/Product.js:94-98 | `isActive` is governed by its own rule, which has the default `true` |
| Products.ValidProduct | server/src/models/Product.js:60-103 | a valid product has a well-formed category id, non-empty name, description and price, and numeric order bounds |
| Products.BoundsUnordered | server/src/models/Product.js:84-93 | a product whose minimum exceeds its maximum still passes validation |
| Products.NameAndCategoryFixed | server/src/routes/v1/products.js:390-405 | a PATCH with `name` or `category` is refused with a ValidationError and nothing changes |
| Products.StaffLockedOut | server/src/routes/v1/products.js:96-109 | Admins and Cashiers are refused create, patch and delete with AuthorizationError |
| Orders.OrderFilter | server/src/routes/v1/orders.js:198-216 | a Cashier's `match.admin` is always their own id; Super Admin and Admin get it only from the query; other roles get none; `category` comes from the query |
| Orders.CashierSeesOnlyOwnOrders | server/src/routes/v1/orders.js:206-208 | every order a Cashier is shown is their own, whatever `admin` they ask for |
| Orders.CreateOpenToAll | server/src/routes/v1/orders.js:125-139 | the create outcome does not depend on the role |
| Orders.CashierPatch | server/src/routes/v1/orders.js:432-462 | for a Cashier: an ill-formed id gives 404, then the whitelist gives a ValidationError, then AuthorizationError |
| Orders.AdminRights | server/src/routes/v1/orders.js:453-554 | Super Admins and Admins may patch an existing order; only Super Admins may delete one |
| Orders.ProductsRule | server/src/models/Order.js:111-134 | `products` is governed by its own array rule |
| Orders.ProductsRequired | server/src/models/Order.js:130-133 | an order without `products` is refused with "Products can't be empty." |
| Orders.EmptyProducts | server/src/models/Order.js:131 | an empty `products` array is refused with "Products can't be empty." |
| Orders.ValidOrder | server/src/models/Order.js:79-139 | a valid order has well-formed admin, table and category ids, a listed status, a payment type that is missing or listed (`null` is refused), and a non-empty `products` array |
| Orders.ValidReference | server/src/models/Order.js:81-95 | each of the admin, table and category references of a valid order is a well-formed id |
| Orders.ValidStatus | server/src/models/Order.js:96-103 | a passing `status` is a string from the status list |
| Orders.ValidPaymentType | server/src/models/Order.js:104-110 | a `paymentType` that passes is missing or a string from the payment-type list; `null` does not pass |
| Orders.ValidProducts | server/src/models/Order.js:130-133 | the `products` validator passes only a non-empty array |
| Orders.ValidLineItems | server/src/models/Order.js:113-128 | every line item of a valid order has a well-formed product id, a non-empty price and a numeric count |
| Accounts.RuleOf | server/src/models/Admin.js:88-144 | each Admin path is governed by its own rule |
| Accounts.BuiltPath | server/src/models/Admin.js:88-144 | a new admin holds the cast of each submitted schema path |
| Accounts.ValidAdmin | server/src/models/Admin.js:90-134 | a valid admin has non-empty names and phone number, an e-mail address `isEmail` accepts, a password of at least 8 characters, and one of the three roles |
| Accounts.NamesValid | server/src/models/Admin.js:90-104 | a valid admin has a non-empty first name, last name and phone number |
| Accounts.RoleValid | server/src/models/Admin.js:127-134 | a passing role is one of Super Admin, Admin and Cashier |
| Accounts.PlainPathValid | server/src/models/Admin.js:90-104 | a required string path that passes holds a non-empty string |
| Accounts.EmailValid | server/src/models/Admin.js:105-115 | a passing e-mail path holds a non-empty string that `isEmail` accepts |
| Accounts.PasswordValid | server/src/models/Admin.js:116-126 | a passing password has at least 8 characters |
| Accounts.PasswordTooShort | server/src/models/Admin.js:116-126 | a password of 1 to 7 characters is refused with the length message |
| Accounts.ShortPasswordError | server/src/models/Admin.js:116-126 | a stored password of 1 to 7 characters fails the length validator with its message |
| Accounts.BuiltPassword | server/src/models/Admin.js:116-126 | a new admin holds the password exactly as sent: it is neither trimmed nor lower-cased |
| Accounts.AssignedPassword | server/src/models/Admin.js:116-126 | assigning a body onto any record leaves the password last sent, unchanged |
| Accounts.WithToken | server/src/models/Admin.js:182-184 | `tokens.concat({token})` appends exactly one token, keeps the earlier ones and changes no field |
| Accounts.Hashed | server/src/models/Admin.js:191-199 | the pre-save hook changes only the password, and only when it was modified; an unchanged hash is never hashed again |
| Accounts.HashedPasswordChecks | server/src/models/Admin.js:194-196 | with lawful crypto, a modified password is stored so that it checks against the stored hash |
| Accounts.HashPasses | server/src/models/Admin.js:118-126 | a bcrypt hash in place of the password passes the password's length validator |
| Accounts.HashedValid | server/src/models/Admin.js:191-199 | with lawful crypto, the hashing hook keeps a valid admin valid, so every later `save()` re-validates it successfully |
| Accounts.AdminSaveFault | server/src/models/Admin.js:88-199 | `save()` of an admin: validation errors first, then the unique e-mail index (insert or update), checked on the hashed record |
| Accounts.TokenSaveSucceeds | server/src/models/Admin.js:182-186 | re-saving a valid stored admin with only its token list changed cannot fail |
| Accounts.FindByCredentials | server/src/models/Admin.js:146-171 | finds nothing when either credential is missing or no admin has that e-mail address; a found admin holds that e-mail address and its hash checks against the password |
| Accounts.CredentialsFault | server/src/models/Admin.js:147-150 | every failed lookup is the same NotFoundError, classified 404 with the one message |
| Accounts.SignInComplete | server/src/models/Admin.js:152-170 | with unique e-mail addresses, an admin whose e-mail address and password match is found |
| Accounts.Save | server/src/models/Admin.js:191-199 | the fault is `AdminSaveFault`; on success the hashed record is stored and a new one is appended to the order; on failure nothing changes |
| Accounts.GenerateAuthToken | server/src/models/Admin.js:173-189 | returns the token signed for the admin's id; on success exactly that token is appended to the admin's list |
| Auth.Authorize | server/src/middleware/auth.js:16-61 | a guest proceeds with no identity whatever the allowed list; a disallowed type or a missing or non-Bearer header gives AuthorizationError; a verified admin proceeds iff it still holds the token, and then the token is the header minus "Bearer "; past the Bearer check, a token `jwt.verify` rejects is denied with its error, a decoded id that is not an ObjectId with a CastError, and a user type other than `admin` with the missing-model TypeError; every refusal is 401 or 500 |
| Auth.VerifyFault | server/src/middleware/auth.js:40-61 | the error `jwt.verify` throws is classified 500, not 401 |
| Auth.CastFault | server/src/middleware/auth.js:42-61 | the CastError of a decoded id that is not an ObjectId is classified 500 |
| Auth.ModelFault | server/src/middleware/auth.js:42-61 | the TypeError of a user type with no model is classified 500 |
| Auth.RejectedTokenIs500 | server/src/middleware/auth.js:40-61 | an admin request whose Bearer token `jwt.verify` rejects is denied with a 500, not a 401 |
| Auth.MalformedIdIs500 | server/src/middleware/auth.js:40-61 | an admin request whose token decodes to an id that is not an ObjectId is denied with a 500 |
| Auth.UnknownUserTypeIs500 | server/src/middleware/auth.js:27-61 | an allowed user type other than `admin` and `guest`, with a good token, is denied with a 500 |
| Auth.BearerAdmits | server/src/middleware/auth.js:32-56 | an admin route admits `Bearer <token>` as the admin the token was signed for while that admin still holds it |
| Auth.BearerRefused | server/src/middleware/auth.js:42-51 | the same header gets AuthorizationError once the admin no longer holds the token |
| Auth.AdmitsWithMoreTokens | server/src/middleware/auth.js:42-56 | giving an admin more tokens, and removing none, never turns away a request the guard admitted as that admin |
| Auth.Request.constructor | server/src/middleware/auth.js:53-54 | a fresh request carries no token and no admin |
| Auth.Guard | server/src/middleware/auth.js:18-62 | a refusal sends the classifier's response and leaves the request alone; an admin's success sets `req.token` and `req.admin` and calls `next`; a guest's success sets nothing |
| AdminRoutes.CreateOutcome | server/src/routes/v1/admins.js:81-100 | a failing first save is the reply and stores nothing; a success is 201 with the stored admin and its first token (that the first save passing is enough is `CreateSucceeds`) |
| AdminRoutes.LoginOutcome | server/src/routes/v1/admins.js:159-176 | a failed lookup gives the credentials NotFoundError; a success returns a fresh token appended to the admin's list (that a found admin is enough is `LoginSucceeds`) |
| AdminRoutes.SetTokens | server/src/routes/v1/admins.js:203-254 | saving a new token list gives 200 and changes only that admin's tokens; a failure changes nothing |
| AdminRoutes.AccountById | server/src/routes/v1/admins.js:448-481 | 200 with the admin iff the id is well formed and present, otherwise NotFoundError |
| AdminRoutes.PatchAccount | server/src/routes/v1/admins.js:563-567 | a refused save changes nothing; a success stores the assigned and hashed record |
| AdminRoutes.PatchMeOutcome | server/src/routes/v1/admins.js:542-577 | a key outside the four updatable ones gives a ValidationError and nothing changes; otherwise the caller's record is updated |
| AdminRoutes.PatchByIdOutcome | server/src/routes/v1/admins.js:644-696 | an ill-formed id gives NotFoundError, then the whitelist, then existence, then the update |
| AdminRoutes.DeleteByIdOutcome | server/src/routes/v1/admins.js:770-797 | 200 and the admin removed iff the id is well formed and present; otherwise NotFoundError and nothing changes |
| AdminRoutes.GuestCreatesSuperAdmin | server/src/middleware/auth.js:16-21 | a `userType=guest` request passes the admin-only guard of the create route, and a successful create stores the `Super Admin` role it was sent |
| AdminRoutes.CreatedCanSignIn | server/src/routes/v1/admins.js:81-100 | with lawful crypto, an admin just created is found by the e-mail address and password it was created with |
| AdminRoutes.CreateSucceeds | server/src/routes/v1/admins.js:81-93 | with lawful crypto, a create is answered 201 exactly when the first `save()` passes, and a refused create stores nothing |
| AdminRoutes.CreateKeepsValid | server/src/routes/v1/admins.js:81-93 | with lawful crypto, creating an admin keeps every stored admin valid |
| AdminRoutes.LoginSucceeds | server/src/routes/v1/admins.js:159-170 | with unique addresses and valid stored admins, a sign-in is answered 200 exactly when the credentials find an admin |
| AdminRoutes.LoginKeepsValid | server/src/routes/v1/admins.js:159-170 | signing in keeps every stored admin valid |
| AdminRoutes.SetTokensKeepsValid | server/src/routes/v1/admins.js:203-254 | both sign-outs keep every stored admin valid |
| AdminRoutes.PatchKeepsValid | server/src/routes/v1/admins.js:542-577 | with lawful crypto, a patch keeps every stored admin valid |
| AdminRoutes.CreateThenLogin | server/src/routes/v1/admins.js:81-176 | with lawful crypto, unique addresses and valid admins, a body whose first save passes is answered 201, and signing in with its address and password is then answered 200 |
| AdminRoutes.CreateKeepsUnique | server/src/models/Admin.js:105-107 | creating an admin keeps e-mail addresses unique |
| AdminRoutes.CreatedCredentials | server/src/models/Admin.js:105-126 | a successful create stores the trimmed, lower-cased e-mail address and a non-empty password |
| AdminRoutes.BuiltCredentials | server/src/models/Admin.js:105-118 | the e-mail address is stored trimmed and lower-cased, the password as sent |
| AdminRoutes.BuiltEmail | server/src/models/Admin.js:105-115 | a new admin holds the e-mail address trimmed and lower-cased |
| AdminRoutes.StoredNonEmpty | server/src/models/Admin.js:90-118 | a required path that passed validation was sent non-empty |
| AdminRoutes.LoginThenGuard | server/src/routes/v1/admins.js:159-170 | with lawful crypto, the token a sign-in returns passes the guard as that admin |
| AdminRoutes.LoginKeepsSessions | server/src/routes/v1/admins.js:159-170 | signing in ends no session: every header that passed before still passes |
| AdminRoutes.LogoutEndsOneSession | server/src/routes/v1/admins.js:203-215 | after logout, the request's token gets AuthorizationError; the admin's other tokens still pass |
| AdminRoutes.LogoutAllEndsEverySession | server/src/routes/v1/admins.js:242-254 | after logout-all, no header passes the guard as that admin |
| AdminRoutes.DeletedAdminLockedOut | server/src/routes/v1/admins.js:770-797 | a deleted admin's tokens no longer pass the guard, and deleting it again gives NotFoundError |
| AdminRoutes.EmailAndRoleFixed | server/src/routes/v1/admins.js:544-561 | a PATCH `/me` with `email` or `role` is refused and nothing changes |
| AdminRoutes.PatchMeSetsOnlySubmitted | server/src/routes/v1/admins.js:563-567 | a successful PATCH `/me` sets exactly the submitted paths other than the password and leaves the rest unchanged |
| AdminRoutes.PatchedPasswordChecks | server/src/routes/v1/admins.js:563-567 | with lawful crypto, a new password set through PATCH `/me` checks against the stored hash |
| AdminRoutes.HandleCreate | server/src/routes/v1/admins.js:81-100 | the reply and the new collection are `CreateOutcome` of the old one; with lawful crypto the reply is 201 exactly when the first save passes, and valid stored admins stay valid; a saved account's id goes last in the natural order, which is otherwise unchanged |
| AdminRoutes.HandleLogin | server/src/routes/v1/admins.js:159-176 | the reply and the new collection are `LoginOutcome`; when the stored admins are valid the reply is 200 exactly when the credentials find an admin, and they stay valid; the natural order is unchanged |
| AdminRoutes.HandleSetTokens | server/src/routes/v1/admins.js:203-254 | the reply and the new collection are `SetTokens`; the natural order is unchanged |
| AdminRoutes.HandleLogout | server/src/routes/v1/admins.js:203-215 | the reply and the new collection are `LogoutOutcome`: the request's token is filtered out; the natural order is unchanged |
| AdminRoutes.HandleLogoutAll | server/src/routes/v1/admins.js:242-254 | the reply and the new collection are `LogoutAllOutcome`: the token list is emptied; the natural order is unchanged |
| AdminRoutes.HandlePatchAccount | server/src/routes/v1/admins.js:563-567 | the reply and the new collection are `PatchAccount`; the natural order is unchanged |
| AdminRoutes.HandlePatchMe | server/src/routes/v1/admins.js:542-577 | the reply and the new collection are `PatchMeOutcome`; the natural order is unchanged |
| AdminRoutes.HandlePatchById | server/src/routes/v1/admins.js:644-696 | the reply and the new collection are `PatchByIdOutcome`; the natural order is unchanged |
| AdminRoutes.HandleDeleteMe | server/src/routes/v1/admins.js:725-735 | 200, and the caller's record is gone, from the records and from the natural order |
| AdminRoutes.HandleDeleteById | server/src/routes/v1/admins.js:770-797 | the reply and the new collection are `DeleteByIdOutcome`; a deleted id leaves the natural order, which is otherwise unchanged |
| Loader.LoaderState.constructor | client/src/modules/common/loader.js:3-5 | the initial `actions` list is empty |
| Loader.LoaderState.AddAction | client/src/modules/common/loader.js:14-16 | the payload is appended; the length grows by one; earlier entries are unchanged |
| Loader.LoaderState.RemoveAction | client/src/modules/common/loader.js:17-19 | every entry equal to the payload is removed, the others are kept in order, and an absent payload leaves the list unchanged |
| Loader.StartAndFinish | client/src/modules/common/loader.js:14-19 | adding a payload not already present and then removing it restores the list |

## Left out

- Logging (`logger.debug`/`logger.error` in the classifier), the database connection and seeding, the Express app, the Swagger wiring and the entry point are I/O and bootstrapping, so they are not modelled.
- bcrypt, jsonwebtoken and `validator.isEmail` are abstract function parameters. Their internals, the secret and the hash cost are not modelled. `jwt.sign` is given the issue time in seconds, so two sign-ins by one admin within the same second yield the same token, as the library does.
- `populate` joins and the semantics of `select` projections are not modelled. A listing records the projection string, the sort, and `limit`/`skip` as optional naturals. The `Number()` conversion of `limit` and `skip` (including `NaN`) is not modelled.
- `_.lowerCase`, `_.upperFirst` and `pluralize` are modelled for ASCII camelCase keys of letters only and the words "field"/"fields" only. Splitting at digits or inside runs of capitals (`item2`, `URLPath`) and general pluralisation are not modelled.
- Text.IsValidId: `ObjectId.isValid` is modelled for string arguments only (12 characters of any kind, or 24 hex digits).
- JSON numbers are integers; floating point is not modelled.
- Validation.PathError: a string sent for a `Number` path is cast only when it is empty (to `null`) or a decimal integer with an optional minus sign. Any other spelling `Number()` accepts (surrounding whitespace, a `+` sign, a decimal point, an exponent, a `0x`/`0o`/`0b` prefix, `Infinity`) is kept and reported as a cast error, where Mongoose would convert it. Booleans sent for a `Number` path become 1 and 0, as Mongoose casts them.
- Text.ToLower: case is ASCII only; Unicode case mapping is not modelled.
- Mongoose's `CastError` message for a failed cast is a simplified one-line message. Its exact wording is not modelled.
- Store.Matching: a filter condition whose value is `undefined` is sent to the database as `null`, and matches records where the path is missing or `null`. Any other condition is exact equality. Query operators (`$ne`, `$gt`, …) and matching inside arrays are not modelled.
- Store.Matching, Products.ProductListing, Orders.OrderFilter, Resource.ReadById, Resource.PatchGate, Resource.DeleteGate, AdminRoutes.AccountById and AdminRoutes.DeleteByIdOutcome: ids are compared as raw strings, and filter values are not cast. Mongoose casts an id value to an ObjectId before comparing: a 24-digit hex id that differs only in letter case finds the same record, and a 12-character string is cast to the hex of its 12 bytes; the model finds neither. A filter value on an id path that cannot be cast makes `find` throw a CastError, which the classifier answers with a 500: `GET /products?category=abc` (server/src/routes/v1/products.js:182-184, 220) and `GET /orders?admin=abc` or `?category=abc` (server/src/routes/v1/orders.js:201-216, 245). The model instead keeps the condition and answers with an empty listing.
- Query.IsActiveCondition: an `isActive` naming an inherited object property (`toString`, `constructor`, `valueOf`, `hasOwnProperty`, `__proto__`, …) looks up a function in `{true: true, false: false}`. Mongoose then fails to cast it to a boolean and the listing is answered 500. The model treats those names like any other unknown value.
- Query.Params: every query parameter is one string or absent. A parameter repeated in the URL arrives as an array, and the string methods called on it fail with a 500 reply; that is not modelled.
- Accounts.FindByCredentials and AdminRoutes.LoginOutcome: the e-mail address and password are strings or absent. A JSON body can send an object such as `{"$ne": null}` for the address, which the lookup would treat as a query operator; and a non-string password makes the bcrypt comparison throw, answered 500. Neither is modelled.
- Timestamps (`createdAt`/`updatedAt`) and concurrent last-writer-wins behaviour are not modelled. The default sort key `createdAt` is kept as a value only.
- The crash path at server/src/routes/v1/admins.js:96 reads `req.accessCode.admin`, which is undefined. It is not modelled: a failing admin create is modelled as a refusal carrying the save's fault.
- GET `/admins/me` has no logic beyond the guard (it sends `req.admin`). It has no member of its own.
- The admin JSON replies include the password hash and the token list, because the model defines no `toJSON`. The reply carries the whole stored record.
- A `tokens` key in the admin create body is not modelled. The model builds the record from the schema paths other than `tokens` and starts the token list empty.
- Guest admission: the guard lets every `userType=guest` request through, whatever the route asks for. The guest sign-in route (`/admins/login`) is modelled, and so is every handler that never reads `req.admin`: these run for a guest as for a signed-in admin (`AdminRoutes.GuestCreatesSuperAdmin`). A guest request that reaches a handler reading `req.admin` (the role checks of the table, category, product and order routes, the `/me` and logout admin routes, and the error replies of the other admin routes) crashes, and that crash is not modelled.
- The client UI (React pages and components), `getUrl.js` and `redux/store.js` are not part of this model. Only the `loader` reducer is.
- The server test `server/tests/routes/users.test.js` is not encoded as a property. The code refuses that request: it has no bearer token and no role.

=== FILE: admin.dfy ===
/** The `Admin` model: the staff account every request is made on behalf
    of.  Its schema (names, phone number, a unique e-mail address stored
    trimmed and lower-cased, a password of at least eight characters, a role
    from a fixed list), the hook that hashes a modified password before each
    save, the credential lookup behind sign-in and the token issued at
    sign-in.  bcrypt, jsonwebtoken and the e-mail validator are not modelled:
    they are the function fields of a `Crypto` value, and `Lawful` states the
    only equations the proofs rely on. */
module Accounts {
  import opened Common
  import opened Text
  import opened ErrorHandler
  import opened Validation
  import opened Store
  import opened Resource

  const EMAIL_INVALID := "The email address you've entered is invalid."
  const PASSWORD_SHORT := "Your password must be at least 8 characters long."
  const CREDENTIALS_MESSAGE := "We couldn't find an account with that email and password combination."
  const ROLES: seq<string> := [SUPER_ADMIN, ADMIN, CASHIER]

  const FIRST_NAME_RULE := Plain("firstName", StringKind, Some("First name can't be blank."), true)
  const LAST_NAME_RULE := Plain("lastName", StringKind, Some("Last name can't be blank."), true)
  const PHONE_NUMBER_RULE := Plain("phoneNumber", StringKind, Some("Phone number can't be blank."), true)
  const EMAIL_RULE := PathRule("email", StringKind, Some("Email address can't be blank."), true, true,
                               [], "", IsEmail(EMAIL_INVALID), None)
  const PASSWORD_RULE := PathRule("password", StringKind, Some("Password can't be blank."), false, false,
                                  [], "", MinLength(8, PASSWORD_SHORT), None)
  const ROLE_RULE := PathRule("role", StringKind, Some("You must choose a role."), false, false,
                              ROLES, "The role you've chosen is invalid.", NoCheck, None)

  const RULES: seq<PathRule> := [FIRST_NAME_RULE, LAST_NAME_RULE, PHONE_NUMBER_RULE, EMAIL_RULE, PASSWORD_RULE, ROLE_RULE]

  /** The paths with a unique index. */
  const UNIQUE: seq<string> := ["email"]

  /** Each path of the schema is looked up to its own rule. */
  lemma RuleOf(i: nat)
    requires i < |RULES|
    ensures RuleFor(RULES, RULES[i].path) == Some(RULES[i])
  {
    assert forall j :: 0 <= j < i ==> RULES[j].path != RULES[i].path;
    RuleAt(RULES, i);
  }

  /** A new admin holds, at each schema path sent, the cast of what was
      sent last for it. */
  lemma BuiltPath(body: Body, i: nat, v: Value)
    requires i < |RULES| && LastOf(body, RULES[i].path) == Some(v)
    ensures RULES[i].path in Build(RULES, body) && Build(RULES, body)[RULES[i].path] == Cast(RULES[i], v)
  {
    RuleOf(i);
    AssignEffect(RULES, Defaults(RULES), body, RULES[i].path);
  }

  /** An admin that passes validation has non-empty names and phone
      number, an e-mail address the validator accepts, a password of at
      least eight characters and one of the three roles. */
  lemma ValidAdmin(doc: Doc, isEmail: string -> bool)
    requires Validate(RULES, doc, isEmail) == []
    ensures forall p :: p in ["firstName", "lastName", "phoneNumber"] ==> p in doc && doc[p].Str? && doc[p].s != ""
    ensures "email" in doc && doc["email"].Str? && doc["email"].s != "" && isEmail(doc["email"].s)
    ensures "password" in doc && doc["password"].Str? && |doc["password"].s| >= 8
    ensures "role" in doc && doc["role"].Str? && doc["role"].s in ROLES
  {
    NamesValid(doc, isEmail);
    ValidMeetsRules(RULES, doc, isEmail, EMAIL_RULE);
    EmailValid(doc, isEmail);
    ValidMeetsRules(RULES, doc, isEmail, PASSWORD_RULE);
    PasswordValid(doc, isEmail);
    ValidMeetsRules(RULES, doc, isEmail, ROLE_RULE);
    RoleValid(doc, isEmail);
  }

  lemma NamesValid(doc: Doc, isEmail: string -> bool)
    requires Validate(RULES, doc, isEmail) == []
    ensures forall p :: p in ["firstName", "lastName", "phoneNumber"] ==> p in doc && doc[p].Str? && doc[p].s != ""
  {
    ValidMeetsRules(RULES, doc, isEmail, FIRST_NAME_RULE);
    PlainPathValid(FIRST_NAME_RULE, doc, isEmail);
    ValidMeetsRules(RULES, doc, isEmail, LAST_NAME_RULE);
    PlainPathValid(LAST_NAME_RULE, doc, isEmail);
    ValidMeetsRules(RULES, doc, isEmail, PHONE_NUMBER_RULE);
    PlainPathValid(PHONE_NUMBER_RULE, doc, isEmail);
  }

  /** A required string path with no further rule holds a non-empty string
      once it passes. */
  lemma PlainPathValid(rule: PathRule, doc: Doc, isEmail: string -> bool)
    requires rule.kind == StringKind && rule.required.Some? && PathError(rule, doc, isEmail).None?
    ensures rule.path in doc && doc[rule.path].Str? && doc[rule.path].s != ""
  {
  }

  lemma EmailValid(doc: Doc, isEmail: string -> bool)
    requires PathError(EMAIL_RULE, doc, isEmail).None?
    ensures "email" in doc && doc["email"].Str? && doc["email"].s != "" && isEmail(doc["email"].s)
  {
  }

  lemma PasswordValid(doc: Doc, isEmail: string -> bool)
    requires PathError(PASSWORD_RULE, doc, isEmail).None?
    ensures "password" in doc && doc["password"].Str? && |doc["password"].s| >= 8
  {
  }

  lemma RoleValid(doc: Doc, isEmail: string -> bool)
    requires PathError(ROLE_RULE, doc, isEmail).None?
    ensures "role" in doc && doc["role"].Str? && doc["role"].s in ROLES
  {
  }

  /** A password of one to seven characters is refused with the length
      message. */
  lemma PasswordTooShort(body: Body, password: string, isEmail: string -> bool)
    requires LastOf(body, "password") == Some(Str(password)) && 0 < |password| < 8
    ensures ("password", PASSWORD_SHORT) in Validate(RULES, Build(RULES, body), isEmail)
  {
    BuiltPassword(body, password);
    var doc := Build(RULES, body);
    ShortPasswordError(doc, password, isEmail);
    assert PASSWORD_RULE in RULES by { assert RULES[4] == PASSWORD_RULE; }
    ErrorReported(RULES, doc, isEmail, PASSWORD_RULE);
  }

  /** A new admin holds the password exactly as sent: the schema neither
      trims nor lower-cases it. */
  lemma BuiltPassword(body: Body, password: string)
    requires LastOf(body, "password") == Some(Str(password))
    ensures "password" in Build(RULES, body) && Build(RULES, body)["password"] == Str(password)
  {
    AssignedPassword(Defaults(RULES), body, password);
  }

  /** Assigning a body onto any record leaves the password as last sent. */
  lemma AssignedPassword(start: Doc, body: Body, password: string)
    requires LastOf(body, "password") == Some(Str(password))
    ensures "password" in Assign(RULES, start, body) && Assign(RULES, start, body)["password"] == Str(password)
  {
    assert RULES[4] == PASSWORD_RULE;
    RuleOf(4);
    AssignEffect(RULES, start, body, "password");
  }

  lemma ShortPasswordError(doc: Doc, password: string, isEmail: string -> bool)
    requires "password" in doc && doc["password"] == Str(password) && 0 < |password| < 8
    ensures PathError(PASSWORD_RULE, doc, isEmail) == Some(PASSWORD_SHORT)
  {
    assert ValueAt(doc, "password") == Str(password);
  }

  /** The length of a bcrypt hash in its `$2a$10$...` form. */
  const BCRYPT_LENGTH := 60

  /** The errors `jwt.verify` throws. */
  datatype JwtError = JsonWebTokenError | TokenExpiredError | NotBeforeError

  function JwtErrorName(e: JwtError): string {
    match e
    case JsonWebTokenError => "JsonWebTokenError"
    case TokenExpiredError => "TokenExpiredError"
    case NotBeforeError => "NotBeforeError"
  }

  /** What `jwt.verify` makes of a token: the `id` it was signed with, or
      the error it throws. */
  datatype VerifyResult = Verified(id: Id) | Rejected(error: JwtError, message: string)

  /** bcrypt's `hash` and `compare`, jsonwebtoken's `sign` (of an id at an
      issue time, in seconds) and `verify` under the server's secret, and
      validator's `isEmail`. */
  datatype Crypto = Crypto(
    hash: string -> string,
    compare: (string, string) -> bool,
    sign: (Id, nat) -> string,
    verify: string -> VerifyResult,
    isEmail: string -> bool)

  /** A password matches its own hash, a hash is bcrypt's 60-character
      string, and a token the server signed verifies to the id it was
      signed for. */
  ghost predicate Lawful(k: Crypto) {
    && (forall p :: k.compare(p, k.hash(p)))
    && (forall p :: |k.hash(p)| == BCRYPT_LENGTH)
    && (forall id, iat :: k.verify(k.sign(id, iat)) == Verified(id))
  }

  /** A stored admin: its schema paths and its `tokens` array, one entry
      per signed-in session. */
  datatype Account = Account(fields: Doc, tokens: seq<string>)

  function FieldsOf(a: Account): Doc {
    a.fields
  }

  /** `admin.password`: the stored hash. */
  function PasswordOf(a: Account): string {
    if "password" in a.fields && a.fields["password"].Str? then a.fields["password"].s else ""
  }

  /** `tokens.concat({token})`. */
  function WithToken(a: Account, token: string): (r: Account)
    ensures r.fields == a.fields && r.tokens == a.tokens + [token]
  {
    a.(tokens := a.tokens + [token])
  }

  /** `isModified('password')`: a new record that has a password, or a
      loaded record (`before`) whose password was given a different value. */
  predicate PasswordModified(before: Option<Doc>, after: Doc) {
    "password" in after && (before.None? || "password" !in before.value || before.value["password"] != after["password"])
  }

  /** The `pre('save')` hook: a modified password is replaced by its hash. */
  function Hashed(k: Crypto, before: Option<Doc>, doc: Doc): (r: Doc)
    ensures r.Keys == doc.Keys
    ensures forall p :: p in doc && p != "password" ==> r[p] == doc[p]
    ensures !PasswordModified(before, doc) ==> r == doc
  {
    if PasswordModified(before, doc) && doc["password"].Str? then doc["password" := Str(k.hash(doc["password"].s))]
    else doc
  }

  /** The record `save()` writes. */
  function Stored(k: Crypto, before: Option<Doc>, a: Account): Account {
    a.(fields := Hashed(k, before, a.fields))
  }

  /** A password that was set is stored so that it, and by a lawful
      `compare` only what hashes the same, checks against the stored value. */
  lemma HashedPasswordChecks(k: Crypto, before: Option<Doc>, doc: Doc, plain: string)
    requires Lawful(k) && PasswordModified(before, doc) && doc["password"] == Str(plain)
    ensures "password" in Hashed(k, before, doc)
    ensures k.compare(plain, PasswordOf(Account(Hashed(k, before, doc), [])))
  {
    assert Hashed(k, before, doc)["password"] == Str(k.hash(plain));
  }

  /** Every stored admin passes the schema's validators as stored: the
      state every successful `save()` leaves behind. */
  ghost predicate StoredValid(k: Crypto, docs: map<Id, Account>) {
    forall id :: id in docs ==> Validate(RULES, docs[id].fields, k.isEmail) == []
  }

  /** A path's validators see only the value at that path. */
  lemma SameValueSameError(rule: PathRule, d1: Doc, d2: Doc, isEmail: string -> bool)
    requires ValueAt(d1, rule.path) == ValueAt(d2, rule.path)
    ensures PathError(rule, d1, isEmail) == PathError(rule, d2, isEmail)
  {
  }

  /** A bcrypt hash passes the password's length validator. */
  lemma HashPasses(k: Crypto, doc: Doc, isEmail: string -> bool)
    requires Lawful(k) && "password" in doc && doc["password"].Str?
    ensures PathError(PASSWORD_RULE, doc["password" := Str(k.hash(doc["password"].s))], isEmail).None?
  {
    var h := doc["password" := Str(k.hash(doc["password"].s))];
    assert ValueAt(h, "password") == Str(k.hash(doc["password"].s));
    assert |k.hash(doc["password"].s)| == BCRYPT_LENGTH;
  }

  /** The hashing hook keeps a valid admin valid: the other paths are
      untouched, and the hash is long enough for the password rule.  So
      the re-validation of every later `save()` passes. */
  lemma HashedValid(k: Crypto, before: Option<Doc>, doc: Doc)
    requires Lawful(k) && Validate(RULES, doc, k.isEmail) == []
    ensures Validate(RULES, Hashed(k, before, doc), k.isEmail) == []
  {
    var h := Hashed(k, before, doc);
    forall i | 0 <= i < |RULES|
      ensures PathError(RULES[i], h, k.isEmail).None? && !RULES[i].kind.ItemsKind?
    {
      ValidMeetsRules(RULES, doc, k.isEmail, RULES[i]);
      if i == 4 && h != doc {
        ValidMeetsRules(RULES, doc, k.isEmail, PASSWORD_RULE);
        HashPasses(k, doc, k.isEmail);
      } else if i != 4 {
        assert RULES[i].path != "password";
        SameValueSameError(RULES[i], h, doc, k.isEmail);
      }
    }
    AllPathsPass(RULES, h, k.isEmail);
  }

  /** `save()` of an admin: validation of the values as assigned (so the
      length rule sees the plain password), then the hashing hook, then the
      unique index on `email`.  `before` is the loaded record, `None` for a
      new one. */
  function AdminSaveFault(k: Crypto, docs: map<Id, Account>, id: Id, before: Option<Doc>, a: Account): (r: Option<Fault>)
    ensures Validate(RULES, a.fields, k.isEmail) != [] ==>
              r == Some(ValidationFault(VALIDATION_MESSAGE, Validate(RULES, a.fields, k.isEmail)))
    ensures Validate(RULES, a.fields, k.isEmail) == [] && before.None? ==>
              r == InsertFault(docs, FieldsOf, UNIQUE, id, Stored(k, before, a))
    ensures Validate(RULES, a.fields, k.isEmail) == [] && before.Some? ==>
              r == UpdateFault(docs, FieldsOf, UNIQUE, id, Stored(k, before, a))
  {
    var errs := Validate(RULES, a.fields, k.isEmail);
    if errs != [] then Some(ValidationFault(VALIDATION_MESSAGE, errs))
    else if before.None? then InsertFault(docs, FieldsOf, UNIQUE, id, Stored(k, before, a))
    else UpdateFault(docs, FieldsOf, UNIQUE, id, Stored(k, before, a))
  }

  /** Saving a valid stored record with only its token list changed cannot
      fail: the password is not re-hashed and no other admin can hold its
      e-mail address. */
  lemma TokenSaveSucceeds(k: Crypto, docs: map<Id, Account>, id: Id, tokens: seq<string>)
    requires UniqueHolds(docs, FieldsOf, UNIQUE) && id in docs
    requires Validate(RULES, docs[id].fields, k.isEmail) == []
    ensures AdminSaveFault(k, docs, id, Some(docs[id].fields), docs[id].(tokens := tokens)).None?
  {
    var a := docs[id].(tokens := tokens);
    assert Stored(k, Some(docs[id].fields), a) == a;
    forall p | p in UNIQUE
      ensures !Collides(docs, FieldsOf, p, id, a)
    {
      assert !Collides(docs, FieldsOf, p, id, docs[id]);
    }
  }

  /** The value `findOne({email})` looks for: the query is cast through
      the path's setters, so it is trimmed and lower-cased as well. */
  function EmailKey(email: string): Value {
    Str(ToLower(Trim(email)))
  }

  predicate HasEmail(a: Account, email: string) {
    "email" in a.fields && a.fields["email"] == EmailKey(email)
  }

  /** `Admin.findByCredentials(email, password)`: the admin found, or
      `None` for the single NotFoundError thrown for a missing e-mail or
      password, an unknown e-mail and a wrong password alike. */
  function FindByCredentials(k: Crypto, order: seq<Id>, docs: map<Id, Account>,
                             email: Option<string>, password: Option<string>): (r: Option<Id>)
    requires forall id :: id in order ==> id in docs
    ensures r.Some? ==> Truthy(email) && Truthy(password) && r.value in docs
                        && HasEmail(docs[r.value], email.value)
                        && k.compare(password.value, PasswordOf(docs[r.value]))
    ensures !Truthy(email) || !Truthy(password) ==> r.None?
    ensures Truthy(email) && (forall id :: id in order ==> !HasEmail(docs[id], email.value)) ==> r.None?
  {
    if !Truthy(email) || !Truthy(password) then None
    else match FirstWhere(order, docs, FieldsOf, "email", EmailKey(email.value))
      case None => None
      case Some(id) => if k.compare(password.value, PasswordOf(docs[id])) then Some(id) else None
  }

  /** The error every failed lookup throws; the classifier answers 404. */
  function CredentialsFault(): (f: Fault)
    ensures Reformat(None, f) == Response(CREDENTIALS_MESSAGE, 404, None)
  {
    NotFoundFault(CREDENTIALS_MESSAGE)
  }

  /** With unique e-mail addresses the lookup is complete: an admin whose
      address and password are given is the one found. */
  lemma SignInComplete(k: Crypto, order: seq<Id>, docs: map<Id, Account>, id: Id, email: string, password: string)
    requires (forall x :: x in order ==> x in docs) && id in order
    requires UniqueHolds(docs, FieldsOf, UNIQUE)
    requires email != "" && password != ""
    requires HasEmail(docs[id], email) && k.compare(password, PasswordOf(docs[id]))
    ensures FindByCredentials(k, order, docs, Some(email), Some(password)) == Some(id)
  {
    var found := FirstWhere(order, docs, FieldsOf, "email", EmailKey(email));
    assert found.Some?;
    assert "email" in UNIQUE;
    assert !Collides(docs, FieldsOf, "email", id, docs[id]);
    assert SameAt(FieldsOf(docs[found.value]), FieldsOf(docs[id]), "email");
  }

  /** The record's `save()` against the collection. */
  method Save(c: Collection<Account>, k: Crypto, id: Id, before: Option<Doc>, a: Account) returns (err: Option<Fault>)
    requires c.Valid() && c.fieldsOf == FieldsOf && c.unique == UNIQUE
    requires before.Some? ==> id in c.docs
    modifies c
    ensures c.Valid()
    ensures err == AdminSaveFault(k, old(c.docs), id, before, a)
    ensures c.docs == if err.None? then old(c.docs)[id := Stored(k, before, a)] else old(c.docs)
    ensures c.order == if err.None? && before.None? then old(c.order) + [id] else old(c.order)
  {
    var errs := Validate(RULES, a.fields, k.isEmail);
    if errs != [] {
      return Some(ValidationFault(VALIDATION_MESSAGE, errs));
    }
    if before.None? {
      err := c.Insert(id, Stored(k, before, a));
    } else {
      err := c.Update(id, Stored(k, before, a));
    }
  }

  /** `admin.generateAuthToken()`: signs the admin's id, appends the token
      to its list and saves it. */
  method GenerateAuthToken(c: Collection<Account>, k: Crypto, id: Id, iat: nat) returns (token: string, err: Option<Fault>)
    requires c.Valid() && c.fieldsOf == FieldsOf && c.unique == UNIQUE && id in c.docs
    modifies c
    ensures c.Valid() && c.order == old(c.order)
    ensures token == k.sign(id, iat)
    ensures err == AdminSaveFault(k, old(c.docs), id, Some(old(c.docs)[id].fields), WithToken(old(c.docs)[id], token))
    ensures c.docs == if err.None? then old(c.docs)[id := WithToken(old(c.docs)[id], token)] else old(c.docs)
  {
    token := k.sign(id, iat);
    var a := WithToken(c.docs[id], token);
    assert Stored(k, Some(c.docs[id].fields), a) == a;
    err := Save(c, k, id, Some(c.docs[id].fields), a);
  }
}

=== FILE: admins.dfy ===
/** The `/admins` router: creating an admin (which signs it in), sign-in,
    sign-out of one session or of all, reading, patching and deleting one's
    own account or any account by id.  Apart from the guard, none of these
    handlers looks at the caller's role: any signed-in admin may create,
    patch or delete any admin.  Each handler is a function from the store to
    an `Outcome` (the reply and the new store), and a method on the
    collection that is proved to do what the function says. */
module AdminRoutes {
  import opened Common
  import opened Text
  import opened ErrorHandler
  import opened Validation
  import opened Store
  import opened Query
  import opened Resource
  import opened Accounts
  import opened Auth

  const NOT_FOUND := NotFoundMessage("admin")

  /** The keys both PATCH handlers accept. */
  const UPDATABLE: seq<string> := ["firstName", "lastName", "phoneNumber", "password"]

  /** What a handler sends: a status with the admin and the token it
      returns, when it returns them, or the error it throws. */
  datatype AccountReply = Sent(status: int, account: Option<Account>, token: Option<string>) | Refused(fault: Fault)

  /** A handler's reply and the admins collection afterwards. */
  datatype Outcome = Outcome(reply: AccountReply, docs: map<Id, Account>)

  /** POST `/`: `new Admin({...body}).save()`, then `generateAuthToken()`;
      201 with the admin and its first token. */
  function CreateOutcome(k: Crypto, docs: map<Id, Account>, body: Body, newId: Id, iat: nat): (o: Outcome)
    ensures AdminSaveFault(k, docs, newId, None, Account(Build(RULES, body), [])).Some? ==>
              o == Outcome(Refused(AdminSaveFault(k, docs, newId, None, Account(Build(RULES, body), [])).value), docs)
    ensures o.reply.Sent? ==>
              && o.reply.status == 201 && o.reply.token == Some(k.sign(newId, iat))
              && newId !in docs && o.docs.Keys == docs.Keys + {newId}
              && (forall x :: x in docs ==> o.docs[x] == docs[x])
              && o.reply.account == Some(o.docs[newId])
              && o.docs[newId].tokens == [k.sign(newId, iat)]
              && o.docs[newId].fields == Hashed(k, None, Build(RULES, body))
  {
    var a := Account(Build(RULES, body), []);
    match AdminSaveFault(k, docs, newId, None, a)
    case Some(f) => Outcome(Refused(f), docs)
    case None =>
      var stored := Stored(k, None, a);
      var saved := docs[newId := stored];
      var token := k.sign(newId, iat);
      match AdminSaveFault(k, saved, newId, Some(stored.fields), WithToken(stored, token))
      case Some(f) => Outcome(Refused(f), saved)
      case None => Outcome(Sent(201, Some(WithToken(stored, token)), Some(token)), saved[newId := WithToken(stored, token)])
  }

  /** POST `/login`: the credential lookup, then a new token; 200 with the
      admin and the token.  Every lookup failure is the same 404. */
  function LoginOutcome(k: Crypto, order: seq<Id>, docs: map<Id, Account>,
                        email: Option<string>, password: Option<string>, iat: nat): (o: Outcome)
    requires forall id :: id in order ==> id in docs
    ensures FindByCredentials(k, order, docs, email, password).None? ==>
              o == Outcome(Refused(CredentialsFault()), docs)
    ensures o.reply.Sent? ==>
              && FindByCredentials(k, order, docs, email, password).Some?
              && var id := FindByCredentials(k, order, docs, email, password).value;
                 && o.reply == Sent(200, Some(WithToken(docs[id], k.sign(id, iat))), Some(k.sign(id, iat)))
                 && o.docs == docs[id := WithToken(docs[id], k.sign(id, iat))]
  {
    match FindByCredentials(k, order, docs, email, password)
    case None => Outcome(Refused(CredentialsFault()), docs)
    case Some(id) =>
      var token := k.sign(id, iat);
      var a := WithToken(docs[id], token);
      match AdminSaveFault(k, docs, id, Some(docs[id].fields), a)
      case Some(f) => Outcome(Refused(f), docs)
      case None => Outcome(Sent(200, Some(a), Some(token)), docs[id := a])
  }

  /** Saves `self` with a new token list; 200 with an empty body. */
  function SetTokens(k: Crypto, docs: map<Id, Account>, self: Id, tokens: seq<string>): (o: Outcome)
    requires self in docs
    ensures o.reply.Sent? ==> o == Outcome(Sent(200, None, None), docs[self := docs[self].(tokens := tokens)])
    ensures o.reply.Refused? ==> o.docs == docs
  {
    var a := docs[self].(tokens := tokens);
    match AdminSaveFault(k, docs, self, Some(docs[self].fields), a)
    case Some(f) => Outcome(Refused(f), docs)
    case None => Outcome(Sent(200, None, None), docs[self := a])
  }

  /** POST `/logout`: the request's token is dropped from the list. */
  function LogoutOutcome(k: Crypto, docs: map<Id, Account>, self: Id, token: string): Outcome
    requires self in docs
  {
    SetTokens(k, docs, self, Without(docs[self].tokens, token))
  }

  /** POST `/logout-all`: the list is emptied. */
  function LogoutAllOutcome(k: Crypto, docs: map<Id, Account>, self: Id): Outcome
    requires self in docs
  {
    SetTokens(k, docs, self, [])
  }

  /** GET `/:id`: 404 for an ill-formed or unknown id. */
  function AccountById(docs: map<Id, Account>, id: Id): (r: AccountReply)
    ensures r.Sent? <==> IsValidId(id) && id in docs
    ensures r.Sent? ==> r == Sent(200, Some(docs[id]), None)
    ensures r.Refused? ==> r.fault == NotFoundFault(NOT_FOUND)
  {
    if IsValidId(id) && id in docs then Sent(200, Some(docs[id]), None)
    else Refused(NotFoundFault(NOT_FOUND))
  }

  /** The submitted keys assigned to the loaded admin and the admin saved;
      200 with the saved admin. */
  function PatchAccount(k: Crypto, docs: map<Id, Account>, id: Id, body: Body): (o: Outcome)
    requires id in docs
    ensures o.reply.Refused? ==> o.docs == docs
    ensures o.reply.Sent? ==>
              && o.reply.status == 200 && o.docs.Keys == docs.Keys
              && (forall x :: x in docs && x != id ==> o.docs[x] == docs[x])
              && o.reply.account == Some(o.docs[id]) && o.docs[id].tokens == docs[id].tokens
              && o.docs[id].fields == Hashed(k, Some(docs[id].fields), Assign(RULES, docs[id].fields, body))
  {
    var a := docs[id].(fields := Assign(RULES, docs[id].fields, body));
    match AdminSaveFault(k, docs, id, Some(docs[id].fields), a)
    case Some(f) => Outcome(Refused(f), docs)
    case None =>
      var s := Stored(k, Some(docs[id].fields), a);
      Outcome(Sent(200, Some(s), None), docs[id := s])
  }

  /** PATCH `/me`: the whitelist, then the update of the caller's own record. */
  function PatchMeOutcome(k: Crypto, docs: map<Id, Account>, self: Id, body: Body): (o: Outcome)
    requires self in docs
    ensures !Whitelisted(UPDATABLE, body) ==>
              o == Outcome(Refused(ValidationFault("", Disallowed(UPDATABLE, Keys(body)))), docs)
    ensures Whitelisted(UPDATABLE, body) ==> o == PatchAccount(k, docs, self, body)
  {
    if !Whitelisted(UPDATABLE, body) then Outcome(Refused(ValidationFault("", Disallowed(UPDATABLE, Keys(body)))), docs)
    else PatchAccount(k, docs, self, body)
  }

  /** PATCH `/:id`: a well-formed id, the whitelist, existence, then the
      update.  There is no role check. */
  function PatchByIdOutcome(k: Crypto, docs: map<Id, Account>, id: Id, body: Body): (o: Outcome)
    ensures !IsValidId(id) ==> o == Outcome(Refused(NotFoundFault(NOT_FOUND)), docs)
    ensures IsValidId(id) && !Whitelisted(UPDATABLE, body) ==>
              o == Outcome(Refused(ValidationFault(NOT_FOUND, Disallowed(UPDATABLE, Keys(body)))), docs)
    ensures IsValidId(id) && Whitelisted(UPDATABLE, body) && id !in docs ==>
              o == Outcome(Refused(NotFoundFault(NOT_FOUND)), docs)
    ensures IsValidId(id) && Whitelisted(UPDATABLE, body) && id in docs ==> o == PatchAccount(k, docs, id, body)
  {
    if !IsValidId(id) then Outcome(Refused(NotFoundFault(NOT_FOUND)), docs)
    else if !Whitelisted(UPDATABLE, body) then
      Outcome(Refused(ValidationFault(NOT_FOUND, Disallowed(UPDATABLE, Keys(body)))), docs)
    else if id !in docs then Outcome(Refused(NotFoundFault(NOT_FOUND)), docs)
    else PatchAccount(k, docs, id, body)
  }

  /** DELETE `/:id`: a well-formed id, then `findOneAndDelete`.  There is no
      role check. */
  function DeleteByIdOutcome(docs: map<Id, Account>, id: Id): (o: Outcome)
    ensures o.reply.Sent? <==> IsValidId(id) && id in docs
    ensures o.reply.Sent? ==> o == Outcome(Sent(200, None, None), docs - {id})
    ensures o.reply.Refused? ==> o == Outcome(Refused(NotFoundFault(NOT_FOUND)), docs)
  {
    if IsValidId(id) && id in docs then Outcome(Sent(200, None, None), docs - {id})
    else Outcome(Refused(NotFoundFault(NOT_FOUND)), docs)
  }

  /** An admin just created can sign in with the e-mail address and the
      password it was created with: the address is found (it is unique) and
      the password checks against the stored hash. */
  lemma CreatedCanSignIn(k: Crypto, order: seq<Id>, docs: map<Id, Account>, body: Body, newId: Id, iat: nat,
                         email: string, password: string)
    requires Lawful(k) && UniqueHolds(docs, FieldsOf, UNIQUE)
    requires forall x :: x in order ==> x in docs
    requires CreateOutcome(k, docs, body, newId, iat).reply.Sent?
    requires LastOf(body, "email") == Some(Str(email)) && LastOf(body, "password") == Some(Str(password))
    ensures FindByCredentials(k, order + [newId], CreateOutcome(k, docs, body, newId, iat).docs, Some(email), Some(password))
            == Some(newId)
  {
    var after := CreateOutcome(k, docs, body, newId, iat).docs;
    CreateKeepsUnique(k, docs, body, newId, iat);
    CreatedCredentials(k, docs, body, newId, email, password);
    HashedPasswordChecks(k, None, Build(RULES, body), password);
    assert after[newId].fields == Hashed(k, None, Build(RULES, body));
    assert HasEmail(after[newId], email);
    SignInComplete(k, order + [newId], after, newId, email, password);
  }

  /** The create route only asks the guard for `admin`, but the guard lets
      every `userType=guest` request through, and a successful create never
      reads `req.admin`: a guest can create an account of any role,
      `Super Admin` included. */
  lemma GuestCreatesSuperAdmin(k: Crypto, docs: map<Id, Account>, body: Body, newId: Id, iat: nat,
                               header: Option<string>, verify: string -> VerifyResult)
    requires CreateOutcome(k, docs, body, newId, iat).reply.Sent?
    requires LastOf(body, "role") == Some(Str(SUPER_ADMIN))
    ensures Authorize(["admin"], Some("guest"), header, verify, docs) == Proceed(None, None)
    ensures var after := CreateOutcome(k, docs, body, newId, iat).docs;
            newId in after && "role" in after[newId].fields && after[newId].fields["role"] == Str(SUPER_ADMIN)
  {
    assert RULES[5] == ROLE_RULE;
    BuiltPath(body, 5, Str(SUPER_ADMIN));
    assert Normalise(ROLE_RULE, SUPER_ADMIN) == SUPER_ADMIN;
  }

  /** With a lawful crypto, a create is answered 201 exactly when the first
      `save()` passes: the token's re-save sees a valid record (its hash
      passes the length rule) and no other admin holding its address.  A
      refused create stores nothing. */
  lemma CreateSucceeds(k: Crypto, docs: map<Id, Account>, body: Body, newId: Id, iat: nat)
    requires Lawful(k)
    ensures CreateOutcome(k, docs, body, newId, iat).reply.Sent? <==>
              AdminSaveFault(k, docs, newId, None, Account(Build(RULES, body), [])).None?
    ensures CreateOutcome(k, docs, body, newId, iat).reply.Refused? ==> CreateOutcome(k, docs, body, newId, iat).docs == docs
  {
    var a := Account(Build(RULES, body), []);
    if AdminSaveFault(k, docs, newId, None, a).None? {
      assert Validate(RULES, a.fields, k.isEmail) == [];
      var stored := Stored(k, None, a);
      HashedValid(k, None, a.fields);
      var saved := docs[newId := stored];
      var w := WithToken(stored, k.sign(newId, iat));
      assert Stored(k, Some(stored.fields), w) == w;
      forall p | p in UNIQUE
        ensures !Collides(saved, FieldsOf, p, newId, w)
      {
        assert !Collides(docs, FieldsOf, p, newId, stored);
      }
      assert AdminSaveFault(k, saved, newId, Some(stored.fields), w).None?;
    }
  }

  /** Creating an admin keeps every stored admin valid. */
  lemma CreateKeepsValid(k: Crypto, docs: map<Id, Account>, body: Body, newId: Id, iat: nat)
    requires Lawful(k) && StoredValid(k, docs)
    ensures StoredValid(k, CreateOutcome(k, docs, body, newId, iat).docs)
  {
    var a := Account(Build(RULES, body), []);
    if AdminSaveFault(k, docs, newId, None, a).None? {
      CreateSucceeds(k, docs, body, newId, iat);
      HashedValid(k, None, a.fields);
    }
  }

  /** With unique e-mail addresses and valid stored admins, a login is
      answered 200 exactly when the credentials find an admin: saving the
      new token cannot fail. */
  lemma LoginSucceeds(k: Crypto, order: seq<Id>, docs: map<Id, Account>,
                      email: Option<string>, password: Option<string>, iat: nat)
    requires forall id :: id in order ==> id in docs
    requires UniqueHolds(docs, FieldsOf, UNIQUE) && StoredValid(k, docs)
    ensures LoginOutcome(k, order, docs, email, password, iat).reply.Sent? <==>
              FindByCredentials(k, order, docs, email, password).Some?
  {
    match FindByCredentials(k, order, docs, email, password)
    case None =>
    case Some(id) =>
      var token := k.sign(id, iat);
      TokenSaveSucceeds(k, docs, id, docs[id].tokens + [token]);
      assert WithToken(docs[id], token) == docs[id].(tokens := docs[id].tokens + [token]);
  }

  /** Signing in keeps every stored admin valid: only a token list changes. */
  lemma LoginKeepsValid(k: Crypto, order: seq<Id>, docs: map<Id, Account>,
                        email: Option<string>, password: Option<string>, iat: nat)
    requires forall id :: id in order ==> id in docs
    requires StoredValid(k, docs)
    ensures StoredValid(k, LoginOutcome(k, order, docs, email, password, iat).docs)
  {
  }

  /** Saving a new token list, as both sign-outs do, keeps every stored
      admin valid. */
  lemma SetTokensKeepsValid(k: Crypto, docs: map<Id, Account>, self: Id, tokens: seq<string>)
    requires self in docs && StoredValid(k, docs)
    ensures StoredValid(k, SetTokens(k, docs, self, tokens).docs)
  {
  }

  /** A patch that saves keeps every stored admin valid: the assigned
      record passed validation and the hook keeps it valid. */
  lemma PatchKeepsValid(k: Crypto, docs: map<Id, Account>, id: Id, body: Body)
    requires Lawful(k) && id in docs && StoredValid(k, docs)
    ensures StoredValid(k, PatchAccount(k, docs, id, body).docs)
  {
    var a := docs[id].(fields := Assign(RULES, docs[id].fields, body));
    if AdminSaveFault(k, docs, id, Some(docs[id].fields), a).None? {
      assert Validate(RULES, a.fields, k.isEmail) == [];
      HashedValid(k, Some(docs[id].fields), a.fields);
    }
  }

  /** An admin just created signs in: under a lawful crypto, with unique
      addresses and valid admins beforehand, a body whose first save
      passes is answered 201, and logging in with the address and password
      it carried is then answered 200. */
  lemma CreateThenLogin(k: Crypto, order: seq<Id>, docs: map<Id, Account>, body: Body, newId: Id, iat: nat,
                        email: string, password: string, iat2: nat)
    requires Lawful(k) && UniqueHolds(docs, FieldsOf, UNIQUE) && StoredValid(k, docs)
    requires forall x :: x in order ==> x in docs
    requires AdminSaveFault(k, docs, newId, None, Account(Build(RULES, body), [])).None?
    requires LastOf(body, "email") == Some(Str(email)) && LastOf(body, "password") == Some(Str(password))
    ensures CreateOutcome(k, docs, body, newId, iat).reply.Sent?
    ensures LoginOutcome(k, order + [newId], CreateOutcome(k, docs, body, newId, iat).docs,
                         Some(email), Some(password), iat2).reply.Sent?
  {
    var after := CreateOutcome(k, docs, body, newId, iat).docs;
    CreateSucceeds(k, docs, body, newId, iat);
    CreatedCanSignIn(k, order, docs, body, newId, iat, email, password);
    CreateKeepsUnique(k, docs, body, newId, iat);
    CreateKeepsValid(k, docs, body, newId, iat);
    LoginSucceeds(k, order + [newId], after, Some(email), Some(password), iat2);
  }

  /** Creating an admin keeps the e-mail index unique. */
  lemma CreateKeepsUnique(k: Crypto, docs: map<Id, Account>, body: Body, newId: Id, iat: nat)
    requires UniqueHolds(docs, FieldsOf, UNIQUE)
    requires CreateOutcome(k, docs, body, newId, iat).reply.Sent?
    ensures UniqueHolds(CreateOutcome(k, docs, body, newId, iat).docs, FieldsOf, UNIQUE)
  {
    var a := Account(Build(RULES, body), []);
    var stored := Stored(k, None, a);
    var saved := docs[newId := stored];
    var withToken := WithToken(stored, k.sign(newId, iat));
    assert AdminSaveFault(k, docs, newId, None, a).None?;
    WriteKeepsUnique(docs, FieldsOf, UNIQUE, newId, stored);
    assert AdminSaveFault(k, saved, newId, Some(stored.fields), withToken).None?;
    assert Stored(k, Some(stored.fields), withToken) == withToken;
    WriteKeepsUnique(saved, FieldsOf, UNIQUE, newId, withToken);
    assert CreateOutcome(k, docs, body, newId, iat).docs == saved[newId := withToken];
  }

  /** What a successful create stores from the submitted e-mail address and
      password: the address trimmed and lower-cased and the password as
      sent, neither of them empty. */
  lemma CreatedCredentials(k: Crypto, docs: map<Id, Account>, body: Body, newId: Id, email: string, password: string)
    requires AdminSaveFault(k, docs, newId, None, Account(Build(RULES, body), [])).None?
    requires LastOf(body, "email") == Some(Str(email)) && LastOf(body, "password") == Some(Str(password))
    ensures var fields := Build(RULES, body);
            "email" in fields && fields["email"] == EmailKey(email)
            && "password" in fields && fields["password"] == Str(password)
            && email != "" && password != ""
  {
    var fields := Build(RULES, body);
    assert Validate(RULES, fields, k.isEmail) == [];
    BuiltCredentials(body, email, password);
    ValidMeetsRules(RULES, fields, k.isEmail, EMAIL_RULE);
    ValidMeetsRules(RULES, fields, k.isEmail, PASSWORD_RULE);
    StoredNonEmpty(EMAIL_RULE, fields, k.isEmail, email);
    StoredNonEmpty(PASSWORD_RULE, fields, k.isEmail, password);
  }

  /** The e-mail address is stored trimmed and lower-cased, the password as sent. */
  lemma BuiltCredentials(body: Body, email: string, password: string)
    requires LastOf(body, "email") == Some(Str(email)) && LastOf(body, "password") == Some(Str(password))
    ensures var fields := Build(RULES, body);
            "email" in fields && fields["email"] == Str(Normalise(EMAIL_RULE, email))
            && "password" in fields && fields["password"] == Str(Normalise(PASSWORD_RULE, password))
  {
    BuiltEmail(body, email);
    BuiltPassword(body, password);
  }

  lemma BuiltEmail(body: Body, email: string)
    requires LastOf(body, "email") == Some(Str(email))
    ensures "email" in Build(RULES, body) && Build(RULES, body)["email"] == Str(Normalise(EMAIL_RULE, email))
  {
    assert RULES[3] == EMAIL_RULE;
    BuiltPath(body, 3, Str(email));
  }

  /** A required string path that passed validation holds a non-empty
      string, so what was sent for it was not empty either. */
  lemma StoredNonEmpty(rule: PathRule, fields: Doc, isEmail: string -> bool, sent: string)
    requires rule.kind == StringKind && rule.required.Some?
    requires PathError(rule, fields, isEmail).None?
    requires rule.path in fields && fields[rule.path] == Str(Normalise(rule, sent))
    ensures sent != ""
  {
    assert ValueAt(fields, rule.path) == Str(Normalise(rule, sent));
  }

  /** The token a successful sign-in returns passes the guard of every
      admin route, as the admin that signed in. */
  lemma LoginThenGuard(k: Crypto, order: seq<Id>, docs: map<Id, Account>,
                       email: Option<string>, password: Option<string>, iat: nat)
    requires Lawful(k) && (forall id :: id in order ==> id in docs) && (forall id :: id in docs ==> IsValidId(id))
    requires LoginOutcome(k, order, docs, email, password, iat).reply.Sent?
    ensures var o := LoginOutcome(k, order, docs, email, password, iat);
            Authorize(["admin"], Some("admin"), Some(BEARER + o.reply.token.value), k.verify, o.docs)
              == Proceed(o.reply.token, FindByCredentials(k, order, docs, email, password))
  {
    var o := LoginOutcome(k, order, docs, email, password, iat);
    var id := FindByCredentials(k, order, docs, email, password).value;
    var token := k.sign(id, iat);
    assert k.verify(token) == Verified(id);
    assert HoldsToken(o.docs, id, token);
    BearerAdmits(k.verify, o.docs, token, id);
  }

  /** Signing in adds a session and ends none: every header that passed
      the guard before, as any admin, still does. */
  lemma LoginKeepsSessions(k: Crypto, order: seq<Id>, docs: map<Id, Account>,
                           email: Option<string>, password: Option<string>, iat: nat, x: Id, header: string)
    requires forall id :: id in order ==> id in docs
    requires LoginOutcome(k, order, docs, email, password, iat).reply.Sent?
    requires AdmitsAs(Authorize(["admin"], Some("admin"), Some(header), k.verify, docs), x)
    ensures AdmitsAs(Authorize(["admin"], Some("admin"), Some(header), k.verify,
                               LoginOutcome(k, order, docs, email, password, iat).docs), x)
  {
    var id := FindByCredentials(k, order, docs, email, password).value;
    var after := docs[id := WithToken(docs[id], k.sign(id, iat))];
    assert LoginOutcome(k, order, docs, email, password, iat).docs == after;
    AddedTokenKeeps(docs, id, k.sign(id, iat), x);
    AdmitsWithMoreTokens(["admin"], Some("admin"), Some(header), k.verify, docs, after, x);
  }

  lemma AddedTokenKeeps(docs: map<Id, Account>, id: Id, token: string, x: Id)
    requires id in docs
    ensures var after := docs[id := WithToken(docs[id], token)];
            x in docs ==> x in after && forall t :: t in docs[x].tokens ==> t in after[x].tokens
  {
  }

  /** Signing out ends exactly the session it is made from: that token no
      longer passes the guard, and every other token of the admin still does. */
  lemma LogoutEndsOneSession(k: Crypto, docs: map<Id, Account>, self: Id, token: string, other: string)
    requires self in docs && IsValidId(self)
    requires LogoutOutcome(k, docs, self, token).reply.Sent?
    requires k.verify(token) == Verified(self)
    ensures Authorize(["admin"], Some("admin"), Some(BEARER + token), k.verify,
                      LogoutOutcome(k, docs, self, token).docs) == Deny(AuthorizationFault())
    ensures other in docs[self].tokens && other != token && k.verify(other) == Verified(self) ==>
              Authorize(["admin"], Some("admin"), Some(BEARER + other), k.verify,
                        LogoutOutcome(k, docs, self, token).docs) == Proceed(Some(other), Some(self))
  {
    var after := LogoutOutcome(k, docs, self, token).docs;
    assert after[self].tokens == Without(docs[self].tokens, token);
    BearerRefused(k.verify, after, token, self);
    if other in docs[self].tokens && other != token && k.verify(other) == Verified(self) {
      BearerAdmits(k.verify, after, other, self);
    }
  }

  /** After signing out everywhere, no token of the admin passes the guard. */
  lemma LogoutAllEndsEverySession(k: Crypto, docs: map<Id, Account>, self: Id, header: string)
    requires self in docs
    requires LogoutAllOutcome(k, docs, self).reply.Sent?
    ensures !AdmitsAs(Authorize(["admin"], Some("admin"), Some(header), k.verify, LogoutAllOutcome(k, docs, self).docs), self)
  {
    assert LogoutAllOutcome(k, docs, self).docs[self].tokens == [];
  }

  /** A deleted admin's tokens no longer pass the guard. */
  lemma DeletedAdminLockedOut(docs: map<Id, Account>, id: Id, allowed: seq<string>, userType: Option<string>,
                              header: Option<string>, verify: string -> VerifyResult)
    requires DeleteByIdOutcome(docs, id).reply.Sent?
    ensures !AdmitsAs(Authorize(allowed, userType, header, verify, DeleteByIdOutcome(docs, id).docs), id)
    ensures DeleteByIdOutcome(DeleteByIdOutcome(docs, id).docs, id) == Outcome(Refused(NotFoundFault(NOT_FOUND)), docs - {id})
  {
  }

  /** Neither the e-mail address nor the role can be changed through PATCH
      `/me`: the request names the key and nothing is written. */
  lemma EmailAndRoleFixed(k: Crypto, docs: map<Id, Account>, self: Id, body: Body, key: string)
    requires self in docs && (key == "email" || key == "role") && key in Keys(body)
    ensures var o := PatchMeOutcome(k, docs, self, body);
            o.docs == docs && o.reply.Refused? && o.reply.fault.name == "ValidationError"
            && Get(o.reply.fault.errors, key) == Some(ModifyMessage(key))
  {
    assert key !in UPDATABLE;
  }

  /** A successful PATCH `/me` changes exactly the submitted paths other
      than the password: each takes the cast of the value sent, every other
      path keeps its value or its absence. */
  lemma PatchMeSetsOnlySubmitted(k: Crypto, docs: map<Id, Account>, self: Id, body: Body, p: string)
    requires self in docs && p != "password"
    requires PatchMeOutcome(k, docs, self, body).reply.Sent?
    ensures var before := docs[self].fields;
            var after := PatchMeOutcome(k, docs, self, body).docs[self].fields;
            && (p in Keys(body) && RuleFor(RULES, p).Some? ==>
                  p in after && after[p] == Cast(RuleFor(RULES, p).value, LastOf(body, p).value))
            && (p !in Keys(body) ==> (p in after <==> p in before) && (p in after ==> after[p] == before[p]))
  {
    AssignEffect(RULES, docs[self].fields, body, p);
  }

  /** A new password set through PATCH `/me` is stored hashed: it checks
      against the stored value. */
  lemma PatchedPasswordChecks(k: Crypto, docs: map<Id, Account>, self: Id, body: Body, password: string)
    requires Lawful(k) && self in docs
    requires PatchMeOutcome(k, docs, self, body).reply.Sent?
    requires LastOf(body, "password") == Some(Str(password))
    requires "password" !in docs[self].fields || docs[self].fields["password"] != Str(password)
    ensures k.compare(password, PasswordOf(PatchMeOutcome(k, docs, self, body).docs[self]))
  {
    var patched := Assign(RULES, docs[self].fields, body);
    AssignedPassword(docs[self].fields, body, password);
    HashedPasswordChecks(k, Some(docs[self].fields), patched, password);
  }

  /** Handlers. */
  method HandleCreate(c: Collection<Account>, k: Crypto, body: Body, newId: Id, iat: nat) returns (r: AccountReply)
    requires c.Valid() && c.fieldsOf == FieldsOf && c.unique == UNIQUE
    modifies c
    ensures c.Valid()
    ensures Outcome(r, c.docs) == CreateOutcome(k, old(c.docs), body, newId, iat)
    ensures c.order == if AdminSaveFault(k, old(c.docs), newId, None, Account(Build(RULES, body), [])).None?
                       then old(c.order) + [newId] else old(c.order)
    ensures Lawful(k) ==> (r.Sent? <==> AdminSaveFault(k, old(c.docs), newId, None, Account(Build(RULES, body), [])).None?)
    ensures Lawful(k) && StoredValid(k, old(c.docs)) ==> StoredValid(k, c.docs)
  {
    if Lawful(k) {
      CreateSucceeds(k, c.docs, body, newId, iat);
      if StoredValid(k, c.docs) {
        CreateKeepsValid(k, c.docs, body, newId, iat);
      }
    }
    var a := Account(Build(RULES, body), []);
    var err := Save(c, k, newId, None, a);
    if err.Some? {
      return Refused(err.value);
    }
    var token;
    token, err := GenerateAuthToken(c, k, newId, iat);
    if err.Some? {
      return Refused(err.value);
    }
    r := Sent(201, Some(c.docs[newId]), Some(token));
  }

  method HandleLogin(c: Collection<Account>, k: Crypto, email: Option<string>, password: Option<string>, iat: nat)
    returns (r: AccountReply)
    requires c.Valid() && c.fieldsOf == FieldsOf && c.unique == UNIQUE
    modifies c
    ensures c.Valid()
    ensures Outcome(r, c.docs) == LoginOutcome(k, old(c.order), old(c.docs), email, password, iat)
    ensures c.order == old(c.order)
    ensures StoredValid(k, old(c.docs)) ==>
              && (r.Sent? <==> FindByCredentials(k, old(c.order), old(c.docs), email, password).Some?)
              && StoredValid(k, c.docs)
  {
    if StoredValid(k, c.docs) {
      LoginSucceeds(k, c.order, c.docs, email, password, iat);
      LoginKeepsValid(k, c.order, c.docs, email, password, iat);
    }
    var found := FindByCredentials(k, c.order, c.docs, email, password);
    if found.None? {
      return Refused(CredentialsFault());
    }
    var token, err := GenerateAuthToken(c, k, found.value, iat);
    if err.Some? {
      return Refused(err.value);
    }
    r := Sent(200, Some(c.docs[found.value]), Some(token));
  }

  method HandleSetTokens(c: Collection<Account>, k: Crypto, self: Id, tokens: seq<string>) returns (r: AccountReply)
    requires c.Valid() && c.fieldsOf == FieldsOf && c.unique == UNIQUE && self in c.docs
    modifies c
    ensures c.Valid()
    ensures Outcome(r, c.docs) == SetTokens(k, old(c.docs), self, tokens)
    ensures c.order == old(c.order)
  {
    var err := Save(c, k, self, Some(c.docs[self].fields), c.docs[self].(tokens := tokens));
    if err.Some? {
      return Refused(err.value);
    }
    r := Sent(200, None, None);
  }

  method HandleLogout(c: Collection<Account>, k: Crypto, self: Id, token: string) returns (r: AccountReply)
    requires c.Valid() && c.fieldsOf == FieldsOf && c.unique == UNIQUE && self in c.docs
    modifies c
    ensures c.Valid()
    ensures Outcome(r, c.docs) == LogoutOutcome(k, old(c.docs), self, token)
    ensures c.order == old(c.order)
  {
    r := HandleSetTokens(c, k, self, Without(c.docs[self].tokens, token));
  }

  method HandleLogoutAll(c: Collection<Account>, k: Crypto, self: Id) returns (r: AccountReply)
    requires c.Valid() && c.fieldsOf == FieldsOf && c.unique == UNIQUE && self in c.docs
    modifies c
    ensures c.Valid()
    ensures Outcome(r, c.docs) == LogoutAllOutcome(k, old(c.docs), self)
    ensures c.order == old(c.order)
  {
    r := HandleSetTokens(c, k, self, []);
  }

  /** The `forEach` assignment loop and `save()` shared by both PATCH
      handlers. */
  method HandlePatchAccount(c: Collection<Account>, k: Crypto, id: Id, body: Body) returns (r: AccountReply)
    requires c.Valid() && c.fieldsOf == FieldsOf && c.unique == UNIQUE && id in c.docs
    modifies c
    ensures c.Valid()
    ensures Outcome(r, c.docs) == PatchAccount(k, old(c.docs), id, body)
    ensures c.order == old(c.order)
  {
    var before := c.docs[id];
    var fields := ApplyUpdates(RULES, before.fields, body);
    var err := Save(c, k, id, Some(before.fields), before.(fields := fields));
    if err.Some? {
      return Refused(err.value);
    }
    r := Sent(200, Some(c.docs[id]), None);
  }

  method HandlePatchMe(c: Collection<Account>, k: Crypto, self: Id, body: Body) returns (r: AccountReply)
    requires c.Valid() && c.fieldsOf == FieldsOf && c.unique == UNIQUE && self in c.docs
    modifies c
    ensures c.Valid()
    ensures Outcome(r, c.docs) == PatchMeOutcome(k, old(c.docs), self, body)
    ensures c.order == old(c.order)
  {
    if !Whitelisted(UPDATABLE, body) {
      return Refused(ValidationFault("", Disallowed(UPDATABLE, Keys(body))));
    }
    r := HandlePatchAccount(c, k, self, body);
  }

  method HandlePatchById(c: Collection<Account>, k: Crypto, id: Id, body: Body) returns (r: AccountReply)
    requires c.Valid() && c.fieldsOf == FieldsOf && c.unique == UNIQUE
    modifies c
    ensures c.Valid()
    ensures Outcome(r, c.docs) == PatchByIdOutcome(k, old(c.docs), id, body)
    ensures c.order == old(c.order)
  {
    if !IsValidId(id) {
      return Refused(NotFoundFault(NOT_FOUND));
    }
    if !Whitelisted(UPDATABLE, body) {
      return Refused(ValidationFault(NOT_FOUND, Disallowed(UPDATABLE, Keys(body))));
    }
    if id !in c.docs {
      return Refused(NotFoundFault(NOT_FOUND));
    }
    r := HandlePatchAccount(c, k, id, body);
  }

  /** DELETE `/me`: `req.admin.remove()`. */
  method HandleDeleteMe(c: Collection<Account>, self: Id) returns (r: AccountReply)
    requires c.Valid()
    modifies c
    ensures c.Valid()
    ensures r == Sent(200, None, None) && c.docs == old(c.docs) - {self}
    ensures c.order == Without(old(c.order), self)
  {
    var found := c.Delete(self);
    r := Sent(200, None, None);
  }

  method HandleDeleteById(c: Collection<Account>, id: Id) returns (r: AccountReply)
    requires c.Valid()
    modifies c
    ensures c.Valid()
    ensures Outcome(r, c.docs) == DeleteByIdOutcome(old(c.docs), id)
    ensures c.order == if r.Sent? then Without(old(c.order), id) else old(c.order)
  {
    if !IsValidId(id) {
      return Refused(NotFoundFault(NOT_FOUND));
    }
    var found := c.Delete(id);
    if !found {
      WithoutAbsent(old(c.order), id);
      return Refused(NotFoundFault(NOT_FOUND));
    }
    r := Sent(200, None, None);
  }
}

=== FILE: auth.dfy ===
/** The `auth(allowedUserTypes)` guard every route is mounted behind.  A
    request that declares itself a guest (`?userType=guest`) passes with no
    identity, whatever the route allows; any other request needs a user type
    the route allows, a `Bearer` token that verifies, and an admin that still
    holds that token. */
module Auth {
  import opened Common
  import opened Text
  import opened ErrorHandler
  import opened Accounts

  /** The factory's default list. */
  const DEFAULT_ALLOWED: seq<string> := ["admin", "guest"]

  const BEARER := "Bearer "

  /** The guard's verdict: `next()` with the token and the admin it set on
      the request (both absent for a guest), or the error it caught. */
  datatype Decision = Proceed(token: Option<string>, admin: Option<Id>) | Deny(fault: Fault)

  /** `Admin.findOne({_id: id, 'tokens.token': token})` finds a record. */
  predicate HoldsToken(docs: map<Id, Account>, id: Id, token: string) {
    id in docs && token in docs[id].tokens
  }

  /** The guard lets the request through as admin `id`. */
  predicate AdmitsAs(d: Decision, id: Id) {
    d.Proceed? && d.admin == Some(id)
  }

  /** The errors that escape to the catch block other than the guard's own:
      what `jwt.verify` throws, the cast of a malformed `_id`, and the
      lookup of a model for a user type other than `admin`. */
  function VerifyFault(e: JwtError, message: string): (f: Fault)
    ensures Reformat(None, f).statusCode == 500
  {
    Fault(JwtErrorName(e), message, [], 0, [], None)
  }

  function CastFault(id: Id): (f: Fault)
    ensures Reformat(None, f).statusCode == 500
  {
    Fault("CastError", "Cast to ObjectId failed for value \"" + id + "\" at path \"_id\" for model \"Admin\"", [], 0, [], None)
  }

  function ModelFault(): (f: Fault)
    ensures Reformat(None, f).statusCode == 500
  {
    Fault("TypeError", "Cannot read property 'findOne' of undefined", [], 0, [], None)
  }

  /** A request that is not a guest's, names an allowed user type and
      carries a `Bearer` header: the guard goes on to verify its token. */
  predicate BearerRequest(allowed: seq<string>, userType: Option<string>, header: Option<string>) {
    && userType.Some? && userType != Some("guest") && userType.value in allowed
    && header.Some? && StartsWith(header.value, BEARER)
  }

  /** The guard's decision for a request with `?userType`, an
      `Authorization` header, the verifier and the admins collection. */
  function Authorize(allowed: seq<string>, userType: Option<string>, header: Option<string>,
                     verify: string -> VerifyResult, docs: map<Id, Account>): (d: Decision)
    ensures userType == Some("guest") ==> d == Proceed(None, None)
    ensures userType != Some("guest") && (userType.None? || userType.value !in allowed) ==>
              d == Deny(AuthorizationFault())
    ensures userType != Some("guest") && userType.Some? && userType.value in allowed
            && (header.None? || !StartsWith(header.value, BEARER)) ==>
              d == Deny(AuthorizationFault())
    ensures d.Proceed? && userType != Some("guest") ==>
              && userType == Some("admin") && "admin" in allowed
              && header.Some? && StartsWith(header.value, BEARER)
              && d.token == Some(header.value[|BEARER|..])
              && d.admin.Some? && IsValidId(d.admin.value) && verify(d.token.value) == Verified(d.admin.value)
              && HoldsToken(docs, d.admin.value, d.token.value)
    ensures userType == Some("admin") && "admin" in allowed && header.Some? && StartsWith(header.value, BEARER)
            && verify(header.value[|BEARER|..]).Verified? && IsValidId(verify(header.value[|BEARER|..]).id)
 ==>
              d == if HoldsToken(docs, verify(header.value[|BEARER|..]).id, header.value[|BEARER|..])
                   then Proceed(Some(header.value[|BEARER|..]), Some(verify(header.value[|BEARER|..]).id))
                   else Deny(AuthorizationFault())
    ensures BearerRequest(allowed, userType, header) && verify(header.value[|BEARER|..]).Rejected? ==>
              d == Deny(VerifyFault(verify(header.value[|BEARER|..]).error, verify(header.value[|BEARER|..]).message))
    ensures BearerRequest(allowed, userType, header) && verify(header.value[|BEARER|..]).Verified?
            && !IsValidId(verify(header.value[|BEARER|..]).id) ==>
              d == Deny(CastFault(verify(header.value[|BEARER|..]).id))
    ensures BearerRequest(allowed, userType, header) && verify(header.value[|BEARER|..]).Verified?
            && IsValidId(verify(header.value[|BEARER|..]).id) && userType.value != "admin" ==>
              d == Deny(ModelFault())
    ensures d.Deny? ==> Reformat(None, d.fault).statusCode in {401, 500}
  {
    if userType == Some("guest") then Proceed(None, None)
    else if userType.None? || userType.value !in allowed then Deny(AuthorizationFault())
    else if header.None? || !StartsWith(header.value, BEARER) then Deny(AuthorizationFault())
    else
      var token := ReplaceFirst(header.value, BEARER, "");
      ReplacePrefix(header.value, BEARER);
      match verify(token)
      case Rejected(e, message) => Deny(VerifyFault(e, message))
      case Verified(id) =>
        if !IsValidId(id) then Deny(CastFault(id))
        else if userType.value != "admin" then Deny(ModelFault())
        else if !HoldsToken(docs, id, token) then Deny(AuthorizationFault())
        else Proceed(Some(token), Some(id))
  }

  /** `Bearer <token>` is what the guard strips back to `<token>`. */
  lemma BearerHeader(token: string)
    ensures StartsWith(BEARER + token, BEARER) && (BEARER + token)[|BEARER|..] == token
  {
    assert (BEARER + token)[..|BEARER|] == BEARER;
  }

  /** An admin route admits `Bearer <token>` as the admin the token was
      signed for, as long as that admin still holds it. */
  lemma BearerAdmits(verify: string -> VerifyResult, docs: map<Id, Account>, token: string, id: Id)
    requires verify(token) == Verified(id) && IsValidId(id) && HoldsToken(docs, id, token)
    ensures Authorize(["admin"], Some("admin"), Some(BEARER + token), verify, docs) == Proceed(Some(token), Some(id))
  {
    BearerHeader(token);
  }

  /** ... and turns it away once that admin no longer holds it. */
  lemma BearerRefused(verify: string -> VerifyResult, docs: map<Id, Account>, token: string, id: Id)
    requires verify(token) == Verified(id) && IsValidId(id) && !HoldsToken(docs, id, token)
    ensures Authorize(["admin"], Some("admin"), Some(BEARER + token), verify, docs) == Deny(AuthorizationFault())
  {
    BearerHeader(token);
  }

  /** A token `jwt.verify` rejects (bad signature, expired, not yet
      valid) is not answered 401: the library's error names fall through
      the classifier to a 500. */
  lemma RejectedTokenIs500(allowed: seq<string>, token: string, verify: string -> VerifyResult, docs: map<Id, Account>)
    requires "admin" in allowed && verify(token).Rejected?
    ensures Authorize(allowed, Some("admin"), Some(BEARER + token), verify, docs).Deny?
    ensures Reformat(None, Authorize(allowed, Some("admin"), Some(BEARER + token), verify, docs).fault).statusCode == 500
  {
    BearerHeader(token);
  }

  /** A token signed for an id that is not an ObjectId fails the cast of
      the lookup: a CastError, answered 500. */
  lemma MalformedIdIs500(allowed: seq<string>, token: string, verify: string -> VerifyResult, docs: map<Id, Account>)
    requires "admin" in allowed && verify(token).Verified? && !IsValidId(verify(token).id)
    ensures Authorize(allowed, Some("admin"), Some(BEARER + token), verify, docs).Deny?
    ensures Reformat(None, Authorize(allowed, Some("admin"), Some(BEARER + token), verify, docs).fault).statusCode == 500
  {
    BearerHeader(token);
  }

  /** An allowed user type with no model in `{admin: Admin}` makes the
      lookup throw a TypeError, answered 500, even for a good token. */
  lemma UnknownUserTypeIs500(allowed: seq<string>, userType: string, token: string,
                             verify: string -> VerifyResult, docs: map<Id, Account>)
    requires userType in allowed && userType != "admin" && userType != "guest"
    requires verify(token).Verified? && IsValidId(verify(token).id)
    ensures Authorize(allowed, Some(userType), Some(BEARER + token), verify, docs).Deny?
    ensures Reformat(None, Authorize(allowed, Some(userType), Some(BEARER + token), verify, docs).fault).statusCode == 500
  {
    BearerHeader(token);
  }

  /** Giving admin `x` more tokens (and touching nothing it held) never
      turns away a request the guard admitted as `x`. */
  lemma AdmitsWithMoreTokens(allowed: seq<string>, userType: Option<string>, header: Option<string>,
                             verify: string -> VerifyResult, docs: map<Id, Account>, after: map<Id, Account>, x: Id)
    requires AdmitsAs(Authorize(allowed, userType, header, verify, docs), x)
    requires x in docs ==> x in after && forall t :: t in docs[x].tokens ==> t in after[x].tokens
    ensures AdmitsAs(Authorize(allowed, userType, header, verify, after), x)
  {
  }

  /** The request object the guard writes into. */
  class Request {
    var token: Option<string>
    var admin: Option<Id>

    constructor ()
      ensures token.None? && admin.None?
    {
      token, admin := None, None;
    }
  }

  /** The middleware: on success it sets `req.token` and `req.admin` (a
      guest's request is left as it is) and calls `next()`, reported as
      `None`; otherwise it sends the classifier's response, with no user id. */
  method Guard(allowed: seq<string>, userType: Option<string>, header: Option<string>,
               verify: string -> VerifyResult, admins: map<Id, Account>, req: Request) returns (sent: Option<Response>)
    modifies req
    ensures var d := Authorize(allowed, userType, header, verify, admins);
            && (d.Deny? ==> sent == Some(Reformat(None, d.fault)) && req.token == old(req.token) && req.admin == old(req.admin))
            && (d.Proceed? && d.admin.None? ==> sent.None? && req.token == old(req.token) && req.admin == old(req.admin))
            && (d.Proceed? && d.admin.Some? ==> sent.None? && req.token == d.token && req.admin == d.admin)
  {
    var d := Authorize(allowed, userType, header, verify, admins);
    match d {
      case Deny(f) =>
        sent := Some(Reformat(None, f));
      case Proceed(token, admin) =>
        if admin.Some? {
          req.token, req.admin := token, admin;
        }
        sent := None;
    }
  }
}

=== FILE: categories.dfy ===
/** The `Category` model and the `/categories` router: a required, unique,
    trimmed `name`, a required trimmed `description`, an `isActive` flag that
    defaults to true; only `description` and `isActive` may be patched. */
module Categories {
  import opened Common
  import opened Text
  import opened ErrorHandler
  import opened Validation
  import opened Store
  import opened Query
  import opened Resource

  const ACTIVE_BLANK := "Active status can't be blank."

  const RULES: seq<PathRule> := [
    Plain("name", StringKind, Some("Name can't be blank."), true),
    Plain("description", StringKind, Some("Description can't be blank."), true),
    PathRule("isActive", BooleanKind, Some(ACTIVE_BLANK), false, false, [], "", NoCheck, Some(Bool(true)))
  ]

  const UNIQUE: seq<string> := ["name"]

  const UPDATABLE: seq<string> := ["description", "isActive"]

  /** The role `switch` of POST, PATCH and DELETE. */
  function Permits(op: Op, role: string): bool {
    !StaffBarred(role)
  }

  const SCHEMA := Schema("category", RULES, UPDATABLE, Permits)

  /** GET `/categories`: `match.isActive` only when `isActive` is given. */
  function CategoryListing(q: Params): (r: Listing)
    ensures Get(r.filter, "isActive") == IsActiveCondition(q.isActive)
    ensures forall k :: k in Keys(r.filter) ==> k == "isActive"
    ensures r.sort == ParseSort(q.sortBy) && r.fields == ParseFields(q.fields)
  {
    var filter := match IsActiveCondition(q.isActive)
      case None => []
      case Some(v) => [("isActive", v)];
    ListingFor(filter, q)
  }

  /** `isActive=true` lists exactly the active categories, `isActive=false`
      exactly the inactive ones. */
  lemma ActiveFilter(docs: map<Id, Doc>, fieldsOf: Doc -> Doc, q: Params, b: bool, id: Id)
    requires q.isActive == Some(if b then "true" else "false")
    ensures id in Matching(docs, fieldsOf, CategoryListing(q).filter) <==>
              id in docs && "isActive" in fieldsOf(docs[id]) && fieldsOf(docs[id])["isActive"] == Bool(b)
  {
    var filter := CategoryListing(q).filter;
    assert filter == [("isActive", Bool(b))];
    if id in docs && "isActive" in fieldsOf(docs[id]) && fieldsOf(docs[id])["isActive"] == Bool(b) {
      assert Matches(fieldsOf(docs[id]), filter);
    }
  }

  /** Any other non-empty `isActive` becomes an `undefined` condition, sent
      as `null`: only categories with no `isActive`, or a `null` one, are
      listed. */
  lemma UnknownActiveFilter(docs: map<Id, Doc>, fieldsOf: Doc -> Doc, q: Params, id: Id)
    requires Truthy(q.isActive) && q.isActive.value != "true" && q.isActive.value != "false"
    ensures id in Matching(docs, fieldsOf, CategoryListing(q).filter) <==>
              id in docs && ("isActive" !in fieldsOf(docs[id]) || fieldsOf(docs[id])["isActive"] in {Null, Undefined})
  {
    var filter := CategoryListing(q).filter;
    assert filter == [("isActive", Undefined)];
    if id in docs && ("isActive" !in fieldsOf(docs[id]) || fieldsOf(docs[id])["isActive"] in {Null, Undefined}) {
      assert Matches(fieldsOf(docs[id]), filter);
    }
  }

  /** A category created without `isActive` is active. */
  lemma ActiveByDefault(body: Body)
    requires "isActive" !in Keys(body)
    ensures "isActive" in Build(RULES, body) && Build(RULES, body)["isActive"] == Bool(true)
  {
    RuleAt(RULES, 2);
    DefaultApplies(RULES, body, "isActive");
  }

  /** Without a description a category is refused with the description's
      message. */
  lemma DescriptionRequired(body: Body)
    requires "description" !in Keys(body)
    ensures ("description", "Description can't be blank.") in Validate(RULES, Build(RULES, body), NoEmailCheck)
  {
    RuleAt(RULES, 1);
    assert "description" !in Defaults(RULES);
    AssignEffect(RULES, Defaults(RULES), body, "description");
    ErrorReported(RULES, Build(RULES, body), NoEmailCheck, RULES[1]);
  }

  /** The name cannot be patched: whatever the role and whether the
      category exists, the answer names `name` alone and nothing is written. */
  lemma NameNotModifiable(docs: map<Id, Doc>, fieldsOf: Doc -> Doc, role: string, id: Id, v: Value)
    requires IsValidId(id)
    ensures PatchReply(SCHEMA, docs, fieldsOf, UNIQUE, role, id, [("name", v)])
              == Failed(ValidationFault(NotFoundMessage("category"), [("name", "Name cannot be modified.")]))
  {
    var body := [("name", v)];
    assert Keys(body) == ["name"];
    assert "name" !in UPDATABLE;
    NameMessage();
    OneDisallowed(UPDATABLE, "name");
  }

  /** `_.upperFirst(_.lowerCase('name'))`. */
  lemma NameMessage()
    ensures ModifyMessage("name") == "Name cannot be modified."
  {
    NameLower();
    NameCapitalised();
  }

  lemma NameLower()
    ensures LowerCase("name") == "name"
  {
    var name := "name";
    assert !IsUpper(name[0]) && !IsUpper(name[1]) && !IsUpper(name[2]) && !IsUpper(name[3]);
    LowerCaseOfLower(name);
  }

  lemma NameCapitalised()
    ensures UpperFirst("name") == "Name"
  {
    var name := "name";
    assert ToUpperChar(name[0]) == 'N';
  }

  /** Admins and Cashiers can neither create, patch nor delete a category. */
  lemma StaffLockedOut(docs: map<Id, Doc>, fieldsOf: Doc -> Doc, role: string, id: Id, body: Body, newId: Id)
    requires StaffBarred(role)
    ensures CreateReply(SCHEMA, docs, fieldsOf, UNIQUE, role, body, newId) == Failed(AuthorizationFault())
    ensures IsValidId(id) && Whitelisted(UPDATABLE, body) ==>
              PatchReply(SCHEMA, docs, fieldsOf, UNIQUE, role, id, body) == Failed(AuthorizationFault())
    ensures IsValidId(id) ==> DeleteReply(SCHEMA, docs, role, id) == Failed(AuthorizationFault())
  {
  }
}

=== FILE: common.dfy ===
/** Values shared by every part of the model: JSON-shaped request data,
    stored documents, insertion-ordered objects and list filtering. */
module Common {

  datatype Option<+T> = None | Some(value: T)

  /** A document identifier as it arrives in a path or a token (a string). */
  type Id = string

  /** A JSON value as the server receives it in a request body or stores it
      in a document.  Numbers are integers here (see README). */
  datatype Value =
    | Undefined
    | Null
    | Str(s: string)
    | Num(n: int)
    | Bool(b: bool)
    | Arr(items: seq<Value>)
    | Obj(fields: map<string, Value>)

  /** A stored document: its paths and their values. */
  type Doc = map<string, Value>

  /** A JavaScript object whose keys keep their insertion order
      (request bodies, the `errors` objects of the error handler). */
  type Entries<V> = seq<(string, V)>

  /** A parsed JSON request body, keys in the order `Object.keys` yields them. */
  type Body = Entries<Value>

  /** `Object.keys(m)`. */
  function Keys<V>(m: Entries<V>): (ks: seq<string>)
    ensures |ks| == |m|
    ensures forall i :: 0 <= i < |m| ==> ks[i] == m[i].0
  {
    if m == [] then [] else [m[0].0] + Keys(m[1..])
  }

  /** `m[k]`: the value under the first entry with key `k`, if any. */
  function Get<V>(m: Entries<V>, k: string): (r: Option<V>)
    ensures r.Some? <==> k in Keys(m)
  {
    if m == [] then None
    else if m[0].0 == k then Some(m[0].1)
    else Get(m[1..], k)
  }

  /** `m[k] = v` on a JavaScript object: an existing key keeps its position
      and takes the new value, a new key goes to the end. */
  function Put<V>(m: Entries<V>, k: string, v: V): (r: Entries<V>)
    ensures Keys(r) == if k in Keys(m) then Keys(m) else Keys(m) + [k]
    ensures Get(r, k) == Some(v)
    ensures forall j :: j != k ==> Get(r, j) == Get(m, j)
  {
    if m == [] then [(k, v)]
    else if m[0].0 == k then [(k, v)] + m[1..]
    else [m[0]] + Put(m[1..], k, v)
  }

  predicate Distinct<T(==)>(s: seq<T>) {
    forall i, j :: 0 <= i < j < |s| ==> s[i] != s[j]
  }

  /** A key absent from an object is absent from its first entry and from
      the rest. */
  lemma NotInKeysTail<V>(m: Entries<V>, k: string)
    requires m != [] && k !in Keys(m)
    ensures k != m[0].0 && k !in Keys(m[1..])
  {
    assert Keys(m) == [m[0].0] + Keys(m[1..]);
  }

  /** `Put` passes over a first entry with another key. */
  lemma PutPasses<V>(m: Entries<V>, k: string, v: V)
    requires m != [] && m[0].0 != k
    ensures Put(m, k, v) == [m[0]] + Put(m[1..], k, v)
  {
  }

  lemma AppendCons<T>(s: seq<T>, x: T)
    requires s != []
    ensures s + [x] == [s[0]] + (s[1..] + [x])
  {
    assert s == [s[0]] + s[1..];
  }

  /** Putting a key that is not yet present appends it: the inductive step
      of copying an object. */
  lemma {:induction false} PutFresh<V>(m: Entries<V>, k: string, v: V)
    requires k !in Keys(m)
    ensures Put(m, k, v) == m + [(k, v)]
  {
    if m != [] {
      NotInKeysTail(m, k);
      PutFresh(m[1..], k, v);
      PutPasses(m, k, v);
      AppendCons(m, (k, v));
    }
  }

  /** A prefix of a sequence of distinct elements is distinct and misses
      the element that follows it. */
  lemma DistinctPrefix<T>(s: seq<T>, n: nat)
    requires n < |s| && Distinct(s)
    ensures Distinct(s[..n]) && s[n] !in s[..n]
  {
    forall i | 0 <= i < n
      ensures s[..n][i] != s[n]
    {
      assert s[..n][i] == s[i];
    }
  }

  /** Dropping the last entry of an object with distinct keys leaves
      distinct keys, none of them the dropped one. */
  lemma DropLastKey<V>(m: Entries<V>)
    requires m != [] && Distinct(Keys(m))
    ensures Distinct(Keys(m[..|m| - 1])) && m[|m| - 1].0 !in Keys(m[..|m| - 1])
  {
    var n := |m| - 1;
    KeysPrefix(m, n);
    DistinctPrefix(Keys(m), n);
  }

  /** The keys of a prefix are the prefix of the keys. */
  /** The keys of a non-empty list are those before its last entry, then its own. */
  lemma KeysLast<V>(m: Entries<V>)
    requires m != []
    ensures Keys(m) == Keys(m[..|m| - 1]) + [m[|m| - 1].0]
  {
    KeysPrefix(m, |m| - 1);
    SplitLast(Keys(m));
  }

  lemma KeysPrefix<V>(m: Entries<V>, n: nat)
    requires n <= |m|
    ensures Keys(m[..n]) == Keys(m)[..n]
  {
    forall i | 0 <= i < n
      ensures Keys(m[..n])[i] == Keys(m)[..n][i]
    {
      assert m[..n][i] == m[i];
    }
  }

  lemma SplitLast<T>(s: seq<T>)
    requires s != []
    ensures s == s[..|s| - 1] + [s[|s| - 1]]
  {
  }

  /** Distinct keys stay distinct under `Put`. */
  lemma PutKeepsDistinct<V>(m: Entries<V>, k: string, v: V)
    requires Distinct(Keys(m))
    ensures Distinct(Keys(Put(m, k, v)))
  {
  }

  /** `s.filter((y) => y !== x)`: every element equal to `x` removed, the
      others kept in order. */
  function Without<T(==,!new)>(s: seq<T>, x: T): (r: seq<T>)
    ensures forall y :: y in r <==> y in s && y != x
    ensures |r| <= |s|
  {
    if s == [] then [] else (if s[0] == x then [] else [s[0]]) + Without(s[1..], x)
  }

  /** Filtering distributes over concatenation, which with the one-element
      cases fixes the order of what is kept. */
  lemma {:induction false} WithoutAppend<T(!new)>(a: seq<T>, b: seq<T>, x: T)
    ensures Without(a + b, x) == Without(a, x) + Without(b, x)
  {
    if a == [] {
      assert a + b == b;
    } else {
      var head := if a[0] == x then [] else [a[0]];
      assert (a + b)[0] == a[0];
      assert (a + b)[1..] == a[1..] + b;
      WithoutAppend(a[1..], b, x);
      calc {
        Without(a + b, x);
        head + Without(a[1..] + b, x);
        head + (Without(a[1..], x) + Without(b, x));
        (head + Without(a[1..], x)) + Without(b, x);
        Without(a, x) + Without(b, x);
      }
    }
  }

  /** Removing an element that is absent changes nothing. */
  lemma {:induction false} WithoutAbsent<T(!new)>(s: seq<T>, x: T)
    requires x !in s
    ensures Without(s, x) == s
  {
    if s != [] {
      WithoutAbsent(s[1..], x);
      assert s == [s[0]] + s[1..];
    }
  }

  /** Appending an element not already present and then removing it
      restores the original sequence. */
  lemma AppendThenWithout<T(!new)>(s: seq<T>, x: T)
    requires x !in s
    ensures Without(s + [x], x) == s
  {
    WithoutAppend(s, [x], x);
    WithoutAbsent(s, x);
    assert Without([x], x) == [];
  }

  /** Filtering keeps a sequence of distinct elements distinct. */
  lemma {:induction false} WithoutDistinct<T(!new)>(s: seq<T>, x: T)
    requires Distinct(s)
    ensures Distinct(Without(s, x))
  {
    if s != [] {
      WithoutDistinct(s[1..], x);
      assert s[0] !in s[1..];
    }
  }

  /** JavaScript truthiness of an optional string: present and non-empty. */
  predicate Truthy(s: Option<string>) {
    s.Some? && s.value != ""
  }
}

=== FILE: error_handler.dfy ===
/** The error classifier `reformatAndLog(userId, error)`: a closed switch on
    the error's name that picks the HTTP status, rewrites the message in
    place and, for validation and duplicate-key errors, builds an `errors`
    object with one message per field. */
module ErrorHandler {
  import opened Common
  import opened Text

  /** A thrown error as the handlers build it: `name`, `message`, the
      per-field `errors` of a validation error (field to message), the
      driver's `code` and `keyPattern` of a MongoError, and the
      `response.config.baseURL` of an HTTP client error, when there is one. */
  datatype Fault = Fault(
    name: string,
    message: string,
    errors: Entries<string>,
    code: int,
    keyPattern: seq<string>,
    baseURL: Option<string>)

  /** The body sent to the client: `{message, statusCode, errors}`;
      `errors` is `undefined` (None) except for field errors. */
  datatype Response = Response(message: string, statusCode: int, errors: Option<Entries<string>>)

  const GENERIC_MESSAGE := "An unexpected error has occurred."
  const AUTHORIZATION_MESSAGE := "You aren't authorized to perform this action."
  const PAYMOB_URL := "https://accept.paymobsolutions.com/api"
  const DUPLICATE_KEY := 11000

  /** The error the guard and the role gates throw. */
  function AuthorizationFault(): Fault {
    Fault("AuthorizationError", AUTHORIZATION_MESSAGE, [], 0, [], None)
  }

  function NotFoundFault(message: string): Fault {
    Fault("NotFoundError", message, [], 0, [], None)
  }

  /** A ValidationError carrying one message per offending field. */
  function ValidationFault(message: string, errors: Entries<string>): Fault {
    Fault("ValidationError", message, errors, 0, [], None)
  }

  /** The driver's error for a write that violates the unique index on `path`. */
  function DuplicateKeyFault(path: string): Fault {
    Fault("MongoError", "E11000 duplicate key error", [], DUPLICATE_KEY, [path], None)
  }

  /** The names the switch recognises; every other name is a server error. */
  predicate Recognised(name: string) {
    name in ["ClientError", "FileError", "ValidationError", "MongoError", "AuthorizationError", "NotFoundError"]
  }

  /** Line 24: a truthy `userId` prefixes the message with `[userId]`. */
  function Prefix(userId: Option<string>): string {
    if Truthy(userId) then "[" + userId.value + "]" else ""
  }

  /** The field-error messages put a space after the bracket. */
  function SpacedPrefix(userId: Option<string>): string {
    if Truthy(userId) then "[" + userId.value + "] " else ""
  }

  /** `pluralize('field', n)`. */
  function FieldWord(n: nat): string {
    if n == 1 then "field" else "fields"
  }

  /** The sentence that replaces the message of a field error. */
  function FieldsSentence(keys: seq<string>): string {
    "The information you've entered is invalid for the following " + FieldWord(|keys|)
      + ": " + Join(keys, ", ") + "."
  }

  function TakenMessage(key: string): string {
    "The " + LowerCase(key) + " you've entered is already taken."
  }

  /** The `errors` object filled by `errors[k] = v.message` for each entry of
      `src` in turn: one entry per distinct key, the last message winning. */
  function CopyMessages(src: Entries<string>): (r: Entries<string>)
    ensures Distinct(Keys(r))
    ensures forall k :: k in Keys(r) <==> k in Keys(src)
  {
    if src == [] then []
    else
      var n := |src| - 1;
      var prefix := CopyMessages(src[..n]);
      KeysLast(src);
      PutKeepsDistinct(prefix, src[n].0, src[n].1);
      Put(prefix, src[n].0, src[n].1)
  }

  /** The `errors` object filled by `errors[key] = TakenMessage(key)` for each
      key of the index that was violated. */
  function TakenMessages(keys: seq<string>): (r: Entries<string>)
    ensures Distinct(Keys(r))
    ensures forall k :: k in Keys(r) <==> k in keys
    ensures forall k :: k in keys ==> Get(r, k) == Some(TakenMessage(k))
  {
    if keys == [] then []
    else
      var n := |keys| - 1;
      var prefix := TakenMessages(keys[..n]);
      SplitLast(keys);
      PutKeepsDistinct(prefix, keys[n], TakenMessage(keys[n]));
      Put(prefix, keys[n], TakenMessage(keys[n]))
  }

  /** The name the error carries afterwards: an unrecognised error from the
      Paymob client is relabelled, every other keeps its name. */
  function RenamedTo(name: string, baseURL: Option<string>): string {
    if !Recognised(name) && baseURL == Some(PAYMOB_URL) then "PaymobError" else name
  }

  /** What `reformatAndLog` returns for `f` thrown on behalf of `userId`. */
  function Reformat(userId: Option<string>, f: Fault): (r: Response)
    ensures r.statusCode == 400 <==>
              f.name in ["ClientError", "FileError", "ValidationError"]
              || (f.name == "MongoError" && f.code == DUPLICATE_KEY)
    ensures r.statusCode == 401 <==> f.name == "AuthorizationError"
    ensures r.statusCode == 404 <==> f.name == "NotFoundError"
    ensures r.statusCode == 500 <==> !Recognised(f.name) || (f.name == "MongoError" && f.code != DUPLICATE_KEY)
    ensures r.statusCode == 500 ==> r.message == Prefix(userId) + GENERIC_MESSAGE && r.errors.None?
    ensures (f.name in ["ClientError", "FileError", "AuthorizationError", "NotFoundError"])
              ==> r.message == Prefix(userId) + f.message && r.errors.None?
    ensures r.errors.Some? <==> f.name == "ValidationError" || (f.name == "MongoError" && f.code == DUPLICATE_KEY)
    ensures r.errors.Some? ==> r.message == SpacedPrefix(userId) + FieldsSentence(Keys(r.errors.value))
  {
    var passed := Prefix(userId) + f.message;
    var generic := Prefix(userId) + GENERIC_MESSAGE;
    if f.name == "ClientError" || f.name == "FileError" then Response(passed, 400, None)
    else if f.name == "ValidationError" then
      var errs := CopyMessages(f.errors);
      Response(SpacedPrefix(userId) + FieldsSentence(Keys(errs)), 400, Some(errs))
    else if f.name == "MongoError" then
      if f.code == DUPLICATE_KEY then
        var errs := TakenMessages(f.keyPattern);
        Response(SpacedPrefix(userId) + FieldsSentence(Keys(errs)), 400, Some(errs))
      else Response(generic, 500, None)
    else if f.name == "AuthorizationError" then Response(passed, 401, None)
    else if f.name == "NotFoundError" then Response(passed, 404, None)
    else Response(generic, 500, None)
  }

  /** The three errors the route gates throw are answered 400, 401 and 404. */
  lemma FaultStatus(userId: Option<string>, f: Fault)
    requires f.name in ["ValidationError", "AuthorizationError", "NotFoundError"]
    ensures f.name == "ValidationError" ==> Reformat(userId, f).statusCode == 400
    ensures f.name == "AuthorizationError" ==> Reformat(userId, f).statusCode == 401
    ensures f.name == "NotFoundError" ==> Reformat(userId, f).statusCode == 404
  {
  }

  /** A validation error whose fields are distinct comes back with exactly
      its own field messages, in their order. */
  lemma {:induction false} CopyDistinct(src: Entries<string>)
    requires Distinct(Keys(src))
    ensures CopyMessages(src) == src
  {
    if src != [] {
      var n := |src| - 1;
      DropLastKey(src);
      CopyDistinct(src[..n]);
      PutFresh(src[..n], src[n].0, src[n].1);
      SplitLast(src);
    }
  }

  /** Each field of a ValidationError maps to its message, and the message
      lists the fields in their order. */
  lemma ValidationResponse(userId: Option<string>, f: Fault)
    requires f.name == "ValidationError" && Distinct(Keys(f.errors))
    ensures Reformat(userId, f) ==
              Response(SpacedPrefix(userId) + FieldsSentence(Keys(f.errors)), 400, Some(f.errors))
  {
    CopyDistinct(f.errors);
  }

  /** A duplicate-key error names every key of the violated index as taken. */
  lemma DuplicateKeyResponse(userId: Option<string>, f: Fault, k: string)
    requires f.name == "MongoError" && f.code == DUPLICATE_KEY && k in f.keyPattern
    ensures Reformat(userId, f).statusCode == 400
    ensures Get(Reformat(userId, f).errors.value, k) == Some(TakenMessage(k))
  {
  }

  /** The error object `reformatAndLog` receives and rewrites in place. */
  class ErrorObject {
    var name: string
    var message: string
    const errors: Entries<string>
    const code: int
    const keyPattern: seq<string>
    const baseURL: Option<string>

    constructor (f: Fault)
      ensures Snapshot() == f
    {
      name, message := f.name, f.message;
      errors, code, keyPattern, baseURL := f.errors, f.code, f.keyPattern, f.baseURL;
    }

    function Snapshot(): Fault
      reads this
    {
      Fault(name, message, errors, code, keyPattern, baseURL)
    }
  }

  /** The `forEach` over `Object.entries(error.errors)` (lines 37-39). */
  method CollectMessages(src: Entries<string>) returns (errs: Entries<string>)
    ensures errs == CopyMessages(src)
  {
    errs := [];
    var i := 0;
    while i < |src|
      invariant 0 <= i <= |src|
      invariant errs == CopyMessages(src[..i])
    {
      CopyStep(src, i);
      errs := Put(errs, src[i].0, src[i].1);
      i := i + 1;
    }
    assert src[..i] == src;
  }

  /** One more field error adds (or overwrites) its own entry. */
  lemma CopyStep(src: Entries<string>, i: nat)
    requires i < |src|
    ensures CopyMessages(src[..i + 1]) == Put(CopyMessages(src[..i]), src[i].0, src[i].1)
  {
    var p := src[..i + 1];
    assert p[..i] == src[..i] && p[i] == src[i];
  }

  /** The `forEach` over `Object.keys(error.keyPattern)` (lines 59-61). */
  method CollectTaken(keys: seq<string>) returns (errs: Entries<string>)
    ensures errs == TakenMessages(keys)
  {
    errs := [];
    var i := 0;
    while i < |keys|
      invariant 0 <= i <= |keys|
      invariant errs == TakenMessages(keys[..i])
    {
      TakenStep(keys, i);
      errs := Put(errs, keys[i], TakenMessage(keys[i]));
      i := i + 1;
    }
    assert keys[..i] == keys;
  }

  /** One more key of the index adds (or overwrites) its own entry. */
  lemma TakenStep(keys: seq<string>, i: nat)
    requires i < |keys|
    ensures TakenMessages(keys[..i + 1]) == Put(TakenMessages(keys[..i]), keys[i], TakenMessage(keys[i]))
  {
    var p := keys[..i + 1];
    assert p[..i] == keys[..i] && p[i] == keys[i];
  }

  /** `reformatAndLog`: classifies `error`, overwrites its `message` (and, for
      the payment gateway, its `name`) and returns the client's body.
      Logging is left out. */
  method ReformatAndLog(userId: Option<string>, error: ErrorObject) returns (r: Response)
    modifies error
    ensures r == Reformat(userId, old(error.Snapshot()))
    ensures error.message == r.message
    ensures error.name == RenamedTo(old(error.name), error.baseURL)
  {
    ghost var f := error.Snapshot();
    var statusCode: int;
    var errors: Option<Entries<string>> := None;
    error.message := Prefix(userId) + error.message;
    if error.name == "ClientError" || error.name == "FileError" {
      statusCode := 400;
    } else if error.name == "ValidationError" {
      var errs := CollectMessages(error.errors);
      errors := Some(errs);
      error.message := SpacedPrefix(userId) + FieldsSentence(Keys(errs));
      statusCode := 400;
    } else if error.name == "MongoError" {
      if error.code == DUPLICATE_KEY {
        var errs := CollectTaken(error.keyPattern);
        errors := Some(errs);
        error.message := SpacedPrefix(userId) + FieldsSentence(Keys(errs));
        statusCode := 400;
      } else {
        statusCode := 500;
        error.message := Prefix(userId) + GENERIC_MESSAGE;
      }
    } else if error.name == "AuthorizationError" {
      statusCode := 401;
    } else if error.name == "NotFoundError" {
      statusCode := 404;
    } else {
      if error.baseURL == Some(PAYMOB_URL) {
        error.name := "PaymobError";
        error.message := Prefix(userId) + GENERIC_MESSAGE;
      }
      statusCode := 500;
      error.message := Prefix(userId) + GENERIC_MESSAGE;
    }
    r := Response(error.message, statusCode, errors);
    assert r == Reformat(userId, f);
  }
}

=== FILE: loader.dfy ===
/** The client's `loader` slice: the list of actions currently in flight,
    which the pages add to when a request starts and remove from when it
    ends.  The reducers reassign `state.actions` on the draft state. */
module Loader {
  import opened Common

  class LoaderState {
    var actions: seq<string>

    /** `initialState`: nothing in flight. */
    constructor ()
      ensures actions == []
    {
      actions := [];
    }

    /** `addAction`: `[...state.actions, payload]`. */
    method AddAction(payload: string)
      modifies this
      ensures actions == old(actions) + [payload]
      ensures |actions| == |old(actions)| + 1 && actions[..|old(actions)|] == old(actions)
    {
      actions := actions + [payload];
    }

    /** `removeAction`: every entry equal to `payload` is dropped, the
        others keep their order. */
    method RemoveAction(payload: string)
      modifies this
      ensures actions == Without(old(actions), payload)
      ensures payload !in actions && forall a :: a in old(actions) && a != payload ==> a in actions
      ensures payload !in old(actions) ==> actions == old(actions)
    {
      if payload !in actions {
        WithoutAbsent(actions, payload);
      }
      actions := Without(actions, payload);
    }
  }

  /** A request that starts and ends while no other request with the same
      name is in flight leaves the loader as it found it. */
  method StartAndFinish(loader: LoaderState, name: string)
    requires name !in loader.actions
    modifies loader
    ensures loader.actions == old(loader.actions)
  {
    loader.AddAction(name);
    AppendThenWithout(old(loader.actions), name);
    loader.RemoveAction(name);
  }
}

=== FILE: orders.dfy ===
/** The `Order` model and the `/orders` router.  Orders reference an admin,
    a table and a category, carry a status and an optional payment type
    from fixed lists, and a non-empty list of line items.  Any signed-in
    role may create an order; Cashiers cannot patch one; only roles other
    than Admin and Cashier may delete one; a Cashier only ever lists their
    own orders. */
module Orders {
  import opened Common
  import opened Text
  import opened ErrorHandler
  import opened Validation
  import opened Store
  import opened Query
  import opened Resource

  const STATUSES: seq<string> := ["Ordered", "Paid", "Cancelled", "Refunded"]
  const PAYMENT_TYPES: seq<string> := ["Mixed", "Cash", "Card"]
  const EMPTY_PRODUCTS := "Products can't be empty."

  /** The fields of one line item. */
  const ITEM_RULES: seq<PathRule> := [
    Plain("product", IdKind, Some("A product ID must be attached to the order's products."), false),
    Plain("price", StringKind, Some("Price can't be blank."), true),
    Plain("count", NumberKind, Some("Count can't be blank."), true)
  ]

  const RULES: seq<PathRule> := [
    Plain("admin", IdKind, Some("A admin ID must be attached to the order."), false),
    Plain("table", IdKind, Some("A table ID must be attached to the order."), false),
    Plain("category", IdKind, Some("A category ID must be attached to the order."), false),
    PathRule("status", StringKind, Some("You must choose a status."), false, false,
             STATUSES, "The status you've chosen is invalid.", NoCheck, None),
    PathRule("paymentType", StringKind, None, false, false,
             PAYMENT_TYPES, "The payment type you've chosen is invalid.", NoCheck, None),
    PathRule("products", ItemsKind(ITEM_RULES), None, false, false, [], "", NonEmpty(EMPTY_PRODUCTS), Some(Arr([])))
  ]

  const UPDATABLE: seq<string> := ["status", "paymentType", "products"]

  /** POST has no role check; PATCH refuses Cashiers; DELETE refuses Admins
      and Cashiers. */
  function Permits(op: Op, role: string): bool {
    match op
    case Create => true
    case Update => role != CASHIER
    case Delete => !StaffBarred(role)
  }

  const SCHEMA := Schema("order", RULES, UPDATABLE, Permits)

  /** GET `/orders`: the `match` object.  Super Admins and Admins may
      filter by `admin`; a Cashier is always limited to their own id; any
      other role gets no admin condition.  `category` is an extra condition. */
  function OrderFilter(role: string, self: Id, q: Params): (r: Entries<Value>)
    ensures role == CASHIER ==> Get(r, "admin") == Some(Str(self))
    ensures (role == SUPER_ADMIN || role == ADMIN) ==>
              Get(r, "admin") == if Truthy(q.admin) then Some(Str(q.admin.value)) else None
    ensures role != CASHIER && role != SUPER_ADMIN && role != ADMIN ==> Get(r, "admin") == None
    ensures Get(r, "category") == if Truthy(q.category) then Some(Str(q.category.value)) else None
    ensures forall k :: k in Keys(r) ==> k == "admin" || k == "category"
  {
    var byAdmin: Body :=
      if role == CASHIER then [("admin", Str(self))]
      else if (role == SUPER_ADMIN || role == ADMIN) && Truthy(q.admin) then [("admin", Str(q.admin.value))]
      else [];
    var byCategory: Body := if Truthy(q.category) then [("category", Str(q.category.value))] else [];
    assert Keys(byAdmin + byCategory) == Keys(byAdmin) + Keys(byCategory);
    byAdmin + byCategory
  }

  function OrderListing(role: string, self: Id, q: Params): Listing {
    ListingFor(OrderFilter(role, self, q), q)
  }

  /** Whatever `admin` a Cashier asks for, every order they are shown is
      one of their own. */
  lemma CashierSeesOnlyOwnOrders(docs: map<Id, Doc>, fieldsOf: Doc -> Doc, self: Id, q: Params, id: Id)
    requires id in Matching(docs, fieldsOf, OrderListing(CASHIER, self, q).filter)
    ensures "admin" in fieldsOf(docs[id]) && fieldsOf(docs[id])["admin"] == Str(self)
  {
    MatchesCondition(fieldsOf(docs[id]), OrderFilter(CASHIER, self, q), "admin");
  }

  /** Any role may create an order: the outcome does not depend on it. */
  lemma CreateOpenToAll(docs: map<Id, Doc>, fieldsOf: Doc -> Doc, unique: seq<string>, role1: string, role2: string, body: Body, newId: Id)
    ensures CreateReply(SCHEMA, docs, fieldsOf, unique, role1, body, newId)
            == CreateReply(SCHEMA, docs, fieldsOf, unique, role2, body, newId)
  {
  }

  /** The PATCH order of checks for a Cashier: an ill-formed id is 404, a
      key outside the whitelist is 400, and only then the role is 401. */
  lemma CashierPatch(docs: map<Id, Doc>, fieldsOf: Doc -> Doc, unique: seq<string>, id: Id, body: Body)
    ensures !IsValidId(id) ==> PatchReply(SCHEMA, docs, fieldsOf, unique, CASHIER, id, body)
                                 == Failed(NotFoundFault(NotFoundMessage("order")))
    ensures IsValidId(id) && !Whitelisted(UPDATABLE, body) ==>
              PatchReply(SCHEMA, docs, fieldsOf, unique, CASHIER, id, body).fault.name == "ValidationError"
    ensures IsValidId(id) && Whitelisted(UPDATABLE, body) ==>
              PatchReply(SCHEMA, docs, fieldsOf, unique, CASHIER, id, body) == Failed(AuthorizationFault())
  {
  }

  /** Super Admins and Admins may patch an existing order; Admins may not
      delete one. */
  lemma AdminRights(docs: map<Id, Doc>, id: Id, body: Body)
    requires IsValidId(id) && id in docs && Whitelisted(UPDATABLE, body)
    ensures PatchGate(SCHEMA, docs, ADMIN, id, body).None?
    ensures PatchGate(SCHEMA, docs, SUPER_ADMIN, id, body).None?
    ensures DeleteGate(SCHEMA, docs, ADMIN, id) == Some(AuthorizationFault())
    ensures DeleteGate(SCHEMA, docs, SUPER_ADMIN, id).None?
  {
  }

  lemma ProductsRule()
    ensures RuleFor(RULES, "products") == Some(RULES[5])
  {
    assert RULES[0].path != "products";
    assert RULES[1].path != "products";
    assert RULES[2].path != "products";
    assert RULES[3].path != "products";
    assert RULES[4].path != "products";
    RuleAt(RULES, 5);
  }

  /** An order created without line items is refused with "Products can't
      be empty.". */
  lemma ProductsRequired(body: Body)
    requires "products" !in Keys(body)
    ensures ("products", EMPTY_PRODUCTS) in Validate(RULES, Build(RULES, body), NoEmailCheck)
  {
    ProductsRule();
    DefaultApplies(RULES, body, "products");
    var doc := Build(RULES, body);
    EmptyProducts(doc);
    ErrorReported(RULES, doc, NoEmailCheck, RULES[5]);
  }

  lemma EmptyProducts(doc: Doc)
    requires "products" in doc && doc["products"] == Arr([])
    ensures PathError(RULES[5], doc, NoEmailCheck) == Some(EMPTY_PRODUCTS)
  {
    var rule := RULES[5];
    assert rule.path == "products" && rule.kind.ItemsKind? && rule.required.None?;
    assert ValueAt(doc, "products") == Arr([]);
  }

  /** A stored order has its three references, a status from the list, a
      payment type from the list when it has one, and at least one line
      item. */
  lemma ValidOrder(doc: Doc)
    requires Validate(RULES, doc, NoEmailCheck) == []
    ensures forall p :: p in ["admin", "table", "category"] ==> p in doc && doc[p].Str? && IsValidId(doc[p].s)
    ensures "status" in doc && doc["status"].Str? && doc["status"].s in STATUSES
    ensures "paymentType" in doc && doc["paymentType"] != Undefined ==>
              doc["paymentType"].Str? && doc["paymentType"].s in PAYMENT_TYPES
    ensures "products" in doc && doc["products"].Arr? && |doc["products"].items| > 0
  {
    ValidReference(doc, 0);
    ValidReference(doc, 1);
    ValidReference(doc, 2);
    assert "status" in doc && doc["status"].Str? && doc["status"].s in STATUSES by {
      ValidMeetsRules(RULES, doc, NoEmailCheck, RULES[3]);
      ValidStatus(doc);
    }
    assert "paymentType" in doc && doc["paymentType"] != Undefined ==>
             doc["paymentType"].Str? && doc["paymentType"].s in PAYMENT_TYPES by {
      ValidMeetsRules(RULES, doc, NoEmailCheck, RULES[4]);
      ValidPaymentType(doc);
    }
    assert "products" in doc && doc["products"].Arr? && |doc["products"].items| > 0 by {
      ValidMeetsRules(RULES, doc, NoEmailCheck, RULES[5]);
      ValidProducts(doc);
    }
  }

  /** Each of the three references is a well-formed id. */
  lemma ValidReference(doc: Doc, i: nat)
    requires Validate(RULES, doc, NoEmailCheck) == [] && i < 3
    ensures RULES[i].path in doc && doc[RULES[i].path].Str? && IsValidId(doc[RULES[i].path].s)
  {
    ValidMeetsRules(RULES, doc, NoEmailCheck, RULES[i]);
  }

  /** The `status` validator: required, and one of the list. */
  lemma ValidStatus(doc: Doc)
    requires PathError(RULES[3], doc, NoEmailCheck).None?
    ensures "status" in doc && doc["status"].Str? && doc["status"].s in STATUSES
  {
  }

  /** The `paymentType` validator: optional, and one of the list when present, `null` included. */
  lemma ValidPaymentType(doc: Doc)
    requires PathError(RULES[4], doc, NoEmailCheck).None?
    ensures "paymentType" in doc && doc["paymentType"] != Undefined ==>
              doc["paymentType"].Str? && doc["paymentType"].s in PAYMENT_TYPES
  {
  }

  /** The `products` validator: an array with at least one element. */
  lemma ValidProducts(doc: Doc)
    requires PathError(RULES[5], doc, NoEmailCheck).None?
    ensures "products" in doc && doc["products"].Arr? && |doc["products"].items| > 0
  {
  }

  /** In a stored order every line item has a product reference, a
      non-empty price and a numeric count. */
  lemma ValidLineItems(doc: Doc, i: nat)
    requires Validate(RULES, doc, NoEmailCheck) == []
    requires "products" in doc && doc["products"].Arr? && i < |doc["products"].items|
    ensures doc["products"].items[i].Obj?
    ensures var item := doc["products"].items[i].fields;
            "product" in item && item["product"].Str? && IsValidId(item["product"].s)
            && "price" in item && item["price"].Str? && item["price"].s != ""
            && "count" in item && item["count"].Num?
  {
    ValidMeetsRules(RULES, doc, NoEmailCheck, RULES[5]);
    assert TypeOk(RULES[5].kind, doc["products"]);
    assert ValueAt(doc, "products") == doc["products"];
    ValidItems(RULES, doc, NoEmailCheck, RULES[5], i, ITEM_RULES[0]);
    ValidItems(RULES, doc, NoEmailCheck, RULES[5], i, ITEM_RULES[1]);
    ValidItems(RULES, doc, NoEmailCheck, RULES[5], i, ITEM_RULES[2]);
  }
}

=== FILE: products.dfy ===
/** The `Product` model and the `/products` router: a required category
    reference, a required unique trimmed `name`, required `description`,
    `price`, `minimumOrdered` and `maximumOrdered`, an optional `imageUrl`,
    and `isActive` defaulting to true.  The name and the category cannot be
    patched. */
module Products {
  import opened Common
  import opened Text
  import opened ErrorHandler
  import opened Validation
  import opened Store
  import opened Query
  import opened Resource

  const RULES: seq<PathRule> := [
    Plain("category", IdKind, Some("A category ID must be attached to the product."), false),
    Plain("name", StringKind, Some("Name can't be blank."), true),
    Plain("description", StringKind, Some("Description can't be blank."), true),
    Plain("price", StringKind, Some("Price can't be blank."), true),
    Plain("imageUrl", StringKind, None, false),
    Plain("minimumOrdered", NumberKind, Some("Minimum ordered can't be blank."), true),
    Plain("maximumOrdered", NumberKind, Some("Maximum ordered can't be blank."), true),
    PathRule("isActive", BooleanKind, Some("Active status can't be blank."), false, false, [], "", NoCheck, Some(Bool(true)))
  ]

  const UNIQUE: seq<string> := ["name"]

  const UPDATABLE: seq<string> := ["description", "price", "imageUrl", "minimumOrdered", "maximumOrdered", "isActive"]

  /** The role `switch` of POST, PATCH and DELETE. */
  function Permits(op: Op, role: string): bool {
    !StaffBarred(role)
  }

  const SCHEMA := Schema("product", RULES, UPDATABLE, Permits)

  /** GET `/products`: `match.category` when `category` is given, then
      `match.isActive` when `isActive` is given. */
  function ProductListing(q: Params): (r: Listing)
    ensures Get(r.filter, "category") == if Truthy(q.category) then Some(Str(q.category.value)) else None
    ensures Get(r.filter, "isActive") == IsActiveCondition(q.isActive)
    ensures forall k :: k in Keys(r.filter) ==> k == "category" || k == "isActive"
    ensures r.sort == ParseSort(q.sortBy) && r.fields == ParseFields(q.fields)
  {
    var byCategory: Body := if Truthy(q.category) then [("category", Str(q.category.value))] else [];
    var byActive: Body := match IsActiveCondition(q.isActive)
      case None => []
      case Some(v) => [("isActive", v)];
    assert Keys(byCategory + byActive) == Keys(byCategory) + Keys(byActive);
    ListingFor(byCategory + byActive, q)
  }

  /** A category filter lists only products of that category. */
  lemma CategoryFilter(docs: map<Id, Doc>, fieldsOf: Doc -> Doc, q: Params, id: Id)
    requires Truthy(q.category) && id in Matching(docs, fieldsOf, ProductListing(q).filter)
    ensures "category" in fieldsOf(docs[id]) && fieldsOf(docs[id])["category"] == Str(q.category.value)
  {
    MatchesCondition(fieldsOf(docs[id]), ProductListing(q).filter, "category");
  }

  /** A product created without `isActive` is active. */
  lemma ActiveByDefault(body: Body)
    requires "isActive" !in Keys(body)
    ensures "isActive" in Build(RULES, body) && Build(RULES, body)["isActive"] == Bool(true)
  {
    IsActiveRule();
    DefaultApplies(RULES, body, "isActive");
  }

  lemma IsActiveRule()
    ensures RuleFor(RULES, "isActive") == Some(RULES[7])
  {
    assert RULES[0].path != "isActive";
    assert RULES[1].path != "isActive";
    assert RULES[2].path != "isActive";
    assert RULES[3].path != "isActive";
    assert RULES[4].path != "isActive";
    assert RULES[5].path != "isActive";
    assert RULES[6].path != "isActive";
    RuleAt(RULES, 7);
  }

  /** A product that passes validation has its category reference, a
      non-empty name, description and price, and both order bounds. */
  lemma ValidProduct(doc: Doc)
    requires Validate(RULES, doc, NoEmailCheck) == []
    ensures "category" in doc && doc["category"].Str? && IsValidId(doc["category"].s)
    ensures "name" in doc && doc["name"].Str? && doc["name"].s != ""
    ensures "description" in doc && doc["description"].Str? && doc["description"].s != ""
    ensures "price" in doc && doc["price"].Str? && doc["price"].s != ""
    ensures "minimumOrdered" in doc && doc["minimumOrdered"].Num?
    ensures "maximumOrdered" in doc && doc["maximumOrdered"].Num?
  {
    forall i | 0 <= i < 7 && i != 4
      ensures PathError(RULES[i], doc, NoEmailCheck).None?
    {
      ValidMeetsRules(RULES, doc, NoEmailCheck, RULES[i]);
    }
    assert PathError(RULES[0], doc, NoEmailCheck).None?;
    assert PathError(RULES[1], doc, NoEmailCheck).None?;
    assert PathError(RULES[2], doc, NoEmailCheck).None?;
    assert PathError(RULES[3], doc, NoEmailCheck).None?;
    assert PathError(RULES[5], doc, NoEmailCheck).None?;
    assert PathError(RULES[6], doc, NoEmailCheck).None?;
  }

  /** A product whose minimum order is above its maximum order. */
  const UNORDERED: Doc := map["category" := Str("abcdefghijkl"), "name" := Str("Tea"), "description" := Str("Hot"),
                              "price" := Str("5"), "minimumOrdered" := Num(9), "maximumOrdered" := Num(1),
                              "isActive" := Bool(true)]

  /** Nothing ties the two order bounds together: a minimum above the
      maximum passes validation. */
  lemma BoundsUnordered()
    ensures UNORDERED["minimumOrdered"].n > UNORDERED["maximumOrdered"].n
    ensures Validate(RULES, UNORDERED, NoEmailCheck) == []
  {
    UnorderedText();
    UnorderedNumbers();
    AllPathsPass(RULES, UNORDERED, NoEmailCheck);
  }

  lemma UnorderedText()
    ensures forall i :: 0 <= i < 5 ==> PathError(RULES[i], UNORDERED, NoEmailCheck).None?
  {
    assert IsValidId("abcdefghijkl");
    assert PathError(RULES[0], UNORDERED, NoEmailCheck).None?;
    assert PathError(RULES[1], UNORDERED, NoEmailCheck).None?;
    assert PathError(RULES[2], UNORDERED, NoEmailCheck).None?;
    assert PathError(RULES[3], UNORDERED, NoEmailCheck).None?;
  }

  lemma UnorderedNumbers()
    ensures forall i :: 5 <= i < 8 ==> PathError(RULES[i], UNORDERED, NoEmailCheck).None?
  {
    assert PathError(RULES[5], UNORDERED, NoEmailCheck).None?;
    assert PathError(RULES[6], UNORDERED, NoEmailCheck).None?;
  }

  /** Neither the name nor the category can be patched: either key makes
      the request fail with an entry for it, and nothing is written. */
  lemma NameAndCategoryFixed(docs: map<Id, Doc>, fieldsOf: Doc -> Doc, role: string, id: Id, body: Body, k: string)
    requires IsValidId(id) && (k == "name" || k == "category") && k in Keys(body)
    ensures var r := PatchReply(SCHEMA, docs, fieldsOf, UNIQUE, role, id, body);
            r.Failed? && r.fault.name == "ValidationError" && k in Keys(r.fault.errors)
  {
    assert k !in UPDATABLE;
  }

  /** Admins and Cashiers can neither create, patch nor delete a product. */
  lemma StaffLockedOut(docs: map<Id, Doc>, fieldsOf: Doc -> Doc, role: string, id: Id, body: Body, newId: Id)
    requires StaffBarred(role)
    ensures CreateReply(SCHEMA, docs, fieldsOf, UNIQUE, role, body, newId) == Failed(AuthorizationFault())
    ensures IsValidId(id) && Whitelisted(UPDATABLE, body) ==>
              PatchReply(SCHEMA, docs, fieldsOf, UNIQUE, role, id, body) == Failed(AuthorizationFault())
    ensures IsValidId(id) ==> DeleteReply(SCHEMA, docs, role, id) == Failed(AuthorizationFault())
  {
  }
}

=== FILE: query.dfy ===
/** The query-string handling the list handlers share: `sortBy` becomes a
    sort object, `fields` a projection, `isActive` a boolean condition;
    `limit` and `skip` are passed through. */
module Query {
  import opened Common
  import opened Text

  /** The query parameters a list request may carry (absent = None). */
  datatype Params = Params(
    sortBy: Option<string>,
    fields: Option<string>,
    limit: Option<nat>,
    skip: Option<nat>,
    isActive: Option<string>,
    category: Option<string>,
    admin: Option<string>)

  /** What a list handler hands to `find`: the `match` object, the
      projection, the sort object, and the page bounds. */
  datatype Listing = Listing(
    filter: Entries<Value>,
    fields: Option<string>,
    sort: Entries<int>,
    limit: Option<nat>,
    skip: Option<nat>)

  /** The sort object built from `sortBy`: newest first without one;
      `field:asc` / `field:desc` (direction in any case) otherwise; any
      other shape gives an empty sort, not the default. */
  function ParseSort(sortBy: Option<string>): (r: Entries<int>)
    ensures !Truthy(sortBy) ==> r == [("createdAt", -1)]
    ensures Truthy(sortBy) && r != [] ==> |r| == 1 && r[0].0 == Before(sortBy.value, ':') && (r[0].1 == 1 || r[0].1 == -1)
    ensures Truthy(sortBy) && ':' !in sortBy.value ==> r == []
  {
    if !Truthy(sortBy) then [("createdAt", -1)]
    else
      var field := Before(sortBy.value, ':');
      match SecondPiece(sortBy.value, ':')
      case None => []
      case Some(dir) =>
        if dir == "" then []
        else if ToLower(dir) == "desc" then [(field, -1)]
        else if ToLower(dir) == "asc" then [(field, 1)]
        else []
  }

  /** Splitting `f:t` at its first colon gives back `f` and `t`. */
  lemma SplitAtColon(f: string, t: string)
    requires ':' !in f
    ensures Before(f + ":" + t, ':') == f
    ensures After(f + ":" + t, ':') == Some(t)
  {
    assert f + ":" + t == f + [':'] + t;
    BeforeFirst(f, ':', t);
  }

  /** `field:asc` sorts ascending and `field:desc` descending on that
      field, whatever the case of the direction. */
  lemma SortByDirection(field: string, dir: string)
    requires ':' !in field && ':' !in dir
    ensures ToLower(dir) == "asc" ==> ParseSort(Some(field + ":" + dir)) == [(field, 1)]
    ensures ToLower(dir) == "desc" ==> ParseSort(Some(field + ":" + dir)) == [(field, -1)]
    ensures ToLower(dir) != "asc" && ToLower(dir) != "desc" ==> ParseSort(Some(field + ":" + dir)) == []
  {
    var s := field + ":" + dir;
    SplitAtColon(field, dir);
    BeforeAbsent(dir, ':');
    assert SecondPiece(s, ':') == Some(dir);
    if ToLower(dir) == "asc" || ToLower(dir) == "desc" {
      assert |dir| == |ToLower(dir)|;
    }
  }

  /** The projection: `fields` with each comma turned into a space. */
  function ParseFields(fields: Option<string>): (r: Option<string>)
    ensures r.Some? <==> Truthy(fields)
    ensures r.Some? ==> |r.value| == |fields.value| && ',' !in r.value
    ensures r.Some? ==> forall i :: 0 <= i < |r.value| && fields.value[i] != ',' ==> r.value[i] == fields.value[i]
  {
    if Truthy(fields) then Some(CommasToSpaces(fields.value)) else None
  }

  /** `{true: true, false: false}[isActive]` when `isActive` is given: the two
      spellings become booleans, any other value `undefined`. */
  function IsActiveCondition(isActive: Option<string>): (r: Option<Value>)
    ensures r.None? <==> !Truthy(isActive)
    ensures r == Some(Bool(true)) <==> isActive == Some("true")
    ensures r == Some(Bool(false)) <==> isActive == Some("false")
    ensures r.Some? && isActive.value != "true" && isActive.value != "false" ==> r == Some(Undefined)
  {
    if !Truthy(isActive) then None
    else if isActive.value == "true" then Some(Bool(true))
    else if isActive.value == "false" then Some(Bool(false))
    else Some(Undefined)
  }

  /** A listing with the given `match` object and the shared parameters. */
  function ListingFor(filter: Entries<Value>, q: Params): (r: Listing)
    ensures r.filter == filter && r.sort == ParseSort(q.sortBy) && r.fields == ParseFields(q.fields)
    ensures r.limit == q.limit && r.skip == q.skip
  {
    Listing(filter, ParseFields(q.fields), ParseSort(q.sortBy), q.limit, q.skip)
  }

  /** The listing of the routes that build an empty `match` (GET `/tables`
      and GET `/admins`): no condition, the shared sort and projection. */
  function UnfilteredListing(q: Params): (r: Listing)
    ensures r.filter == [] && r.sort == ParseSort(q.sortBy) && r.fields == ParseFields(q.fields)
    ensures r.limit == q.limit && r.skip == q.skip
  {
    ListingFor([], q)
  }
}

=== FILE: resource.dfy ===
/** The handlers the table, category, product and order routers share:
    create, read by id, PATCH by id with a key whitelist, and DELETE by id.
    What differs between the routers (the schema, the PATCH whitelist, the
    role `switch` of each handler, the noun in the not-found message) is a
    `Schema` value. */
module Resource {
  import opened Common
  import opened Text
  import opened ErrorHandler
  import opened Validation
  import opened Store

  const SUPER_ADMIN := "Super Admin"
  const ADMIN := "Admin"
  const CASHIER := "Cashier"

  datatype Op = Create | Update | Delete

  datatype Schema = Schema(
    noun: string,
    rules: seq<PathRule>,
    updatable: seq<string>,
    permits: (Op, string) -> bool)

  /** What a handler answers: a status and the document it sends (none for
      a delete), or the error it throws to the classifier. */
  datatype Reply = Done(status: int, doc: Option<Doc>) | Failed(fault: Fault)

  /** The role `switch` most handlers open with: `case 'Admin': case
      'Cashier':` throw, every other role falls through. */
  predicate StaffBarred(role: string) {
    role == ADMIN || role == CASHIER
  }

  function NotFoundMessage(noun: string): string {
    "We couldn't find the " + noun + " you are looking for."
  }

  const VALIDATION_MESSAGE := "Validation failed"

  /** The message for a key outside the PATCH whitelist, e.g. `isActive`
      gives "Is active cannot be modified.". */
  function ModifyMessage(key: string): string {
    UpperFirst(LowerCase(key)) + " cannot be modified."
  }

  /** `updatesKeys.every((k) => allowed.includes(k))`. */
  predicate Whitelisted(allowed: seq<string>, body: Body) {
    forall k :: k in Keys(body) ==> k in allowed
  }

  /** The `errors` object of the whitelist error: one message for each
      submitted key that is not allowed. */
  function Disallowed(allowed: seq<string>, keys: seq<string>): (r: Entries<string>)
    ensures Distinct(Keys(r))
    ensures forall k :: k in Keys(r) <==> k in keys && k !in allowed
    ensures forall k :: k in Keys(r) ==> Get(r, k) == Some(ModifyMessage(k))
  {
    if keys == [] then []
    else
      var n := |keys| - 1;
      var prefix := Disallowed(allowed, keys[..n]);
      SplitLast(keys);
      if keys[n] in allowed then prefix
      else
        PutKeepsDistinct(prefix, keys[n], ModifyMessage(keys[n]));
        Put(prefix, keys[n], ModifyMessage(keys[n]))
  }

  /** A single key outside the whitelist gives exactly one entry. */
  lemma OneDisallowed(allowed: seq<string>, k: string)
    requires k !in allowed
    ensures Disallowed(allowed, [k]) == [(k, ModifyMessage(k))]
  {
    assert [k][..0] == [];
  }

  /** The checks of PATCH `/:id` before anything is written, in the
      handler's order: a well-formed id, the whitelist, the role, the
      record's existence. */
  function PatchGate(s: Schema, docs: map<Id, Doc>, role: string, id: Id, body: Body): (r: Option<Fault>)
    ensures r.None? <==> IsValidId(id) && Whitelisted(s.updatable, body) && s.permits(Update, role) && id in docs
    ensures !IsValidId(id) ==> r == Some(NotFoundFault(NotFoundMessage(s.noun)))
    ensures IsValidId(id) && !Whitelisted(s.updatable, body) ==>
              r.Some? && r.value.name == "ValidationError" && r.value.message == NotFoundMessage(s.noun)
              && forall k :: k in Keys(r.value.errors) <==> k in Keys(body) && k !in s.updatable
    ensures IsValidId(id) && Whitelisted(s.updatable, body) && !s.permits(Update, role) ==> r == Some(AuthorizationFault())
    ensures IsValidId(id) && Whitelisted(s.updatable, body) && s.permits(Update, role) && id !in docs ==>
              r == Some(NotFoundFault(NotFoundMessage(s.noun)))
  {
    if !IsValidId(id) then Some(NotFoundFault(NotFoundMessage(s.noun)))
    else if !Whitelisted(s.updatable, body) then
      Some(ValidationFault(NotFoundMessage(s.noun), Disallowed(s.updatable, Keys(body))))
    else if !s.permits(Update, role) then Some(AuthorizationFault())
    else if id !in docs then Some(NotFoundFault(NotFoundMessage(s.noun)))
    else None
  }

  /** The checks of DELETE `/:id`: a well-formed id, the role, existence. */
  function DeleteGate(s: Schema, docs: map<Id, Doc>, role: string, id: Id): (r: Option<Fault>)
    ensures r.None? <==> IsValidId(id) && s.permits(Delete, role) && id in docs
    ensures !IsValidId(id) ==> r == Some(NotFoundFault(NotFoundMessage(s.noun)))
    ensures IsValidId(id) && !s.permits(Delete, role) ==> r == Some(AuthorizationFault())
    ensures IsValidId(id) && s.permits(Delete, role) && id !in docs ==> r == Some(NotFoundFault(NotFoundMessage(s.noun)))
  {
    if !IsValidId(id) then Some(NotFoundFault(NotFoundMessage(s.noun)))
    else if !s.permits(Delete, role) then Some(AuthorizationFault())
    else if id !in docs then Some(NotFoundFault(NotFoundMessage(s.noun)))
    else None
  }

  /** `save()`: validation first, then the store's unique indexes. */
  function SaveFault(s: Schema, docs: map<Id, Doc>, fieldsOf: Doc -> Doc, unique: seq<string>, id: Id, doc: Doc, isNew: bool): (r: Option<Fault>)
    ensures Validate(s.rules, doc, NoEmailCheck) != [] ==>
              r == Some(ValidationFault(VALIDATION_MESSAGE, Validate(s.rules, doc, NoEmailCheck)))
    ensures Validate(s.rules, doc, NoEmailCheck) == [] ==>
              r == if isNew then InsertFault(docs, fieldsOf, unique, id, doc) else UpdateFault(docs, fieldsOf, unique, id, doc)
  {
    var errs := Validate(s.rules, doc, NoEmailCheck);
    if errs != [] then Some(ValidationFault(VALIDATION_MESSAGE, errs))
    else if isNew then InsertFault(docs, fieldsOf, unique, id, doc)
    else UpdateFault(docs, fieldsOf, unique, id, doc)
  }

  /** POST `/`: the role `switch`, then `new Model(body).save()` under a
      fresh id; 201 with the new document. */
  function CreateReply(s: Schema, docs: map<Id, Doc>, fieldsOf: Doc -> Doc, unique: seq<string>, role: string, body: Body, newId: Id): (r: Reply)
    ensures !s.permits(Create, role) ==> r == Failed(AuthorizationFault())
    ensures r.Done? <==> s.permits(Create, role) && SaveFault(s, docs, fieldsOf, unique, newId, Build(s.rules, body), true).None?
    ensures r.Done? ==> r == Done(201, Some(Build(s.rules, body)))
    ensures s.permits(Create, role) && r.Failed? ==> r.fault == SaveFault(s, docs, fieldsOf, unique, newId, Build(s.rules, body), true).value
  {
    if !s.permits(Create, role) then Failed(AuthorizationFault())
    else
      var doc := Build(s.rules, body);
      match SaveFault(s, docs, fieldsOf, unique, newId, doc, true)
      case Some(f) => Failed(f)
      case None => Done(201, Some(doc))
  }

  /** GET `/:id`: 404 for an ill-formed or unknown id. */
  function ReadById(s: Schema, docs: map<Id, Doc>, id: Id): (r: Reply)
    ensures r.Done? <==> IsValidId(id) && id in docs
    ensures r.Done? ==> r == Done(200, Some(docs[id]))
    ensures r.Failed? ==> r.fault == NotFoundFault(NotFoundMessage(s.noun))
  {
    if IsValidId(id) && id in docs then Done(200, Some(docs[id]))
    else Failed(NotFoundFault(NotFoundMessage(s.noun)))
  }

  /** PATCH `/:id`: the gate, then each submitted key assigned in turn and
      the record saved. */
  function PatchReply(s: Schema, docs: map<Id, Doc>, fieldsOf: Doc -> Doc, unique: seq<string>, role: string, id: Id, body: Body): (r: Reply)
    ensures PatchGate(s, docs, role, id, body).Some? ==> r == Failed(PatchGate(s, docs, role, id, body).value)
    ensures r.Done? ==> id in docs && r == Done(200, Some(Assign(s.rules, docs[id], body)))
    ensures r.Done? <==> PatchGate(s, docs, role, id, body).None?
                         && SaveFault(s, docs, fieldsOf, unique, id, Assign(s.rules, docs[id], body), false).None?
  {
    match PatchGate(s, docs, role, id, body)
    case Some(f) => Failed(f)
    case None =>
      var doc := Assign(s.rules, docs[id], body);
      match SaveFault(s, docs, fieldsOf, unique, id, doc, false)
      case Some(f) => Failed(f)
      case None => Done(200, Some(doc))
  }

  /** DELETE `/:id`. */
  function DeleteReply(s: Schema, docs: map<Id, Doc>, role: string, id: Id): (r: Reply)
    ensures r.Done? <==> DeleteGate(s, docs, role, id).None?
    ensures r.Done? ==> r == Done(200, None)
    ensures r.Failed? ==> r.fault == DeleteGate(s, docs, role, id).value
  {
    match DeleteGate(s, docs, role, id)
    case Some(f) => Failed(f)
    case None => Done(200, None)
  }

  /** A PATCH whose body holds a key outside the whitelist is refused with
      one message per such key, whatever the role and whether or not the
      record exists; the classifier answers 400. */
  lemma WhitelistFirst(s: Schema, docs: map<Id, Doc>, fieldsOf: Doc -> Doc, unique: seq<string>, role: string, id: Id, body: Body, k: string)
    requires IsValidId(id) && !Whitelisted(s.updatable, body)
    ensures var r := PatchReply(s, docs, fieldsOf, unique, role, id, body);
            r.Failed? && r.fault.name == "ValidationError"
            && (k in Keys(r.fault.errors) <==> k in Keys(body) && k !in s.updatable)
            && (k in Keys(r.fault.errors) ==> Get(r.fault.errors, k) == Some(ModifyMessage(k)))
            && Reformat(None, r.fault).statusCode == 400
  {
  }

  /** A role the PATCH `switch` rejects gets 401 for every well-formed id
      and whitelisted body, before existence is looked at. */
  lemma RoleBeforeExistence(s: Schema, docs: map<Id, Doc>, fieldsOf: Doc -> Doc, unique: seq<string>, role: string, id: Id, body: Body)
    requires IsValidId(id) && Whitelisted(s.updatable, body) && !s.permits(Update, role)
    ensures PatchReply(s, docs, fieldsOf, unique, role, id, body) == Failed(AuthorizationFault())
    ensures Reformat(None, AuthorizationFault()).statusCode == 401
  {
  }

  /** A successful PATCH changes exactly the submitted keys: each takes the
      (cast) value sent for it, every other path keeps its value or its
      absence. */
  lemma PatchSetsOnlySubmitted(s: Schema, docs: map<Id, Doc>, fieldsOf: Doc -> Doc, unique: seq<string>, role: string, id: Id, body: Body, p: string)
    requires PatchReply(s, docs, fieldsOf, unique, role, id, body).Done?
    ensures id in docs
    ensures var doc := PatchReply(s, docs, fieldsOf, unique, role, id, body).doc.value;
            (p in Keys(body) && RuleFor(s.rules, p).Some? ==> p in doc && doc[p] == Cast(RuleFor(s.rules, p).value, LastOf(body, p).value))
            && (p !in Keys(body) ==> (p in doc <==> p in docs[id]) && (p in doc ==> doc[p] == docs[id][p]))
  {
    AssignEffect(s.rules, docs[id], body, p);
  }

  /** After a successful DELETE the same request finds nothing: 404. */
  lemma DeleteTwice(s: Schema, docs: map<Id, Doc>, role: string, id: Id)
    requires DeleteReply(s, docs, role, id).Done?
    ensures DeleteReply(s, docs - {id}, role, id) == Failed(NotFoundFault(NotFoundMessage(s.noun)))
  {
  }

  /** Every refusal of the gates is a client error: 400, 401 or 404. */
  lemma GatesAreClientErrors(s: Schema, docs: map<Id, Doc>, role: string, id: Id, body: Body, userId: Option<string>)
    ensures PatchGate(s, docs, role, id, body).Some? ==>
              Reformat(userId, PatchGate(s, docs, role, id, body).value).statusCode in {400, 401, 404}
    ensures DeleteGate(s, docs, role, id).Some? ==>
              Reformat(userId, DeleteGate(s, docs, role, id).value).statusCode in {401, 404}
  {
    var p := PatchGate(s, docs, role, id, body);
    if p.Some? {
      assert p.value.name in ["ValidationError", "AuthorizationError", "NotFoundError"];
      FaultStatus(userId, p.value);
    }
    var d := DeleteGate(s, docs, role, id);
    if d.Some? {
      assert d.value.name in ["AuthorizationError", "NotFoundError"];
      FaultStatus(userId, d.value);
    }
  }

  /** The router's handlers over one collection. */
  method HandleCreate(s: Schema, c: Collection<Doc>, role: string, body: Body, newId: Id) returns (r: Reply)
    requires c.Valid()
    modifies c
    ensures c.Valid()
    ensures r == CreateReply(s, old(c.docs), c.fieldsOf, c.unique, role, body, newId)
    ensures c.docs == if r.Done? then old(c.docs)[newId := r.doc.value] else old(c.docs)
    ensures c.order == if r.Done? then old(c.order) + [newId] else old(c.order)
  {
    if !s.permits(Create, role) {
      return Failed(AuthorizationFault());
    }
    var doc := Build(s.rules, body);
    var errs := Validate(s.rules, doc, NoEmailCheck);
    if errs != [] {
      return Failed(ValidationFault(VALIDATION_MESSAGE, errs));
    }
    var err := c.Insert(newId, doc);
    if err.Some? {
      return Failed(err.value);
    }
    r := Done(201, Some(doc));
  }

  /** The `updatesKeys.forEach((k) => { doc[k] = body[k]; })` loop. */
  method ApplyUpdates(rules: seq<PathRule>, start: Doc, body: Body) returns (doc: Doc)
    ensures doc == Assign(rules, start, body)
  {
    doc := start;
    var i := 0;
    while i < |body|
      invariant 0 <= i <= |body|
      invariant doc == Assign(rules, start, body[..i])
    {
      AssignStep(rules, start, body, i);
      doc := AssignOne(rules, doc, body[i].0, body[i].1);
      i := i + 1;
    }
    assert body[..i] == body;
  }

  /** One more submitted key is one more assignment. */
  lemma AssignStep(rules: seq<PathRule>, start: Doc, body: Body, i: nat)
    requires i < |body|
    ensures Assign(rules, start, body[..i + 1]) == AssignOne(rules, Assign(rules, start, body[..i]), body[i].0, body[i].1)
  {
    var p := body[..i + 1];
    assert p[..i] == body[..i] && p[i] == body[i];
  }

  method HandlePatch(s: Schema, c: Collection<Doc>, role: string, id: Id, body: Body) returns (r: Reply)
    requires c.Valid()
    modifies c
    ensures c.Valid() && c.order == old(c.order)
    ensures r == PatchReply(s, old(c.docs), c.fieldsOf, c.unique, role, id, body)
    ensures c.docs == if r.Done? then old(c.docs)[id := r.doc.value] else old(c.docs)
  {
    var gate := PatchGate(s, c.docs, role, id, body);
    if gate.Some? {
      return Failed(gate.value);
    }
    var doc := ApplyUpdates(s.rules, c.docs[id], body);
    var errs := Validate(s.rules, doc, NoEmailCheck);
    if errs != [] {
      return Failed(ValidationFault(VALIDATION_MESSAGE, errs));
    }
    var err := c.Update(id, doc);
    if err.Some? {
      return Failed(err.value);
    }
    r := Done(200, Some(doc));
  }

  method HandleDelete(s: Schema, c: Collection<Doc>, role: string, id: Id) returns (r: Reply)
    requires c.Valid()
    modifies c
    ensures c.Valid()
    ensures r == DeleteReply(s, old(c.docs), role, id)
    ensures c.docs == if r.Done? then old(c.docs) - {id} else old(c.docs)
    ensures c.order == if r.Done? then Without(old(c.order), id) else old(c.order)
  {
    var gate := DeleteGate(s, c.docs, role, id);
    if gate.Some? {
      return Failed(gate.value);
    }
    var found := c.Delete(id);
    r := Done(200, None);
  }
}

=== FILE: store.dfy ===
/** The document store a collection is reached through: an in-memory map
    from id to record, the natural (insertion) order of the records, and
    the unique indexes whose violation the driver reports as a MongoError
    with code 11000. */
module Store {
  import opened Common
  import opened ErrorHandler

  /** Both documents hold `path`, with the same value. */
  predicate SameAt(a: Doc, b: Doc, path: string) {
    path in a && path in b && a[path] == b[path]
  }

  /** Some document other than `id` already holds `rec`'s value at `path`. */
  predicate Collides<T>(docs: map<Id, T>, fieldsOf: T -> Doc, path: string, id: Id, rec: T) {
    exists other :: other in docs && other != id && SameAt(fieldsOf(docs[other]), fieldsOf(rec), path)
  }

  /** No two documents share a value at a path with a unique index. */
  ghost predicate UniqueHolds<T>(docs: map<Id, T>, fieldsOf: T -> Doc, unique: seq<string>) {
    forall id, p :: id in docs && p in unique ==> !Collides(docs, fieldsOf, p, id, docs[id])
  }

  /** Writing a record that collides with no other document keeps the
      unique indexes satisfied. */
  lemma WriteKeepsUnique<T>(docs: map<Id, T>, fieldsOf: T -> Doc, unique: seq<string>, id: Id, rec: T)
    requires UniqueHolds(docs, fieldsOf, unique)
    requires forall p :: p in unique ==> !Collides(docs, fieldsOf, p, id, rec)
    ensures UniqueHolds(docs[id := rec], fieldsOf, unique)
  {
    var after := docs[id := rec];
    forall x, p, other | x in after && p in unique && other in after && other != x
      ensures !SameAt(fieldsOf(after[other]), fieldsOf(after[x]), p)
    {
      if x == id {
        assert !Collides(docs, fieldsOf, p, id, rec);
      } else if other == id {
        assert !Collides(docs, fieldsOf, p, id, rec);
        assert !SameAt(fieldsOf(docs[x]), fieldsOf(rec), p);
      } else {
        assert !Collides(docs, fieldsOf, p, x, docs[x]);
      }
    }
  }

  /** The first unique index, among `unique`, that writing `rec` under `id`
      would violate. */
  function ConflictIn<T>(docs: map<Id, T>, fieldsOf: T -> Doc, unique: seq<string>, id: Id, rec: T): (r: Option<string>)
    ensures r.Some? ==> r.value in unique && Collides(docs, fieldsOf, r.value, id, rec)
    ensures r.None? ==> forall p :: p in unique ==> !Collides(docs, fieldsOf, p, id, rec)
  {
    if unique == [] then None
    else if Collides(docs, fieldsOf, unique[0], id, rec) then Some(unique[0])
    else ConflictIn(docs, fieldsOf, unique[1..], id, rec)
  }

  /** The driver's answer to inserting `rec` under `id`: a duplicate `_id`
      first, then the unique indexes. */
  function InsertFault<T>(docs: map<Id, T>, fieldsOf: T -> Doc, unique: seq<string>, id: Id, rec: T): (r: Option<Fault>)
    ensures r.None? <==> id !in docs && forall p :: p in unique ==> !Collides(docs, fieldsOf, p, id, rec)
    ensures r.Some? ==> r.value.name == "MongoError" && r.value.code == DUPLICATE_KEY
  {
    if id in docs then Some(DuplicateKeyFault("_id"))
    else match ConflictIn(docs, fieldsOf, unique, id, rec)
      case None => None
      case Some(p) => Some(DuplicateKeyFault(p))
  }

  /** The driver's answer to replacing the document under `id` by `rec`. */
  function UpdateFault<T>(docs: map<Id, T>, fieldsOf: T -> Doc, unique: seq<string>, id: Id, rec: T): (r: Option<Fault>)
    ensures r.None? <==> forall p :: p in unique ==> !Collides(docs, fieldsOf, p, id, rec)
    ensures r.Some? ==> r.value.name == "MongoError" && r.value.code == DUPLICATE_KEY
  {
    match ConflictIn(docs, fieldsOf, unique, id, rec)
    case None => None
    case Some(p) => Some(DuplicateKeyFault(p))
  }

  /** `findOne({path: v})`: the first record in natural order holding `v` at `path`. */
  function FirstWhere<T>(order: seq<Id>, docs: map<Id, T>, fieldsOf: T -> Doc, path: string, v: Value): (r: Option<Id>)
    requires forall id :: id in order ==> id in docs
    ensures r.Some? ==> r.value in order && path in fieldsOf(docs[r.value]) && fieldsOf(docs[r.value])[path] == v
    ensures r.None? ==> forall id :: id in order ==> !(path in fieldsOf(docs[id]) && fieldsOf(docs[id])[path] == v)
  {
    if order == [] then None
    else if path in fieldsOf(docs[order[0]]) && fieldsOf(docs[order[0]])[path] == v then Some(order[0])
    else FirstWhere(order[1..], docs, fieldsOf, path, v)
  }

  /** One condition of a `match` object. The driver sends an `undefined`
      value as `null`, and a `null` condition holds where the path is
      missing or `null`; any other value must be there exactly. */
  predicate Holds(doc: Doc, k: string, v: Value) {
    if v == Undefined || v == Null then k !in doc || doc[k] == Null || doc[k] == Undefined
    else k in doc && doc[k] == v
  }

  /** A document satisfies a `match` object: every condition holds. */
  predicate Matches(doc: Doc, filter: Entries<Value>) {
    forall i :: 0 <= i < |filter| ==> Holds(doc, filter[i].0, filter[i].1)
  }

  /** The condition the filter gives a path holds of every document it lets through. */
  lemma {:induction false} MatchesCondition(doc: Doc, filter: Entries<Value>, k: string)
    requires Matches(doc, filter) && Get(filter, k).Some?
    ensures Holds(doc, k, Get(filter, k).value)
    ensures Get(filter, k).value != Undefined && Get(filter, k).value != Null ==> k in doc && doc[k] == Get(filter, k).value
  {
    if filter[0].0 != k {
      assert Matches(doc, filter[1..]) by {
        forall i | 0 <= i < |filter[1..]|
          ensures Holds(doc, filter[1..][i].0, filter[1..][i].1)
        {
          assert filter[1..][i] == filter[i + 1];
        }
      }
      MatchesCondition(doc, filter[1..], k);
    }
  }

  /** `find(match)`, before projection, sorting, skipping and limiting. */
  function Matching<T>(docs: map<Id, T>, fieldsOf: T -> Doc, filter: Entries<Value>): (r: set<Id>)
    ensures forall id :: id in r <==> id in docs && Matches(fieldsOf(docs[id]), filter)
  {
    set id | id in docs && Matches(fieldsOf(docs[id]), filter)
  }

  /** One collection: its records by id, their natural order, how to see a
      record's paths, and the paths with a unique index. */
  class Collection<T(==)> {
    var docs: map<Id, T>
    var order: seq<Id>
    const fieldsOf: T -> Doc
    const unique: seq<string>

    ghost predicate Valid()
      reads this
    {
      && Distinct(order)
      && (forall id :: id in docs <==> id in order)
      && UniqueHolds(docs, fieldsOf, unique)
    }

    constructor (fieldsOf: T -> Doc, unique: seq<string>)
      ensures Valid() && docs == map[] && order == []
      ensures this.fieldsOf == fieldsOf && this.unique == unique
    {
      this.fieldsOf, this.unique := fieldsOf, unique;
      docs, order := map[], [];
    }

    /** `save()` of a new document. */
    method Insert(id: Id, rec: T) returns (err: Option<Fault>)
      requires Valid()
      modifies this
      ensures Valid()
      ensures err == InsertFault(old(docs), fieldsOf, unique, id, rec)
      ensures err.None? ==> docs == old(docs)[id := rec] && order == old(order) + [id]
      ensures err.Some? ==> docs == old(docs) && order == old(order)
    {
      err := InsertFault(docs, fieldsOf, unique, id, rec);
      if err.None? {
        WriteKeepsUnique(docs, fieldsOf, unique, id, rec);
        docs := docs[id := rec];
        order := order + [id];
      }
    }

    /** `save()` of a document loaded from the collection. */
    method Update(id: Id, rec: T) returns (err: Option<Fault>)
      requires Valid() && id in docs
      modifies this
      ensures Valid() && order == old(order)
      ensures err == UpdateFault(old(docs), fieldsOf, unique, id, rec)
      ensures docs == if err.None? then old(docs)[id := rec] else old(docs)
    {
      err := UpdateFault(docs, fieldsOf, unique, id, rec);
      if err.None? {
        WriteKeepsUnique(docs, fieldsOf, unique, id, rec);
        docs := docs[id := rec];
      }
    }

    /** `findOneAndDelete({_id: id})`, or `findOne` followed by `remove()`:
        whether a record was there, which is gone afterwards. */
    method Delete(id: Id) returns (found: bool)
      requires Valid()
      modifies this
      ensures Valid()
      ensures found == (id in old(docs))
      ensures docs == old(docs) - {id} && order == Without(old(order), id)
    {
      found := id in docs;
      WithoutDistinct(order, id);
      docs := docs - {id};
      order := Without(order, id);
    }
  }
}

=== FILE: tables.dfy ===
/** The `Table` model and the `/tables` router: one required, unique,
    trimmed `name`; every handler but the reads is closed to the Admin and
    Cashier roles; the list has no filters. */
module Tables {
  import opened Common
  import opened Text
  import opened ErrorHandler
  import opened Validation
  import opened Store
  import opened Query
  import opened Resource

  const NAME_BLANK := "Name can't be blank."

  const RULES: seq<PathRule> := [Plain("name", StringKind, Some(NAME_BLANK), true)]

  /** The paths with a unique index. */
  const UNIQUE: seq<string> := ["name"]

  /** The role `switch` of POST, PATCH and DELETE. */
  function Permits(op: Op, role: string): bool {
    !StaffBarred(role)
  }

  const SCHEMA := Schema("table", RULES, ["name"], Permits)

  /** GET `/tables` has no conditions, so it returns every table. */
  lemma ListsEveryTable(docs: map<Id, Doc>, fieldsOf: Doc -> Doc, q: Params)
    ensures Matching(docs, fieldsOf, UnfilteredListing(q).filter) == docs.Keys
  {
  }

  /** The name is stored trimmed, and nothing else is stored. */
  lemma NameTrimmed(s: string)
    ensures Build(RULES, [("name", Str(s))]) == map["name" := Str(Trim(s))]
  {
    assert [("name", Str(s))][..0] == [];
    assert RULES[1..] == [];
    assert Defaults(RULES) == map[];
    assert RuleFor(RULES, "name") == Some(RULES[0]);
    assert Cast(RULES[0], Str(s)) == Str(Trim(s));
    var body := [("name", Str(s))];
    assert Assign(RULES, map[], body[..0]) == map[];
    assert Assign(RULES, map[], body) == AssignOne(RULES, map[], "name", Str(s));
  }

  /** A table without a name, or with a name that is only whitespace, is
      refused with the name's message. */
  lemma NameRequired(body: Body)
    requires "name" !in Keys(body) || (exists s :: LastOf(body, "name") == Some(Str(s)) && Trim(s) == "")
    ensures Validate(RULES, Build(RULES, body), NoEmailCheck) == [("name", NAME_BLANK)]
  {
    AssignEffect(RULES, Defaults(RULES), body, "name");
    var doc := Build(RULES, body);
    assert PathError(RULES[0], doc, NoEmailCheck) == Some(NAME_BLANK);
    assert RULES[1..] == [];
  }

  /** Admins and Cashiers cannot create a table: nothing is stored and the
      classifier answers 401. */
  lemma StaffCannotCreate(docs: map<Id, Doc>, fieldsOf: Doc -> Doc, role: string, body: Body, newId: Id)
    requires StaffBarred(role)
    ensures CreateReply(SCHEMA, docs, fieldsOf, UNIQUE, role, body, newId) == Failed(AuthorizationFault())
    ensures Reformat(None, AuthorizationFault()).statusCode == 401
  {
  }

  /** A name that is not only whitespace passes validation. */
  lemma NamedTableValid(s: string)
    requires Trim(s) != ""
    ensures Validate(RULES, Build(RULES, [("name", Str(s))]), NoEmailCheck) == []
  {
    NameTrimmed(s);
    NamePasses(Trim(s));
    AllPathsPass(RULES, map["name" := Str(Trim(s))], NoEmailCheck);
  }

  lemma NamePasses(t: string)
    requires t != ""
    ensures forall i :: 0 <= i < |RULES| ==>
              PathError(RULES[i], map["name" := Str(t)], NoEmailCheck).None? && !RULES[i].kind.ItemsKind?
  {
    assert ValueAt(map["name" := Str(t)], "name") == Str(t);
  }

  /** A second table whose trimmed name is already in use is a duplicate-key
      error on `name`, reported as "The name you've entered is already taken.". */
  lemma DuplicateName(docs: map<Id, Doc>, fieldsOf: Doc -> Doc, other: Id, s: string, newId: Id)
    requires forall d :: fieldsOf(d) == d
    requires other in docs && newId !in docs && other != newId
    requires "name" in docs[other] && docs[other]["name"] == Str(Trim(s)) && Trim(s) != ""
    ensures CreateReply(SCHEMA, docs, fieldsOf, UNIQUE, SUPER_ADMIN, [("name", Str(s))], newId) == Failed(DuplicateKeyFault("name"))
    ensures Get(Reformat(None, DuplicateKeyFault("name")).errors.value, "name") == Some(TakenMessage("name"))
  {
    NameTrimmed(s);
    NamedTableValid(s);
    var doc := Build(RULES, [("name", Str(s))]);
    assert SameAt(fieldsOf(docs[other]), fieldsOf(doc), "name");
    assert Collides(docs, fieldsOf, "name", newId, doc);
    assert InsertFault(docs, fieldsOf, UNIQUE, newId, doc) == Some(DuplicateKeyFault("name"));
    DuplicateKeyResponse(None, DuplicateKeyFault("name"), "name");
  }
}

=== FILE: text.dfy ===
/** The string operations the server's handlers rely on, for ASCII text:
    `trim`, `toLowerCase`, `startsWith`, `replace` (first occurrence),
    `replace(/,/g, ' ')`, `split(':')`, `join(', ')`, and the two lodash
    helpers used to build field names in messages. */
module Text {
  import opened Common

  /** What `trim` removes: the white space and line terminators of the
      ECMAScript standard (sections 12.2 and 12.3 of ECMA-262). */
  predicate IsWhitespace(c: char) {
    || c == ' ' || c == '\t' || c == '\n' || c == '\r' || c == '\U{B}' || c == '\U{C}'
    || c == '\U{A0}' || c == '\U{FEFF}' || c == '\U{1680}' || '\U{2000}' <= c <= '\U{200A}'
    || c == '\U{2028}' || c == '\U{2029}' || c == '\U{202F}' || c == '\U{205F}' || c == '\U{3000}'
  }

  predicate IsUpper(c: char) { 'A' <= c <= 'Z' }
  predicate IsLower(c: char) { 'a' <= c <= 'z' }
  predicate IsDigit(c: char) { '0' <= c <= '9' }

  function ToLowerChar(c: char): (d: char)
    ensures !IsUpper(d)
    ensures !IsUpper(c) ==> d == c
  {
    if IsUpper(c) then (c as int + 32) as char else c
  }

  function ToUpperChar(c: char): (d: char)
    ensures !IsLower(d)
    ensures !IsLower(c) ==> d == c
  {
    if IsLower(c) then (c as int - 32) as char else c
  }

  /** `s.toLowerCase()` on ASCII letters. */
  function ToLower(s: string): (r: string)
    ensures |r| == |s|
    ensures forall i :: 0 <= i < |s| ==> r[i] == ToLowerChar(s[i])
  {
    if s == [] then [] else [ToLowerChar(s[0])] + ToLower(s[1..])
  }

  /** The first position at or after `i` that is not whitespace (`|s|`
      when there is none): where `trimStart` cuts. */
  function FirstNonSpace(s: string, i: nat): (j: nat)
    requires i <= |s|
    ensures i <= j <= |s|
    ensures forall k :: i <= k < j ==> IsWhitespace(s[k])
    ensures j < |s| ==> !IsWhitespace(s[j])
    decreases |s| - i
  {
    if i < |s| && IsWhitespace(s[i]) then FirstNonSpace(s, i + 1) else i
  }

  /** The end of `s[lo..j]` once its trailing whitespace is dropped: where
      `trimEnd` cuts. */
  function EndNonSpace(s: string, lo: nat, j: nat): (e: nat)
    requires lo <= j <= |s|
    ensures lo <= e <= j
    ensures forall k :: e <= k < j ==> IsWhitespace(s[k])
    ensures e > lo ==> !IsWhitespace(s[e - 1])
  {
    if j > lo && IsWhitespace(s[j - 1]) then EndNonSpace(s, lo, j - 1) else j
  }

  /** `s.trim()`, the `trim: true` setter of a schema path: the result is
      `s` with the whitespace at both ends cut off and no more. */
  function Trim(s: string): (r: string)
    ensures r == [] || (!IsWhitespace(r[0]) && !IsWhitespace(r[|r| - 1]))
    ensures exists a, b :: 0 <= a <= b <= |s| && r == s[a..b]
                           && (forall i :: 0 <= i < a ==> IsWhitespace(s[i]))
                           && (forall i :: b <= i < |s| ==> IsWhitespace(s[i]))
  {
    var a := FirstNonSpace(s, 0);
    var b := EndNonSpace(s, a, |s|);
    s[a..b]
  }

  /** Trimming text that has no whitespace at either end changes nothing. */
  lemma TrimNoop(s: string)
    requires s == [] || (!IsWhitespace(s[0]) && !IsWhitespace(s[|s| - 1]))
    ensures Trim(s) == s
  {
  }

  predicate StartsWith(s: string, p: string) {
    |p| <= |s| && s[..|p|] == p
  }

  /** `p` occurs in `s` starting at position `j`. */
  predicate OccursAt(s: string, p: string, j: nat) {
    j + |p| <= |s| && s[j..j + |p|] == p
  }

  /** `s.indexOf(p, i)`: the first position at or after `i` where `p` occurs. */
  function IndexFrom(s: string, p: string, i: nat): (r: Option<nat>)
    requires i <= |s|
    ensures r.Some? ==> i <= r.value && OccursAt(s, p, r.value)
    ensures forall j :: i <= j && (r.None? || j < r.value) ==> !OccursAt(s, p, j)
    decreases |s| - i
  {
    if OccursAt(s, p, i) then Some(i)
    else if i + |p| >= |s| then None
    else IndexFrom(s, p, i + 1)
  }

  /** `s.replace(p, rep)` with a string pattern: only the first occurrence is
      replaced; without one, `s` is returned unchanged. */
  function ReplaceFirst(s: string, p: string, rep: string): (r: string)
    ensures (forall i :: 0 <= i ==> !OccursAt(s, p, i)) ==> r == s
    ensures forall i {:trigger OccursAt(s, p, i)} :: 0 <= i && OccursAt(s, p, i) && (forall j :: 0 <= j < i ==> !OccursAt(s, p, j)) ==>
              r == s[..i] + rep + s[i + |p|..]
  {
    match IndexFrom(s, p, 0)
    case None => s
    case Some(i) => s[..i] + rep + s[i + |p|..]
  }

  /** Removing a prefix with `replace(prefix, '')` leaves exactly what follows it. */
  lemma ReplacePrefix(s: string, p: string)
    requires StartsWith(s, p)
    ensures ReplaceFirst(s, p, "") == s[|p|..]
  {
    assert s[0..|p|] == s[..|p|];
  }

  /** `parts.join(sep)`. */
  function Join(parts: seq<string>, sep: string): (r: string)
    ensures parts == [] ==> r == ""
    ensures |parts| == 1 ==> r == parts[0]
  {
    if parts == [] then ""
    else if |parts| == 1 then parts[0]
    else parts[0] + sep + Join(parts[1..], sep)
  }

  /** Joining one more part puts the separator and then that part after
      the parts already joined: `[k1, ..., kn].join(sep)` reads
      `k1 sep k2 sep ... sep kn`. */
  lemma {:induction false} JoinAppend(parts: seq<string>, k: string, sep: string)
    requires parts != []
    ensures Join(parts + [k], sep) == Join(parts, sep) + sep + k
  {
    if |parts| > 1 {
      assert (parts + [k])[1..] == parts[1..] + [k];
      JoinAppend(parts[1..], k, sep);
    }
  }

  /** `s.replace(/,/g, ' ')`: every comma becomes a space, nothing else moves. */
  function CommasToSpaces(s: string): (r: string)
    ensures |r| == |s|
    ensures ',' !in r
    ensures forall i :: 0 <= i < |s| && s[i] != ',' ==> r[i] == s[i]
  {
    if s == [] then [] else [if s[0] == ',' then ' ' else s[0]] + CommasToSpaces(s[1..])
  }

  /** `s.split(c)[0]`: the text before the first `c` (all of `s` without one). */
  function Before(s: string, c: char): (r: string)
    ensures c !in r
    ensures |r| <= |s| && r == s[..|r|]
    ensures |r| < |s| ==> s[|r|] == c
  {
    if s == [] || s[0] == c then [] else [s[0]] + Before(s[1..], c)
  }

  /** The text after the first `c`, or `None` when `s` has no `c`. */
  function After(s: string, c: char): (r: Option<string>)
    ensures r.None? <==> c !in s
    ensures r.Some? ==> s == Before(s, c) + [c] + r.value
  {
    var b := Before(s, c);
    if |b| == |s| then None else Some(s[|b| + 1..])
  }

  /** `s.split(c)[1]`: the second piece, or `None` (`undefined`) without a `c`. */
  function SecondPiece(s: string, c: char): (r: Option<string>)
    ensures r.Some? ==> c !in r.value
    ensures r.Some? <==> c in s
  {
    match After(s, c)
    case None => None
    case Some(t) => Some(Before(t, c))
  }

  /** Without a `c`, `split(c)[0]` is the whole text. */
  lemma {:induction false} BeforeAbsent(s: string, c: char)
    requires c !in s
    ensures Before(s, c) == s
  {
    if s != [] {
      assert c !in s[1..];
      BeforeAbsent(s[1..], c);
    }
  }

  /** Text that starts with a `c`-free piece and then a `c` splits at that `c`. */
  lemma {:induction false} BeforeFirst(f: string, c: char, rest: string)
    requires c !in f
    ensures Before(f + [c] + rest, c) == f
  {
    if f != [] {
      assert (f + [c] + rest)[1..] == f[1..] + [c] + rest;
      BeforeFirst(f[1..], c, rest);
    }
  }

  /** `(f + c + t + u).split(c)[1]` is `t` when `f` and `t` have no `c` and
      `u` is empty or starts the next piece. */
  lemma SecondPieceOf(f: string, t: string, u: string, c: char)
    requires c !in f && c !in t && (u == [] || u[0] == c)
    ensures SecondPiece(f + [c] + t + u, c) == Some(t)
  {
    var s := f + [c] + t + u;
    BeforeFirst(f, c, t + u);
    assert s == f + [c] + (t + u);
    assert After(s, c) == Some(t + u);
    if u == [] {
      assert t + u == t;
      BeforeAbsent(t, c);
    } else {
      assert t + u == t + [c] + u[1..];
      BeforeFirst(t, c, u[1..]);
    }
  }

  /** A `_.lowerCase(key)` for camelCase keys made of ASCII letters only:
      a space goes in before each capital that follows a lower-case letter,
      and every letter is lower-cased.  Digits and runs of capitals, which
      lodash also splits at, are not handled. */
  function LowerCase(s: string): (r: string)
    ensures forall i :: 0 <= i < |r| ==> !IsUpper(r[i])
    ensures |r| >= |s|
  {
    if |s| <= 1 then ToLower(s)
    else
      var last := s[|s| - 1];
      var prev := s[|s| - 2];
      LowerCase(s[..|s| - 1])
        + (if IsUpper(last) && (IsLower(prev) || IsDigit(prev)) then " " else "")
        + [ToLowerChar(last)]
  }

  /** A key already in lower case keeps its spelling. */
  lemma {:induction false} LowerCaseOfLower(s: string)
    requires forall i :: 0 <= i < |s| ==> !IsUpper(s[i])
    ensures LowerCase(s) == s
  {
    if |s| > 1 {
      LowerCaseOfLower(s[..|s| - 1]);
      SplitLast(s);
    }
  }

  /** `_.upperFirst(s)`. */
  function UpperFirst(s: string): (r: string)
    ensures |r| == |s|
    ensures s != [] ==> r[0] == ToUpperChar(s[0]) && r[1..] == s[1..]
  {
    if s == [] then [] else [ToUpperChar(s[0])] + s[1..]
  }

  /** The decimal spelling of a natural number, as JavaScript prints it. */
  function NatToString(n: nat): (r: string)
    ensures |r| >= 1
    ensures forall i :: 0 <= i < |r| ==> IsDigit(r[i])
  {
    var d := ['0' + (n % 10) as char];
    if n < 10 then d else NatToString(n / 10) + d
  }

  predicate AllDigits(s: string) {
    forall i :: 0 <= i < |s| ==> IsDigit(s[i])
  }

  /** The number a string of decimal digits spells, as `Number(s)` reads it. */
  function DigitsValue(s: string): nat
    requires AllDigits(s)
  {
    if s == [] then 0 else DigitsValue(s[..|s| - 1]) * 10 + (s[|s| - 1] as int - '0' as int)
  }

  /** Reading back the decimal spelling of a number gives the number. */
  lemma {:induction false} DigitsOfNat(n: nat)
    ensures AllDigits(NatToString(n)) && DigitsValue(NatToString(n)) == n
  {
    var d := ['0' + (n % 10) as char];
    if n >= 10 {
      var r := NatToString(n / 10);
      DigitsOfNat(n / 10);
      assert (r + d)[..|r + d| - 1] == r;
    }
  }

  predicate IsHexDigit(c: char) {
    IsDigit(c) || 'a' <= c <= 'f' || 'A' <= c <= 'F'
  }

  /** `mongoose.Types.ObjectId.isValid(s)` for a string argument: twelve
      characters of any kind, or twenty-four hexadecimal digits. */
  predicate IsValidId(s: string) {
    |s| == 12 || (|s| == 24 && forall i :: 0 <= i < |s| ==> IsHexDigit(s[i]))
  }
}

=== FILE: validation.dfy ===
/** The declarative part of a schema: for each path its type, whether it is
    required (and with which message), its setters (`trim`, `lowercase`),
    its enum, its default and one custom validator.  `Assign` is what
    assigning a value to a document path does (strict mode, casting,
    setters); `Validate` is what `save()` checks before writing. */
module Validation {
  import opened Common
  import opened Text

  datatype Kind =
    | StringKind
    | NumberKind
    | BooleanKind
    | IdKind
      /** An array of sub-documents, each checked against `itemRules`. */
    | ItemsKind(itemRules: seq<PathRule>)

  datatype Check =
    | NoCheck
    | IsEmail(emailMessage: string)
    | MinLength(min: nat, lengthMessage: string)
    | NonEmpty(emptyMessage: string)

  datatype PathRule = PathRule(
    path: string,
    kind: Kind,
    required: Option<string>,
    trim: bool,
    lowercase: bool,
    enumValues: seq<string>,
    enumMessage: string,
    check: Check,
    default: Option<Value>)

  /** A plain path: no enum, no custom validator, no default. */
  function Plain(path: string, kind: Kind, required: Option<string>, trim: bool): PathRule {
    PathRule(path, kind, required, trim, false, [], "", NoCheck, None)
  }

  predicate Blank(v: Value) {
    v == Undefined || v == Null
  }

  function IntToString(n: int): string {
    if n < 0 then "-" + NatToString(-n) else NatToString(n)
  }

  /** The string setters of a path, in the order the schema applies them. */
  function Normalise(rule: PathRule, s: string): string {
    var t := if rule.trim then Trim(s) else s;
    if rule.lowercase then ToLower(t) else t
  }

  /** Casting a sub-document of an array path: unknown keys dropped, the
      known ones cast by their own rule. */
  function CastItem(itemRules: seq<PathRule>, v: Value): Value {
    match v
    case Obj(m) => Obj(map k | k in m && RuleFor(itemRules, k).Some? :: CastScalar(RuleFor(itemRules, k).value, m[k]))
    case _ => v
  }

  /** The first rule for `path`, if the schema has that path. */
  function RuleFor(rules: seq<PathRule>, path: string): (r: Option<PathRule>)
    ensures r.Some? ==> r.value in rules && r.value.path == path
    ensures r.None? ==> forall rule :: rule in rules ==> rule.path != path
  {
    if rules == [] then None
    else if rules[0].path == path then Some(rules[0])
    else RuleFor(rules[1..], path)
  }

  /** The rule for a path is the first rule that names it. */
  lemma {:induction false} RuleAt(rules: seq<PathRule>, i: nat)
    requires i < |rules| && forall j :: 0 <= j < i ==> rules[j].path != rules[i].path
    ensures RuleFor(rules, rules[i].path) == Some(rules[i])
  {
    if i > 0 {
      RuleAt(rules[1..], i - 1);
    }
  }

  /** `Number(s)` as Mongoose's number cast applies it: the empty string
      becomes `null`, a decimal integer its value; anything else is kept
      and reported as a cast error. */
  function NumberOfString(s: string): (r: Value)
    ensures s == "" ==> r == Null
    ensures s != "" && AllDigits(s) ==> r == Num(DigitsValue(s))
    ensures |s| > 1 && s[0] == '-' && AllDigits(s[1..]) ==> r == Num(-(DigitsValue(s[1..]) as int))
    ensures r.Str? ==> r == Str(s) && s != ""
  {
    if s == "" then Null
    else if AllDigits(s) then Num(DigitsValue(s))
    else if |s| > 1 && s[0] == '-' && AllDigits(s[1..]) then Num(-(DigitsValue(s[1..]) as int))
    else Str(s)
  }

  /** A number sent as its decimal spelling is stored as that number. */
  lemma NumberSpelling(n: int)
    ensures NumberOfString(IntToString(n)) == Num(n)
  {
    if n < 0 {
      DigitsOfNat(-n);
      var s := IntToString(n);
      assert s[1..] == NatToString(-n);
      assert !IsDigit(s[0]);
    } else {
      DigitsOfNat(n);
    }
  }

  /** Mongoose's cast of a non-array value to the path's type; a value
      that cannot be cast is kept and reported by `Validate`. */
  function CastScalar(rule: PathRule, v: Value): Value {
    match rule.kind
    case StringKind =>
      (match v
       case Str(s) => Str(Normalise(rule, s))
       case Num(n) => Str(Normalise(rule, IntToString(n)))
       case Bool(b) => Str(if b then "true" else "false")
       case _ => v)
    case NumberKind =>
      (match v
       case Bool(b) => Num(if b then 1 else 0)
       case Str(s) => NumberOfString(s)
       case _ => v)
    case BooleanKind =>
      (if v in [Str("true"), Str("1"), Str("yes"), Num(1)] then Bool(true)
       else if v in [Str("false"), Str("0"), Str("no"), Num(0)] then Bool(false)
       else v)
    case _ => v
  }

  /** `doc[path] = v` for a schema path. */
  function Cast(rule: PathRule, v: Value): Value {
    match rule.kind
    case ItemsKind(itemRules) =>
      (match v
       case Arr(items) => Arr(seq(|items|, i requires 0 <= i < |items| => CastItem(itemRules, items[i])))
       case _ => v)
    case _ => CastScalar(rule, v)
  }

  /** `doc[k] = v`: a schema path takes the cast value, a key the schema
      does not have is dropped (strict mode). */
  function AssignOne(rules: seq<PathRule>, doc: Doc, k: string, v: Value): Doc {
    match RuleFor(rules, k)
    case None => doc
    case Some(rule) => doc[k := Cast(rule, v)]
  }

  /** `doc[k] = v` for each entry of `body` in turn. */
  function Assign(rules: seq<PathRule>, doc: Doc, body: Body): (r: Doc)
  {
    if body == [] then doc
    else
      var n := |body| - 1;
      AssignOne(rules, Assign(rules, doc, body[..n]), body[n].0, body[n].1)
  }

  /** The value the last entry for `k` in `body` carries. */
  function LastOf(body: Body, k: string): (r: Option<Value>)
    ensures r.Some? <==> k in Keys(body)
  {
    if body == [] then None
    else
      var n := |body| - 1;
      KeysLast(body);
      if body[n].0 == k then Some(body[n].1) else LastOf(body[..n], k)
  }

  /** One assignment `doc[k] = v`: a schema path `k` takes the cast value,
      every other path keeps its value (or its absence). */
  lemma AssignOneEffect(rules: seq<PathRule>, doc: Doc, k: string, v: Value, p: string)
    ensures k == p && RuleFor(rules, p).Some? ==>
              p in AssignOne(rules, doc, k, v) && AssignOne(rules, doc, k, v)[p] == Cast(RuleFor(rules, p).value, v)
    ensures k != p || RuleFor(rules, p).None? ==>
              (p in AssignOne(rules, doc, k, v) <==> p in doc)
              && (p in doc ==> AssignOne(rules, doc, k, v)[p] == doc[p])
  {
  }

  /** Assignment changes exactly the submitted schema paths: each takes the
      cast of the last value submitted for it, every other path keeps its
      value (or its absence). */
  lemma {:induction false} AssignEffect(rules: seq<PathRule>, doc: Doc, body: Body, p: string)
    ensures RuleFor(rules, p).Some? && p in Keys(body) ==>
              p in Assign(rules, doc, body) && Assign(rules, doc, body)[p] == Cast(RuleFor(rules, p).value, LastOf(body, p).value)
    ensures RuleFor(rules, p).None? || p !in Keys(body) ==>
              (p in Assign(rules, doc, body) <==> p in doc)
              && (p in doc ==> Assign(rules, doc, body)[p] == doc[p])
  {
    if body != [] {
      var n := |body| - 1;
      var (k, v) := body[n];
      var d := Assign(rules, doc, body[..n]);
      KeysLast(body);
      assert Assign(rules, doc, body) == AssignOne(rules, d, k, v);
      AssignEffect(rules, doc, body[..n], p);
      AssignOneEffect(rules, d, k, v, p);
      if k == p {
        assert LastOf(body, p) == Some(v);
      } else {
        assert LastOf(body, p) == LastOf(body[..n], p);
      }
    }
  }

  /** The schema defaults (`isActive: true`, an empty array). */
  function Defaults(rules: seq<PathRule>): (d: Doc)
    ensures forall p :: p in d <==> RuleFor(rules, p).Some? && RuleFor(rules, p).value.default.Some?
    ensures forall p :: p in d ==> d[p] == RuleFor(rules, p).value.default.value
  {
    if rules == [] then map[]
    else
      var rest := Defaults(rules[1..]);
      if rules[0].default.Some? then rest[rules[0].path := rules[0].default.value]
      else rest - {rules[0].path}
  }

  /** `new Model(body)`: defaults first, then the body's schema paths. */
  function Build(rules: seq<PathRule>, body: Body): Doc {
    Assign(rules, Defaults(rules), body)
  }

  /** A path with a default that the body does not mention holds the default. */
  lemma DefaultApplies(rules: seq<PathRule>, body: Body, p: string)
    requires RuleFor(rules, p).Some? && RuleFor(rules, p).value.default.Some? && p !in Keys(body)
    ensures p in Build(rules, body) && Build(rules, body)[p] == RuleFor(rules, p).value.default.value
  {
    AssignEffect(rules, Defaults(rules), body, p);
  }

  function KindName(kind: Kind): string {
    match kind
    case StringKind => "string"
    case NumberKind => "Number"
    case BooleanKind => "Boolean"
    case IdKind => "ObjectId"
    case ItemsKind(_) => "Array"
  }

  function CastMessage(kind: Kind, path: string): string {
    "Cast to " + KindName(kind) + " failed at path \"" + path + "\""
  }

  /** The value has the path's type. */
  predicate TypeOk(kind: Kind, v: Value) {
    match kind
    case StringKind => v.Str?
    case NumberKind => v.Num?
    case BooleanKind => v.Bool?
    case IdKind => v.Str? && IsValidId(v.s)
    case ItemsKind(_) => v.Arr? && forall i :: 0 <= i < |v.items| ==> v.items[i].Obj?
  }

  function ValueAt(doc: Doc, path: string): Value {
    if path in doc then doc[path] else Undefined
  }

  /** The first validator of `rule` that the document fails, in the order
      required, cast, enum, custom. Only `required` looks at a missing
      value; `null` goes on to the enum validator, which rejects it. */
  function PathError(rule: PathRule, doc: Doc, isEmail: string -> bool): (r: Option<string>)
    ensures rule.required.Some? && r.None? ==> !Blank(ValueAt(doc, rule.path))
    ensures rule.required.Some? && Blank(ValueAt(doc, rule.path)) ==> r == rule.required
    ensures r.None? && !Blank(ValueAt(doc, rule.path)) ==> TypeOk(rule.kind, ValueAt(doc, rule.path))
    ensures r.None? && rule.enumValues != [] && ValueAt(doc, rule.path).Str? ==> ValueAt(doc, rule.path).s in rule.enumValues
    ensures r.None? && rule.enumValues != [] && rule.kind == StringKind && ValueAt(doc, rule.path) != Undefined ==>
              ValueAt(doc, rule.path).Str? && ValueAt(doc, rule.path).s in rule.enumValues
  {
    var v := ValueAt(doc, rule.path);
    if Blank(v) || (rule.kind == StringKind && v == Str("")) then
      if rule.required.Some? then rule.required
      else if Blank(v) then
        (if rule.check.NonEmpty? then Some(rule.check.emptyMessage)
         else if v == Null && rule.enumValues != [] then Some(rule.enumMessage)
         else None)
      else if rule.enumValues != [] then Some(rule.enumMessage)
      else None
    else if !TypeOk(rule.kind, v) then Some(CastMessage(rule.kind, rule.path))
    else if rule.enumValues != [] && v.Str? && v.s !in rule.enumValues then Some(rule.enumMessage)
    else match rule.check
      case NoCheck => None
      case IsEmail(m) => if v.Str? && !isEmail(v.s) then Some(m) else None
      case MinLength(n, m) => if v.Str? && |v.s| < n then Some(m) else None
      case NonEmpty(m) => if v.Arr? && |v.items| == 0 then Some(m) else None
  }

  /** The e-mail test of the schemas that have no e-mail path. */
  predicate NoEmailCheck(s: string) {
    true
  }

  /** The errors of one sub-document, keyed `<prefix><path>`. */
  function ItemErrors(itemRules: seq<PathRule>, item: Doc, prefix: string): Entries<string> {
    if itemRules == [] then []
    else
      (match PathError(itemRules[0], item, NoEmailCheck)
       case None => []
       case Some(m) => [(prefix + itemRules[0].path, m)])
      + ItemErrors(itemRules[1..], item, prefix)
  }

  /** The errors of the sub-documents of an array path, `path.i.field`. */
  function ItemsErrors(itemRules: seq<PathRule>, items: seq<Value>, path: string, from: nat): Entries<string>
    decreases |items| - from
  {
    if from >= |items| then []
    else
      (match items[from]
       case Obj(m) => ItemErrors(itemRules, m, path + "." + NatToString(from) + ".")
       case _ => [])
      + ItemsErrors(itemRules, items, path, from + 1)
  }

  /** The errors `save()` reports, one entry per failing path, in schema order. */
  function Validate(rules: seq<PathRule>, doc: Doc, isEmail: string -> bool): (errs: Entries<string>)
  {
    if rules == [] then []
    else
      var rule := rules[0];
      var own := match PathError(rule, doc, isEmail)
        case None => []
        case Some(m) => [(rule.path, m)];
      var nested := match (rule.kind, ValueAt(doc, rule.path))
        case (ItemsKind(itemRules), Arr(items)) => ItemsErrors(itemRules, items, rule.path, 0)
        case _ => [];
      own + nested + Validate(rules[1..], doc, isEmail)
  }

  /** A document that passes every path's validators, in a schema with no
      array paths, has no validation errors. */
  lemma {:induction false} AllPathsPass(rules: seq<PathRule>, doc: Doc, isEmail: string -> bool)
    requires forall i :: 0 <= i < |rules| ==> PathError(rules[i], doc, isEmail).None? && !rules[i].kind.ItemsKind?
    ensures Validate(rules, doc, isEmail) == []
  {
    if rules != [] {
      assert forall i :: 0 <= i < |rules[1..]| ==> rules[1..][i] == rules[i + 1];
      AllPathsPass(rules[1..], doc, isEmail);
    }
  }

  /** A document that passes validation meets every rule: required paths
      are present, present values have their path's type, and enum paths
      hold one of their values. */
  lemma {:induction false} ValidMeetsRules(rules: seq<PathRule>, doc: Doc, isEmail: string -> bool, rule: PathRule)
    requires Validate(rules, doc, isEmail) == [] && rule in rules
    ensures PathError(rule, doc, isEmail).None?
  {
    if rules[0] != rule {
      assert Validate(rules[1..], doc, isEmail) == [];
      ValidMeetsRules(rules[1..], doc, isEmail, rule);
    }
  }

  /** Each failing path is reported under its own name. */
  lemma {:induction false} ErrorReported(rules: seq<PathRule>, doc: Doc, isEmail: string -> bool, rule: PathRule)
    requires rule in rules && PathError(rule, doc, isEmail).Some?
    ensures (rule.path, PathError(rule, doc, isEmail).value) in Validate(rules, doc, isEmail)
  {
    var own := match PathError(rules[0], doc, isEmail)
      case None => []
      case Some(m) => [(rules[0].path, m)];
    var nested := match (rules[0].kind, ValueAt(doc, rules[0].path))
      case (ItemsKind(itemRules), Arr(items)) => ItemsErrors(itemRules, items, rules[0].path, 0)
      case _ => [];
    assert Validate(rules, doc, isEmail) == own + nested + Validate(rules[1..], doc, isEmail);
    if rules[0] == rule {
      assert own[0] in Validate(rules, doc, isEmail);
    } else {
      ErrorReported(rules[1..], doc, isEmail, rule);
    }
  }

  /** A sub-document list with no errors has every sub-document meeting
      every item rule. */
  lemma {:induction false} ItemErrorsEmpty(itemRules: seq<PathRule>, item: Doc, prefix: string, rule: PathRule)
    requires ItemErrors(itemRules, item, prefix) == [] && rule in itemRules
    ensures PathError(rule, item, NoEmailCheck).None?
  {
    if itemRules[0] != rule {
      ItemErrorsEmpty(itemRules[1..], item, prefix, rule);
    }
  }

  lemma {:induction false} ItemsErrorsEmpty(itemRules: seq<PathRule>, items: seq<Value>, path: string, from: nat, i: nat, rule: PathRule)
    requires ItemsErrors(itemRules, items, path, from) == [] && from <= i < |items| && items[i].Obj? && rule in itemRules
    ensures PathError(rule, items[i].fields, NoEmailCheck).None?
    decreases i - from
  {
    var own := match items[from]
      case Obj(m) => ItemErrors(itemRules, m, path + "." + NatToString(from) + ".")
      case _ => [];
    assert ItemsErrors(itemRules, items, path, from) == own + ItemsErrors(itemRules, items, path, from + 1);
    assert |own| == 0;
    if from == i {
      ItemErrorsEmpty(itemRules, items[i].fields, path + "." + NatToString(i) + ".", rule);
    } else {
      ItemsErrorsEmpty(itemRules, items, path, from + 1, i, rule);
    }
  }

  /** In a valid document every sub-document of an array path meets every
      rule of its item schema. */
  lemma {:induction false} ValidItems(rules: seq<PathRule>, doc: Doc, isEmail: string -> bool, rule: PathRule, i: nat, itemRule: PathRule)
    requires Validate(rules, doc, isEmail) == [] && rule in rules && rule.kind.ItemsKind?
    requires ValueAt(doc, rule.path).Arr? && i < |ValueAt(doc, rule.path).items|
    requires ValueAt(doc, rule.path).items[i].Obj? && itemRule in rule.kind.itemRules
    ensures PathError(itemRule, ValueAt(doc, rule.path).items[i].fields, NoEmailCheck).None?
  {
    var items := ValueAt(doc, rule.path).items;
    if rules[0] == rule {
      assert ItemsErrors(rule.kind.itemRules, items, rule.path, 0) == [];
      ItemsErrorsEmpty(rule.kind.itemRules, items, rule.path, 0, i, itemRule);
    } else {
      assert Validate(rules[1..], doc, isEmail) == [];
      ValidItems(rules[1..], doc, isEmail, rule, i, itemRule);
    }
  }
}
